=== FILE: README.md ===
# ToDo-Board core, modelled in Dafny

A model of the logic of the ToDo-Board Kanban application: a board of columns
("categories") holding ticket cards, each card with a title, a description, an expiry date
and a priority, kept in a hosted backend and edited in the browser. The model covers five
parts of the code:

- **Drag and drop.** `useDragAndDrop` keeps one drag-state record. Its handlers move the
  record between idle and dragging. They compute a card's drop index from the midpoints of
  the rendered cards, and they reorder columns by splicing and reindexing.
- **Expiry.** The two classifiers map a day count to a status or a badge:
  `getExpiryStatus` in the notification library and `getExpiryInfo` on the card.
  `useExpiryChecker` raises a toast, and optionally a push, for every ticket that is due
  soon or overdue. It keeps a set of `id:status` keys so that each one is notified at most
  once.
- **Ticket editor and drafts.** The detail modal tracks whether the form is dirty and
  applies a loaded draft once. It saves, closes and deletes. `useDraftSave` loads a draft
  at most once and restores it only when it is newer than the ticket, and it owns the
  cached draft id. The drafts API packs the edited fields into a row, unpacks them with
  defaults, and chooses between updating by id, updating the existing row of the
  (ticket, user) pair, and inserting. The drafts store keeps the list of drafted ticket ids.
- **Stores.** The auth store and the notifications store are modelled as classes whose
  methods are the reducers' cases. The auth thunks' decisions are modelled on outcome
  values.
- **Validation and mapping.** This covers:
  - the login page's field rules, per-mode drafts and mode switching;
  - the registration endpoint's checks and status codes;
  - the ticket row mapping and the create and update payloads;
  - the batch position update;
  - the new-ticket dialog and the priority picker;
  - the column's ticket selector and rename handlers;
  - the notification settings panel.

Each source file becomes one module. A component or hook whose state is updated step by
step becomes a class whose fields are that state. A pure updater or helper becomes a
function. The store and API calls a handler makes are recorded in a log field, or
returned, in the order the code issues them. Shared pieces live in `Wrappers` (`Option`),
`Text`, `Types`, `Actions` and `Ordering`:

- `Text` holds the JavaScript whitespace class, `trim`, decimal rendering and `slice`.
- `Types` holds the application's records.
- `Actions` holds the dispatched store actions, which carry their arguments only.
- `Ordering` holds the stable sort by position, the splice move and its lemmas.

Several inputs that the application reads from its surroundings are parameters of the
model:

- the outcome of every network call;
- the day count of a date;
- the current time stamp;
- a random toast id;
- the browser's permission answer;
- `parseInt`'s result;
- the JSON encoder and decoder;
- the rendered geometry.

## Model

| member | source | states |
|---|---|---|
| DragAndDrop.DragEnd | src/hooks/useDragAndDrop.ts:49-51 | either drag-end handler returns the idle state: no dragged ids, no drag type, no target, position -1, not dragging, no highlight |
| DragAndDrop.TicketDragStart | src/hooks/useDragAndDrop.ts:33-47 | sets the dragged ticket, drag type 'ticket' and dragging; every other field keeps its previous value |
| DragAndDrop.CategoryDragStart | src/hooks/useDragAndDrop.ts:53-66 | sets the dragged column, drag type 'category' and dragging; every other field keeps its previous value |
| DragAndDrop.DragOverIndex | src/hooks/useDragAndDrop.ts:90-100 | the scan returns the first index whose midpoint is strictly greater than the pointer's y, or the column's ticket count when there is none |
| DragAndDrop.TicketDragOverUpdate | src/hooks/useDragAndDrop.ts:102-115 | an unchanged target and position give back the identical state; otherwise target, position and highlight move to this column and the drag fields are kept |
| DragAndDrop.TicketDragOver | src/hooks/useDragAndDrop.ts:72-118 | a column drag leaves the state untouched; otherwise the state is the updater's result at the scanned insertion index: the target is this column, an unchanged target and position give back the identical state, and the four drag fields are kept |
| DragAndDrop.ColumnDragOver | src/hooks/useDragAndDrop.ts:120-134 | a ticket drag leaves the state untouched; otherwise only the target and highlight move to this column |
| DragAndDrop.DragEnter | src/hooks/useDragAndDrop.ts:136-142 | only the highlight changes, to this column |
| DragAndDrop.DragLeave | src/hooks/useDragAndDrop.ts:144-156 | moving inside the zone, or leaving a zone that is not highlighted, changes nothing; otherwise highlight and target are cleared, position becomes -1 and the drag fields are kept |
| DragAndDrop.CountOthers | src/hooks/useDragAndDrop.ts:179 | the default drop index is the column size minus the number of occurrences of the dragged ticket; it equals the column size exactly when the dragged ticket is not in the column |
| DragAndDrop.DropIndex | src/hooks/useDragAndDrop.ts:181-190 | the scan skips the dragged element and returns the raw index of the first other element whose midpoint is strictly greater than the pointer's y, or the default |
| DragAndDrop.TicketDrop | src/hooks/useDragAndDrop.ts:158-196 | a non-ticket type or an empty id dispatches nothing and keeps the state; otherwise a move of that ticket to the target column at the scanned drop index is dispatched and the state is reset |
| DragAndDrop.SortByPosition | src/hooks/useDragAndDrop.ts:210 | the columns sorted ascending by position, as a permutation of the input |
| DragAndDrop.IndexOfId | src/hooks/useDragAndDrop.ts:211-212 | the first index holding the id, or -1 exactly when no column has it |
| DragAndDrop.Reindex | src/hooks/useDragAndDrop.ts:223 | each column keeps its record with its position set to its index |
| DragAndDrop.ColumnDrop | src/hooks/useDragAndDrop.ts:198-228 | a non-column payload keeps the state; a column payload always resets it, and a reorder is dispatched exactly when the id is non-empty, differs from the target and both ids exist |
| DragAndDrop.SortedHasId | src/hooks/useDragAndDrop.ts:210-212 | sorting by position neither adds nor loses an id |
| DragAndDrop.ReindexMove | src/hooks/useDragAndDrop.ts:219-223 | after splice-out, splice-in and reindex, positions are 0..n-1, the moved record sits at the target index and every other record is the one at its place after the splice-out, with only its position renumbered |
| DragAndDrop.ColumnDropReorders | src/hooks/useDragAndDrop.ts:210-224 | a dispatched reorder is a permutation of the sorted columns: the dragged column is at the target's former index, every other column is kept record for record in its relative order with only its position renumbered, and every position equals its index |
| DragAndDrop.ColumnDropSide | src/hooks/useDragAndDrop.ts:219-221 | there is no shift compensation: dragged from the left, the column lands just after the target; from the right, just before it |
| Ordering.SortByKey | src/hooks/useDragAndDrop.ts:210 | the result is sorted by the key and is a permutation of the input |
| Ordering.InsertByKeySorted | src/hooks/useDragAndDrop.ts:210 | inserting into a sorted sequence keeps it sorted |
| Ordering.RemoveAt | src/hooks/useDragAndDrop.ts:220 | `splice(i, 1)`: the elements before `i` stay, those after it shift down by one |
| Ordering.InsertAt | src/hooks/useDragAndDrop.ts:221 | `splice(i, 0, x)`: `x` is at `i`, the elements before stay, those from `i` shift up by one |
| Ordering.MoveShape | src/hooks/useDragAndDrop.ts:219-221 | the moved element ends at the target index, and removing it gives the original without it |
| Ordering.MovePermutes | src/hooks/useDragAndDrop.ts:219-221 | a move is a permutation |
| Ordering.MoveRoundTrip | src/hooks/useDragAndDrop.ts:219-221 | moving back to the original index restores the sequence |
| Expiry.GetExpiryStatus | src/lib/notifications.ts:22-43 | overdue exactly for a negative count; danger exactly for 0 or 1; warning exactly for 2..daysBefore; safe exactly above both 1 and daysBefore; the count is returned unchanged |
| Expiry.UrgencyMonotone | src/lib/notifications.ts:30-42 | for a fixed threshold, more days left never gives a more urgent status |
| Expiry.DefaultThresholdScenario | src/lib/notifications.ts:33-42 | with threshold 3, day 0 is danger 'Due today' and day 4 is safe '4 days left' |
| Expiry.GetExpiryInfo | src/components/board/TicketCard.tsx:13-36 | an empty date gives an empty badge; otherwise red for a negative count or 0, yellow for 1..3 and green above 3, with the count's label, and each colour class paired with its dot colour |
| Expiry.CardLabelAgrees | src/components/board/TicketCard.tsx:23-35 | the card's label equals the notifier's label for the same count, whatever the notifier's threshold |
| Expiry.CardColourMatchesDefaultThreshold | src/components/board/TicketCard.tsx:32-35 | from two days on, the card is yellow exactly when the notifier with threshold 3 says warning |
| Expiry.CardBadge | src/components/board/TicketCard.tsx:39 | a badge is computed exactly when the ticket has an expiry date, and it is then non-empty |
| ExpiryChecker.NoticeFor | src/hooks/useExpiryChecker.ts:29-43 | keyed `id:status`; overdue raises the error toast `"<title>" is overdue` (push title 'Overdue Ticket'), danger the error toast `"<title>": <label>` ('Ticket Due Soon'), warning the warning toast `"<title>" expires in <n> day`, plural unless n is 1 ('Upcoming Expiry'); a push with the toast's text is sent exactly when push is enabled |
| ExpiryChecker.CheckStep | src/hooks/useExpiryChecker.ts:19-45 | one ticket of the loop: a new alarming key is added and notified, any other ticket is skipped |
| ExpiryChecker.CheckAtMostOnce | src/hooks/useExpiryChecker.ts:25-27 | the key set only grows; every notified key was new and is then in the set, and no key is notified twice |
| ExpiryChecker.CheckOnlyAlarming | src/hooks/useExpiryChecker.ts:20-23 | every notification comes from a ticket that has an expiry and is not safe |
| ExpiryChecker.CheckPushOnlyWhenEnabled | src/hooks/useExpiryChecker.ts:31-43 | pushes are sent only when enabled, and always with a toast of the same text |
| ExpiryChecker.CheckCoversAlarming | src/hooks/useExpiryChecker.ts:25-27 | after a check, every alarming ticket's key is in the set |
| ExpiryChecker.CheckSilentWhenCovered | src/hooks/useExpiryChecker.ts:26 | a check whose alarming keys are all known raises nothing and adds nothing |
| ExpiryChecker.WarningAlwaysPlural | src/hooks/useExpiryChecker.ts:40 | a warning always has at least two days left, so the toast raised for it always says "days" |
| ExpiryChecker.CheckedAdvance | src/hooks/useExpiryChecker.ts:19-45 | the loop invariant (what remains completes the whole result) survives one more ticket |
| ExpiryChecker.ExpiryWatcher.constructor | src/hooks/useExpiryChecker.ts:13 | the hook starts with no notified keys |
| ExpiryChecker.ExpiryWatcher.Check | src/hooks/useExpiryChecker.ts:15-48 | an empty list does nothing; otherwise the loop leaves exactly the key set and notifications of one check over the tickets in order |
| NotificationSlice.WithoutToast | src/store/slices/notificationSlice.ts:53-55 | no toast with the id remains, every other toast is kept, and an unknown id changes nothing |
| NotificationSlice.WithoutToastConcat | src/store/slices/notificationSlice.ts:53-55 | the filter distributes over concatenation, so kept toasts keep their order |
| NotificationSlice.AddThenRemove | src/store/slices/notificationSlice.ts:49-55 | adding a toast with a fresh id and removing that id restores the list |
| NotificationSlice.NotificationStore.constructor | src/store/slices/notificationSlice.ts:18-24 | no toasts, threshold 3, push disabled |
| NotificationSlice.NotificationStore.AddToast | src/store/slices/notificationSlice.ts:49-52 | exactly one toast with the message and type is appended; earlier toasts and the settings are unchanged |
| NotificationSlice.NotificationStore.RemoveToast | src/store/slices/notificationSlice.ts:53-55 | the toasts become the filtered list; the settings are unchanged |
| NotificationSlice.NotificationStore.SetPushEnabled | src/store/slices/notificationSlice.ts:56-58 | only the push flag changes |
| NotificationSlice.NotificationStore.SetDaysBefore | src/store/slices/notificationSlice.ts:59-61 | only the threshold changes |
| NotificationSlice.NotificationStore.SettingsPersisted | src/store/slices/notificationSlice.ts:64-66 | the persisted threshold becomes the current one; nothing else changes |
| DraftsSlice.Marked | src/store/slices/draftsSlice.ts:23-27 | the id is present afterwards; it is appended only when absent, otherwise the list is unchanged |
| DraftsSlice.Unmarked | src/store/slices/draftsSlice.ts:28-30 | exactly the ids different from the given one remain; an absent id changes nothing |
| DraftsSlice.MarkIdempotent | src/store/slices/draftsSlice.ts:23-27 | marking twice is marking once |
| DraftsSlice.MarkKeepsNoDuplicates | src/store/slices/draftsSlice.ts:23-27 | marking never introduces a duplicate |
| DraftsSlice.UnmarkedSplit | src/store/slices/draftsSlice.ts:28-30 | unmarking distributes over concatenation, so the others keep their order |
| DraftsSlice.UnmarkKeepsNoDuplicates | src/store/slices/draftsSlice.ts:28-30 | unmarking keeps a duplicate-free list duplicate-free |
| DraftsSlice.MarkThenUnmark | src/store/slices/draftsSlice.ts:23-30 | marking a fresh id and unmarking it restores the list |
| DraftsSlice.DraftsStore.constructor | src/store/slices/draftsSlice.ts:8-10 | no drafted ids |
| DraftsSlice.DraftsStore.MarkDrafted | src/store/slices/draftsSlice.ts:23-27 | the list becomes the marked list |
| DraftsSlice.DraftsStore.UnmarkDrafted | src/store/slices/draftsSlice.ts:28-30 | the list becomes the unmarked list |
| DraftsSlice.DraftsStore.FetchFulfilled | src/store/slices/draftsSlice.ts:33-35 | the payload replaces the list wholesale |
| DraftsApi.MapRow | src/lib/api/drafts.ts:4-36 | when the description decodes, the six packed fields come from it with defaults '', '', '', '#6b7280', 0, ''; otherwise the description is the raw text and the rest take their defaults; a missing title reads '' |
| DraftsApi.UpdateById | src/lib/api/drafts.ts:79-84 | every row with the id is overwritten by the written row, and every other row is unchanged |
| DraftsApi.ExistingId | src/lib/api/drafts.ts:89-96 | an id is found only for a row of the (ticket, user) pair; when exactly one row matches, it is that row's id; with none or several, nothing is found |
| DraftsApi.SaveWithIdUpdatesOnly | src/lib/api/drafts.ts:78-87 | with an id, exactly the rows with that id are updated and nothing is inserted; with no such row the call fails and the table is unchanged |
| DraftsApi.SaveWithoutIdUpserts | src/lib/api/drafts.ts:89-114 | without an id, a successful lookup that singles out the pair's row leads to that row being updated in place (and the write succeeds unless the backend rejects it); a row is appended under the fresh id only when the lookup failed or found no single row; a failed call leaves the table unchanged |
| DraftsApi.SaveKeepsUniqueIds | src/lib/api/drafts.ts:78-114 | a save keeps row ids unique |
| DraftsApi.SaveKeepsOnePerPair | src/lib/api/drafts.ts:78-114 | sequentially, a save keeps at most one draft per (ticket, user) pair, for a call without an id whose lookup succeeds and for a call whose id names a row of the same pair |
| DraftsApi.LookupFailureDuplicates | src/lib/api/drafts.ts:89-111 | the lookup's error is ignored: when the pair already has a draft and the lookup fails, a save without an id inserts a second draft for the pair, and the table no longer has one draft per pair |
| DraftsApi.OnePerPairCountsOne | src/lib/api/drafts.ts:89-94 | with one draft per pair, the lookup matches at most one row |
| DraftsApi.SaveStampsUpdatedAt | src/lib/api/drafts.ts:75 | every successful save returns, and leaves in the table, a row stamped with the current time |
| DraftsApi.SaveRoundTrip | src/lib/api/drafts.ts:63-73 | with an encoder that the decoder inverts, the returned draft carries the request's title, description, expiry, priority fields and column unchanged |
| DraftsApi.TicketIdsWithDrafts | src/lib/api/drafts.ts:122-131 | exactly the non-null, non-empty ticket ids of the user's drafts |
| DraftsApi.SaveMarksTicket | src/lib/api/drafts.ts:51-131 | after a successful save for a real ticket, that ticket is among the user's drafted ids |
| DraftSave.DraftSession.constructor | src/hooks/useDraftSave.ts:38-41 | not initialized, no cached id, nothing restored, no callbacks |
| DraftSave.DraftSession.LoadEffect | src/hooks/useDraftSave.ts:48-62 | the lookup is issued only the first time both ids are present; a found draft's id is always cached; it is restored (flag, draft, callback) exactly when the ticket's time stamp is given and the draft's is strictly later |
| DraftSave.DraftSession.SaveCurrentDraft | src/hooks/useDraftSave.ts:64-76 | without a user or ticket nothing is sent; otherwise the request carries the cached id; success caches the returned id and marks the ticket drafted; failure changes nothing |
| DraftSave.DraftSession.ClearDraft | src/hooks/useDraftSave.ts:78-88 | without a cached id nothing is deleted; success clears the id, the restored draft and the notice and unmarks the ticket; failure changes nothing; the whole session state is `Cleared` of the old one |
| DraftSave.DraftSession.DismissRestoreNotice | src/hooks/useDraftSave.ts:90-92 | only the restore notice is hidden |
| DraftSave.LoadOnce | src/hooks/useDraftSave.ts:49-51 | running the effect twice issues the lookup at most once |
| TicketDetailModal.NestedFloors | src/components/board/TicketDetailModal.tsx:15-18 | the nested floors of seconds, minutes and hours are floors of the millisecond count |
| TicketDetailModal.TimeAgo | src/components/board/TicketDetailModal.tsx:11-25 | 'just now' under a minute (future times included); then minutes, hours and days under 60, 24 and 30 with the plural unless the count is 1; the locale date beyond |
| TicketDetailModal.Upper | src/components/board/TicketDetailModal.tsx:28 | upper-casing maps a lower-case letter to the upper-case letter 32 code points below it, keeps word characters word characters, and leaves anything else alone |
| TicketDetailModal.FormatActionLabel | src/components/board/TicketDetailModal.tsx:27-29 | the length is kept; every underscore becomes a space; every other character is kept, except that the first character of a word is upper-cased; no word of the result starts with a lower-case letter |
| TicketDetailModal.FormatActionLabelIdempotent | src/components/board/TicketDetailModal.tsx:27-29 | formatting a formatted label changes nothing |
| TicketDetailModal.FormatTicketMoved | src/components/board/TicketDetailModal.tsx:27-29 | 'ticket_moved' becomes 'Ticket Moved' |
| TicketDetailModal.InitialFields | src/components/board/TicketDetailModal.tsx:42-48 | the form starts from the ticket, with the expiry cut to at most 16 characters |
| TicketDetailModal.CleanIffInitial | src/components/board/TicketDetailModal.tsx:75-82 | the form is clean exactly when all seven fields equal the ticket's, the expiry compared with its 16-character prefix |
| TicketDetailModal.SavedTitle | src/components/board/TicketDetailModal.tsx:96 | the trimmed title, or the ticket's when the title is blank |
| TicketDetailModal.CountInCategory | src/components/board/TicketDetailModal.tsx:110 | the length of the destination column's filtered ticket list (`CategoryColumn.InCategory`); zero exactly when no ticket is there |
| TicketDetailModal.TicketEditor.constructor | src/components/board/TicketDetailModal.tsx:42-86 | mounted with the draft session of this ticket (`ticketId: ticket.id`); the form holds the ticket's values, is clean, and the history fetch is dispatched |
| TicketDetailModal.TicketEditor.OnDraftLoaded | src/components/board/TicketDetailModal.tsx:61-72 | only the first draft is applied; an empty title or expiry falls back to the ticket's, and label, colour and column are overwritten only when non-empty |
| TicketDetailModal.TicketEditor.HandleSave | src/components/board/TicketDetailModal.tsx:95-119 | sends the saved title; a move to the destination's current count is sent only when the column changed; the draft is cleared and the modal closed only after both succeed, and otherwise `saving` resets; the draft session then is `Cleared` of the old one (the cached id, restored draft and notice cleared and the ticket unmarked when a cached draft was deleted), and after a failure it is entirely unchanged |
| TicketDetailModal.TicketEditor.HandleClose | src/components/board/TicketDetailModal.tsx:121-134 | a draft is saved only when the form is dirty, with the saved title and the six other fields; the request carries the ticket, the user and the cached draft id and is sent only when both ids are present; a successful save caches the returned id and marks the ticket drafted, otherwise the cached id and drafted ids are unchanged; the restored draft, the notice, the load flag and the callbacks never change; the modal always closes |
| TicketDetailModal.TicketEditor.HandleDelete | src/components/board/TicketDetailModal.tsx:136-141 | the ticket leaves the local state and the modal closes before the draft is cleared and the deletion is dispatched; the draft session becomes `Cleared` of the old one, whether or not the deletion succeeded |
| TicketsApi.StrOr | src/lib/api/tickets.ts:8-11 | a present string column, or the default when the column is absent or null |
| TicketsApi.NumOr | src/lib/api/tickets.ts:12 | a present number column, or the default when the column is absent or null |
| TicketsApi.MapRow | src/lib/api/tickets.ts:4-19 | description, expiry and label default to '', colour to '#6b7280' and order to 0 |
| TicketsApi.MapRowDefaults | src/lib/api/tickets.ts:8-12 | a row without the optional columns reads with every default |
| TicketsApi.ExpiryValue | src/lib/api/tickets.ts:48 | an empty expiry is written as null, and only then |
| TicketsApi.CreatePayload | src/lib/api/tickets.ts:32-61 | the inserted row has exactly the ticket's columns, with the position and column unchanged and a null expiry exactly when it is empty |
| TicketsApi.CreateThenRead | src/lib/api/tickets.ts:32-61 | the created row reads back as a ticket with the given fields, an empty expiry coming back as '' |
| TicketsApi.PutTextColumns | src/lib/api/tickets.ts:76-80 | `updated_at` is stamped, and title, description, expiry and label are present exactly when supplied |
| TicketsApi.PutOtherColumns | src/lib/api/tickets.ts:81-84 | colour, order, column and position are present exactly when supplied; earlier columns are kept |
| TicketsApi.UpdatePayload | src/lib/api/tickets.ts:63-96 | the payload always holds `updated_at` and holds each other column exactly when its field was supplied |
| TicketsApi.UpdateThenRead | src/lib/api/tickets.ts:63-96 | the updated row reads as the old ticket with each supplied field replaced (an empty expiry as '') and a new `updatedAt`, and nothing else changed |
| TicketsApi.ReadAfterPatch | src/lib/api/tickets.ts:76-85 | the field-by-field reading of a patched row from what the payload carries |
| TicketsApi.LastPosition | src/lib/api/tickets.ts:103-110 | a batch gives an id a position exactly when it lists the id, and that position is one the batch lists for it |
| TicketsApi.Applied | src/lib/api/tickets.ts:106-109 | the entries that reach the table are exactly the batch's entries whose update did not fail, and all of them when none failed |
| TicketsApi.AllFailedKeepsRow | src/lib/api/tickets.ts:106-109 | a ticket all of whose updates failed keeps its row, as if the batch did not list it |
| TicketsApi.RepositionTouchesOnlyPosition | src/lib/api/tickets.ts:107 | setting the position column changes the ticket's position and no other field |
| TicketsApi.RepositionedStep | src/lib/api/tickets.ts:106-109 | one more update gives the row that update's position exactly when it names the row |
| TicketsApi.TicketTable.constructor | src/lib/api/tickets.ts:103-110 | the table holds the given rows |
| TicketsApi.TicketTable.BatchUpdatePositions | src/lib/api/tickets.ts:103-110 | the same ids remain, and each row is the old one with only its position changed, to its last value among the entries whose update did not fail |
| AuthSlice.MessageOr | src/store/slices/authSlice.ts:58 | the error's message, or the fallback when the message is empty |
| AuthSlice.Authenticate | src/store/slices/authSlice.ts:20-99 | fulfilled exactly when the auth call answered with a user and a session and the profile was read; the profile and token are then stored and returned; an auth-call or profile error rejects with `message || fallback`, a missing user or session with the fallback ('Login failed' / 'Signup failed'); a rejection stores nothing |
| AuthSlice.SignInNeedsUserAndSession | src/store/slices/authSlice.ts:73 | sign-in and sign-up reject with their fallback message when no user or no session came back |
| AuthSlice.SignOut | src/store/slices/authSlice.ts:101-115 | success clears storage and fulfils with a null pair; an error rejects with its message or 'Logout failed' |
| AuthSlice.LoadSession | src/store/slices/authSlice.ts:117-141 | the stored pair is returned exactly when both are stored and a session exists; otherwise the pair is null, and it is rejected, with `message || 'Session load failed'`, only when the session call throws; storage is cleared exactly when a pair was stored and no session came back |
| AuthSlice.AuthStore.constructor | src/store/slices/authSlice.ts:13-18 | no user, no token, not loading, no error |
| AuthSlice.AuthStore.Pending | src/store/slices/authSlice.ts:158-161 | loading and no error; user and token unchanged |
| AuthSlice.AuthStore.Fulfilled | src/store/slices/authSlice.ts:162-167 | user and token from the payload, not loading, no error |
| AuthSlice.AuthStore.SignOutFulfilled | src/store/slices/authSlice.ts:190-195 | user and token cleared, not loading, no error |
| AuthSlice.AuthStore.Rejected | src/store/slices/authSlice.ts:168-171 | not loading, the error is the payload; user and token unchanged |
| AuthSlice.AuthStore.SetCredentials | src/store/slices/authSlice.ts:147-150 | only user and token change |
| AuthSlice.AuthStore.ClearCredentials | src/store/slices/authSlice.ts:151-154 | only user and token change, to nothing |
| AuthSlice.AuthStore.Run | src/store/slices/authSlice.ts:158-213 | a pending case then a settled case: a fulfilment replaces the session, a rejection keeps it and records the error |
| LoginPage.IndexOfChar | app/login/page.tsx:68 | the first position of the character |
| LoginPage.EmailValidIffPattern | app/login/page.tsx:68 | the direct email test accepts exactly the strings matching `^[^\s@]+@[^\s@]+\.[^\s@]+$` |
| LoginPage.EmailValidMatchesPattern | app/login/page.tsx:68 | what the direct test accepts, the pattern matches |
| LoginPage.PatternPassesEmailValid | app/login/page.tsx:68 | what the pattern matches, the direct test accepts |
| LoginPage.ValidateFields | app/login/page.tsx:63-88 | the map holds exactly the first failing rule of email, password and (in sign-up only) username, and the form is valid exactly when the map is empty |
| LoginPage.ValidExactlyWhenNoRuleFails | app/login/page.tsx:66-87 | no error exactly when the email is non-empty and matches, the password has at least 6 characters, and in sign-up the username at least 3 |
| LoginPage.DraftRecord | app/login/page.tsx:45-51 | the stored draft never holds the password; sign-in keeps the email, sign-up the email and username |
| LoginPage.InitialMode | app/login/page.tsx:36-38 | sign-up only when the stored mode is exactly 'signup' |
| LoginPage.Page.constructor | app/login/page.tsx:28-33 | sign-in mode with empty fields and no errors |
| LoginPage.Page.Restore | app/login/page.tsx:35-43 | the stored mode is restored, and that mode's non-empty draft email and username are loaded |
| LoginPage.Page.PersistDraft | app/login/page.tsx:45-51 | only the current mode's draft key is written, with that mode's record |
| LoginPage.Page.Mount | app/login/page.tsx:35-51 | on the first commit the mode and draft are restored from storage; the draft effect then writes the first render's (sign-in, empty) record and then the restored mode's record |
| LoginPage.SignUpMountErasesSignInDraft | app/login/page.tsx:35-51 | opening the page in sign-up mode overwrites the stored sign-in draft with an empty email, so a later switch to sign-in shows an empty email whatever was stored |
| LoginPage.Page.HandleSubmit | app/login/page.tsx:90-110 | an invalid form sends nothing; a valid one sends the mode's request, and its success removes all three stored keys |
| LoginPage.Page.SwitchMode | app/login/page.tsx:112-124 | switching to the current mode changes nothing; otherwise the mode is stored, the target draft (or '') is loaded, and the password and errors are cleared |
| RegisterRoute.Validation | app/api/register/route.ts:19-29 | a missing field, then a short username, then a short password answer 400 with the source's message for each, in that order; the request passes exactly when none applies |
| RegisterRoute.Post | app/api/register/route.ts:15-85 | an invalid request creates no user; a create error answers 400; a failed profile upsert deletes the user and answers 500; a failed sign-in answers 200 'Account created. Please sign in.'; success answers 201 with avatar null and threshold 1 |
| CategoryColumn.InCategory | src/components/board/CategoryColumn.tsx:18 | exactly the column's tickets, with their multiplicities |
| CategoryColumn.ColumnTickets | src/components/board/CategoryColumn.tsx:16-21 | the column's tickets as a permutation sorted ascending by position |
| CategoryColumn.ColumnShowsItsTickets | src/components/board/CategoryColumn.tsx:16-21 | a ticket is shown exactly when it is in the store with this column's id |
| CategoryColumn.Column.constructor | src/components/board/CategoryColumn.tsx:23-26 | the input holds the column's name; not editing, nothing dispatched |
| CategoryColumn.Column.HandleNameSave | src/components/board/CategoryColumn.tsx:34-42 | a non-empty trimmed name that differs is dispatched; otherwise the input resets to the name; editing always ends |
| CategoryColumn.Column.HandleKeyDown | src/components/board/CategoryColumn.tsx:44-50 | Enter saves the name, Escape resets it without dispatching, and any other key changes nothing |
| CategoryColumn.Column.HandleDelete | src/components/board/CategoryColumn.tsx:52-55 | the deletion is dispatched and the confirmation hidden |
| CreateTicket.ActivePriority | src/components/board/CreateTicketModal.tsx:45-47 | the custom level in custom mode (label or 'Custom', colour, order 99), the selected preset otherwise |
| CreateTicket.Dialog.constructor | src/components/board/CreateTicketModal.tsx:23-31 | empty fields, the Low preset, custom colour '#6366f1', nothing sent |
| CreateTicket.Dialog.TitleChanged | src/components/board/CreateTicketModal.tsx:91-94 | typing sets the title and clears the title error |
| CreateTicket.Dialog.HandleSubmit | src/components/board/CreateTicketModal.tsx:49-73 | a blank title sets the error and sends nothing; otherwise the trimmed title and description are sent with expiry and column unchanged, success closes the dialog and failure re-enables it |
| PrioritySelector.FindPreset | src/components/board/PrioritySelector.tsx:24 | a preset is found only when its label and colour both equal the value's, and none is found exactly when no preset does |
| PrioritySelector.FindPresetIsFirst | src/components/board/PrioritySelector.tsx:24 | the found preset is the first that matches |
| PrioritySelector.CustomPriority | src/components/board/PrioritySelector.tsx:35 | the label (or 'Custom' when empty), the colour, order 99 |
| PrioritySelector.InitialSelector | src/components/board/PrioritySelector.tsx:24-27 | custom exactly when no preset matches; the custom fields come from the value only then, otherwise '' and '#6366f1' |
| PrioritySelector.PresetOpensAsPreset | src/components/board/PrioritySelector.tsx:24-25 | every preset opens the picker in preset mode |
| PrioritySelector.SelectPreset | src/components/board/PrioritySelector.tsx:29-32 | leaves custom mode and emits the preset unchanged; the custom fields are kept |
| PrioritySelector.ApplyCustom | src/components/board/PrioritySelector.tsx:34-36 | emits the custom level built from the picker's fields |
| PrioritySelector.CustomRoundTrip | src/components/board/PrioritySelector.tsx:24-36 | a custom level that matches no preset reopens the picker in custom mode with the same fields |
| PrioritySelector.ActivePresetLabel | src/components/board/PrioritySelector.tsx:38 | a preset is highlighted only outside custom mode, and then it is the value's label |
| NotificationSettings.Panel.constructor | src/components/notifications/NotificationSettings.tsx:16 | the input shows the current threshold |
| NotificationSettings.Panel.HandleDaysBlur | src/components/notifications/NotificationSettings.tsx:29-41 | an unparsable or sub-1 value reverts the input; an equal value does nothing; a new valid value becomes the threshold and is persisted only when a user id is known |
| NotificationSettings.Panel.HandlePushToggle | src/components/notifications/NotificationSettings.tsx:43-52 | disabling is unconditional; enabling asks for permission and takes effect only when it is 'granted' |
| NotificationSettings.NoUpperBound | src/components/notifications/NotificationSettings.tsx:29-41 | any threshold of at least one day is accepted, however large |
| Text.Trim | src/components/board/CategoryColumn.tsx:35 | `trim`: the input is the result with only whitespace before and after it; the result is empty exactly when the input is all whitespace, and otherwise neither starts nor ends with whitespace |
| Text.TrimIsInfix | src/components/board/CategoryColumn.tsx:35 | the trimmed text is a contiguous part of the input |
| Text.TrimIdempotent | src/components/board/CategoryColumn.tsx:35 | trimming twice is trimming once |
| Text.NatToString | src/components/notifications/NotificationSettings.tsx:16 | a non-empty string of decimal digits whose decimal value is the number, with a leading zero only for zero |
| Text.IntToString | src/components/notifications/NotificationSettings.tsx:16 | a non-empty decimal rendering: a leading '-' exactly for a negative number, then digits whose decimal value is the number's magnitude, with no leading zero |
| Text.SliceTo | src/components/board/TicketDetailModal.tsx:44 | a prefix of the text, of length at most `n` |

## Left out

- The browser's drag-and-drop geometry is reduced to the numbers the handlers compare. `getBoundingClientRect`, `querySelectorAll` and `relatedTarget` containment become a sequence of midpoints, the pointer's `y` and a boolean. `dataTransfer` entries become strings, with '' for a missing entry.
- Date arithmetic is not modelled. `new Date`, `setHours` and `Math.round` over milliseconds, with their floating-point and daylight-saving effects, are replaced by an integer day count. `toLocaleDateString` is an opaque string, and `toISOString()` time stamps and `new Date(...).getTime()` are inputs.
- JSON is abstract. `JSON.stringify` and `JSON.parse` are encoder and decoder parameters, and the save-then-read round trip assumes the decoder inverts the encoder.
- Network calls are outcome parameters. This covers the Supabase queries and auth calls (including the failure of the drafts pair lookup and of each batched position update), and the `getDraft`, `deleteDraft`, `getTickets`, `deleteTicket` and `updateNotificationSettings` requests. Their effect inside the backend is not modelled, beyond the `drafts` and `tickets` tables.
- The board, tickets and history stores declare no reducers, so `moveTicket`, `reorderCategories`, `updateTicket`, `deleteTicket`, `removeTicketFromState`, `fetchCardHistory`, `addTicket`, `updateCategory` and `deleteCategory` are recorded with their arguments and have no effect in the model.
- `TicketsApi.TicketTable.BatchUpdatePositions`: `Promise.all` runs the updates in parallel; the model applies them one after another. A failed update is modelled, as a skipped entry (`failed`); the call still resolves, as the source never reads the errors.
- `DraftsApi.SaveKeepsOnePerPair`: the lookup-then-insert race between concurrent saves is not modelled. The one-draft-per-pair property is proved for saves made one at a time, for a save whose id names a row of the same pair, and only when the pair lookup succeeds. The source ignores the lookup's error and then inserts a duplicate (`DraftsApi.LookupFailureDuplicates`).
- `ExpiryChecker.ExpiryWatcher.Check` models one `check()` call. The 60-second `setInterval` repeats the same call, and its clean-up is not modelled.
- Timers and animation frames of the toast container are not modelled.
- `NotificationSlice.NotificationStore.AddToast`: the toast id built from `Date.now()` and `Math.random()` is a parameter, so uniqueness of ids is assumed where a lemma needs it (`NotificationSlice.AddThenRemove`).
- Browser notification permission, `sendPushNotification` and focus handling are not modelled. A push is recorded as a value and the permission answer is a parameter.
- `parseInt` is abstract: its result is an `Option<int>`, with `None` for NaN.
- String lengths count code points, whereas JavaScript counts UTF-16 units. The two differ only for characters outside the Basic Multilingual Plane, in the password and username length rules and in `slice(0, 16)`.
- `\w` and upper-casing in `formatActionLabel` are modelled for ASCII only, as the JavaScript regular expression's `\w` is.
- `Ordering.SortByKey` and `DragAndDrop.SortByPosition`: the contracts state sortedness and permutation, not stability. The insertion sort itself is stable, as `Array.prototype.sort` is.
- `TicketsApi.MapRow`: columns that have no default in the source (id, title, category, user, position and time stamps) read as '' or 0 when absent. The source would leave them `undefined`.
- `LoginPage.ReadDraft`: a stored value that parses to `null` or to a non-object is read as the empty draft.
- `useDraftSave`'s and `TicketDetailModal`'s props (ticket id, user, time stamps) are fixed for the lifetime of one instance. A re-render with new props is a new instance.
- Column reordering works on sequence values. The source splices a local copy of the array, which no other code sees, so there is no aliasing to model.
- `ExpiryChecker.WarningMessage`: the singular "day" branch of the warning text cannot be reached, because a warning always has at least two days left (`ExpiryChecker.WarningAlwaysPlural`).
- `CategoryColumn`'s double-click handler, focus handling and the create-ticket dialog's Escape listener only toggle view state, and are not modelled.
- `AddCategoryForm`, `Navbar`, `Button`, `Spinner`, `DropIndicator`, `AuthGuard`, `AuthInitializer`, the pages, `src/lib/toast.ts` and the store set-up are rendering or wiring only, and are not part of this model.

=== FILE: actions.dfy ===
/**
 * The actions the components dispatch into the board and tickets stores. Those stores
 * declare no reducers (src/store/slices/boardSlice.ts, ticketsSlice.ts, historySlice.ts),
 * so an action is recorded with its arguments and has no modelled effect.
 */
module Actions {
  import opened Types

  datatype TicketFields = TicketFields(
    title: string,
    description: string,
    expiryDate: string,
    priorityLabel: string,
    priorityColor: string,
    priorityOrder: int)

  datatype BoardAction =
    | MoveTicket(ticketId: string, targetCategoryId: string, targetPosition: int)
    | ReorderCategories(categories: seq<Category>)
    | UpdateCategory(categoryId: string, name: string)
    | DeleteCategory(categoryId: string)
    | AddTicket(fields: TicketFields, categoryId: string)
    | UpdateTicket(ticketId: string, fields: TicketFields)
    | DeleteTicket(ticketId: string)
    | RemoveTicketFromState(ticketId: string)
    | FetchCardHistory(ticketId: string)
}

=== FILE: auth_slice.dfy ===
/**
 * The auth slice (src/store/slices/authSlice.ts): the four async thunks' decisions, with
 * every backend call's outcome given as a value, and the reducer as a store whose methods
 * are the reducer's cases. Browser storage is reported as an effect of each thunk.
 */
module AuthSlice {
  import opened Wrappers
  import opened Types

  /**
   * What `signUp` / `signInWithPassword` answered: an error, or possibly a user id and a
   * session (given by its access token).
   */
  datatype AuthCall = AuthError(message: string) | AuthOk(userId: Option<string>, accessToken: Option<string>)

  /** What the `profiles` lookup answered. */
  datatype ProfileCall = ProfileError(message: string) | ProfileOk(profile: User)

  /** What `getSession` did: threw, answered with an error, or answered with or without a session. */
  datatype SessionCall = SessionThrew(message: string) | SessionError | SessionOk(hasSession: bool)

  /** The thunk's settled action: fulfilled with a (user, token) payload, or rejected with a message. */
  datatype Settled = Fulfilled(user: Option<User>, token: Option<string>) | Rejected(message: string)

  datatype StorageEffect = StoreAuth(token: string, user: User) | ClearStoredAuth | NoStorage

  datatype ThunkOutcome = ThunkOutcome(settled: Settled, storage: StorageEffect)

  /** `(error as Error).message || fallback`. */
  function MessageOr(message: string, fallback: string): (r: string)
    ensures r != "" || fallback == ""
    ensures message != "" ==> r == message
  {
    if message != "" then message else fallback
  }

  /**
   * `signIn` (fallback 'Login failed') and `signUp` (fallback 'Signup failed'): the auth
   * call must yield both a user and a session; then the profile is read, stored with the
   * token, and returned. `profile` matters only when the auth call succeeded.
   */
  function Authenticate(auth: AuthCall, profile: ProfileCall, fallback: string): (o: ThunkOutcome)
    ensures o.settled.Fulfilled? <==> auth.AuthOk? && auth.userId.Some? && auth.accessToken.Some? && profile.ProfileOk?
    ensures o.settled.Fulfilled? ==>
      && o.settled == Fulfilled(Some(profile.profile), auth.accessToken)
      && o.storage == StoreAuth(auth.accessToken.value, profile.profile)
    ensures o.settled.Rejected? ==> o.storage == NoStorage
    ensures auth.AuthOk? && (auth.userId.None? || auth.accessToken.None?) ==> o.settled == Rejected(fallback)
    ensures auth.AuthError? ==> o.settled == Rejected(MessageOr(auth.message, fallback))
    ensures auth.AuthOk? && auth.userId.Some? && auth.accessToken.Some? && profile.ProfileError? ==>
      o.settled == Rejected(MessageOr(profile.message, fallback))
  {
    match auth
    case AuthError(m) => ThunkOutcome(Rejected(MessageOr(m, fallback)), NoStorage)
    case AuthOk(userId, token) =>
      if userId.None? || token.None? then ThunkOutcome(Rejected(MessageOr(fallback, fallback)), NoStorage)
      else match profile
        case ProfileError(m) => ThunkOutcome(Rejected(MessageOr(m, fallback)), NoStorage)
        case ProfileOk(u) => ThunkOutcome(Fulfilled(Some(u), token), StoreAuth(token.value, u))
  }

  function SignIn(auth: AuthCall, profile: ProfileCall): ThunkOutcome {
    Authenticate(auth, profile, "Login failed")
  }

  function SignUp(auth: AuthCall, profile: ProfileCall): ThunkOutcome {
    Authenticate(auth, profile, "Signup failed")
  }

  /** Sign-in rejects a response without a user or without a session, whatever the profile. */
  lemma SignInNeedsUserAndSession(userId: Option<string>, token: Option<string>, profile: ProfileCall)
    requires userId.None? || token.None?
    ensures SignIn(AuthOk(userId, token), profile).settled == Rejected("Login failed")
    ensures SignUp(AuthOk(userId, token), profile).settled == Rejected("Signup failed")
  {
  }

  /** `signOut`: `error` is the sign-out call's error, if any. */
  function SignOut(error: Option<string>): (o: ThunkOutcome)
    ensures error.None? ==> o == ThunkOutcome(Fulfilled(None, None), ClearStoredAuth)
    ensures error.Some? ==> o == ThunkOutcome(Rejected(MessageOr(error.value, "Logout failed")), NoStorage)
  {
    match error
    case None => ThunkOutcome(Fulfilled(None, None), ClearStoredAuth)
    case Some(m) => ThunkOutcome(Rejected(MessageOr(m, "Logout failed")), NoStorage)
  }

  /**
   * `loadSession`: the stored pair is returned only when both are stored and a session
   * exists; with a stored pair, a missing or failed session clears storage and yields a
   * null pair, and a thrown call clears storage and rejects.
   */
  function LoadSession(storedUser: Option<User>, storedToken: Option<string>, session: SessionCall): (o: ThunkOutcome)
    ensures o.settled.Fulfilled? && o.settled.user.Some? <==>
      storedUser.Some? && Truthy(storedToken) && session == SessionOk(true)
    ensures o.settled.Fulfilled? && o.settled.user.Some? ==> o.settled == Fulfilled(storedUser, storedToken)
    ensures o.settled.Fulfilled? && o.settled.user.None? ==> o.settled.token.None?
    ensures o.settled.Rejected? <==> storedUser.Some? && Truthy(storedToken) && session.SessionThrew?
    ensures o.settled.Rejected? ==> o.settled == Rejected(MessageOr(session.message, "Session load failed"))
    ensures o.storage == if storedUser.Some? && Truthy(storedToken) && session != SessionOk(true)
                         then ClearStoredAuth else NoStorage
  {
    if storedUser.Some? && Truthy(storedToken) then
      match session
      case SessionThrew(m) => ThunkOutcome(Rejected(MessageOr(m, "Session load failed")), ClearStoredAuth)
      case SessionError => ThunkOutcome(Fulfilled(None, None), ClearStoredAuth)
      case SessionOk(has) =>
        if has then ThunkOutcome(Fulfilled(storedUser, storedToken), NoStorage)
        else ThunkOutcome(Fulfilled(None, None), ClearStoredAuth)
    else ThunkOutcome(Fulfilled(None, None), NoStorage)
  }

  class AuthStore {
    var user: Option<User>
    var token: Option<string>
    var loading: bool
    var error: Option<string>

    constructor ()
      ensures user.None? && token.None? && !loading && error.None?
    {
      user := None;
      token := None;
      loading := false;
      error := None;
    }

    /** Every thunk's `pending` case. */
    method Pending()
      modifies this
      ensures loading && error.None?
      ensures user == old(user) && token == old(token)
    {
      loading := true;
      error := None;
    }

    /** `signUp`, `signIn` and `loadSession` fulfilled: the payload's pair becomes the session. */
    method Fulfilled(payloadUser: Option<User>, payloadToken: Option<string>)
      modifies this
      ensures user == payloadUser && token == payloadToken && !loading && error.None?
    {
      loading := false;
      user := payloadUser;
      token := payloadToken;
      error := None;
    }

    method SignOutFulfilled()
      modifies this
      ensures user.None? && token.None? && !loading && error.None?
    {
      loading := false;
      user := None;
      token := None;
      error := None;
    }

    /** Every thunk's `rejected` case. */
    method Rejected(payload: string)
      modifies this
      ensures !loading && error == Some(payload)
      ensures user == old(user) && token == old(token)
    {
      loading := false;
      error := Some(payload);
    }

    method SetCredentials(u: User, t: string)
      modifies this
      ensures user == Some(u) && token == Some(t)
      ensures loading == old(loading) && error == old(error)
    {
      user := Some(u);
      token := Some(t);
    }

    method ClearCredentials()
      modifies this
      ensures user.None? && token.None?
      ensures loading == old(loading) && error == old(error)
    {
      user := None;
      token := None;
    }

    /**
     * One dispatch of a sign-in, sign-up or session load: pending, then the settled case.
     * A rejection keeps the previous session, a fulfilment replaces it.
     */
    method Run(s: Settled)
      modifies this
      ensures !loading
      ensures s.Fulfilled? ==> user == s.user && token == s.token && error.None?
      ensures s.Rejected? ==> user == old(user) && token == old(token) && error == Some(s.message)
    {
      Pending();
      match s
      case Fulfilled(u, t) => Fulfilled(u, t);
      case Rejected(m) => Rejected(m);
    }
  }
}

=== FILE: category_column.dfy ===
/**
 * One board column (src/components/board/CategoryColumn.tsx): the tickets it shows and
 * the rename / delete handlers. The column's dispatches are recorded in `dispatched`.
 */
module CategoryColumn {
  import opened Text
  import opened Types
  import opened Actions
  import opened Ordering

  /** The tickets of one column, in store order. */
  function InCategory(tickets: seq<Ticket>, categoryId: string): (r: seq<Ticket>)
    ensures forall t :: multiset(r)[t] == if t.categoryId == categoryId then multiset(tickets)[t] else 0
  {
    if |tickets| == 0 then []
    else
      var rest := InCategory(tickets[1..], categoryId);
      assert tickets == [tickets[0]] + tickets[1..];
      if tickets[0].categoryId == categoryId then [tickets[0]] + rest else rest
  }

  function Position(t: Ticket): int {
    t.position
  }

  /** The column's ticket selector: its tickets, sorted ascending by position. */
  function ColumnTickets(tickets: seq<Ticket>, categoryId: string): (r: seq<Ticket>)
    ensures SortedBy(r, Position)
    ensures forall t :: multiset(r)[t] == if t.categoryId == categoryId then multiset(tickets)[t] else 0
  {
    SortByKey(InCategory(tickets, categoryId), Position)
  }

  /** A column shows exactly the tickets whose category is the column's. */
  lemma ColumnShowsItsTickets(tickets: seq<Ticket>, categoryId: string)
    ensures forall t :: t in ColumnTickets(tickets, categoryId) <==> t in tickets && t.categoryId == categoryId
  {
    var r := ColumnTickets(tickets, categoryId);
    forall t ensures t in r <==> t in tickets && t.categoryId == categoryId {
      assert t in r <==> multiset(r)[t] > 0;
      assert t in tickets <==> multiset(tickets)[t] > 0;
    }
  }

  class Column {
    const category: Category
    var nameValue: string
    var isEditing: bool
    var showDeleteConfirm: bool
    var dispatched: seq<BoardAction>

    constructor (category: Category)
      ensures this.category == category && nameValue == category.name
      ensures !isEditing && !showDeleteConfirm && dispatched == []
    {
      this.category := category;
      nameValue := category.name;
      isEditing := false;
      showDeleteConfirm := false;
      dispatched := [];
    }

    /**
     * `handleNameSave`: a non-empty trimmed name that differs is sent; otherwise the input
     * goes back to the current name. Editing ends either way.
     */
    method HandleNameSave()
      modifies this
      ensures var trimmed := Trim(old(nameValue));
        && (trimmed != "" && trimmed != category.name ==>
              dispatched == old(dispatched) + [UpdateCategory(category.id, trimmed)] && nameValue == old(nameValue))
        && (trimmed == "" || trimmed == category.name ==>
              dispatched == old(dispatched) && nameValue == category.name)
      ensures !isEditing && showDeleteConfirm == old(showDeleteConfirm)
    {
      var trimmed := Trim(nameValue);
      if trimmed != "" && trimmed != category.name {
        dispatched := dispatched + [UpdateCategory(category.id, trimmed)];
      } else {
        nameValue := category.name;
      }
      isEditing := false;
    }

    /** `handleKeyDown`: Enter saves, Escape reverts without sending, other keys do nothing. */
    method HandleKeyDown(key: string)
      modifies this
      ensures key == "Escape" ==>
        nameValue == category.name && !isEditing && dispatched == old(dispatched)
      ensures key != "Enter" && key != "Escape" ==>
        nameValue == old(nameValue) && isEditing == old(isEditing) && dispatched == old(dispatched)
      ensures key == "Enter" ==>
        var trimmed := Trim(old(nameValue));
        && !isEditing
        && (trimmed != "" && trimmed != category.name ==>
              dispatched == old(dispatched) + [UpdateCategory(category.id, trimmed)] && nameValue == old(nameValue))
        && (trimmed == "" || trimmed == category.name ==>
              dispatched == old(dispatched) && nameValue == category.name)
      ensures showDeleteConfirm == old(showDeleteConfirm)
    {
      if key == "Enter" {
        HandleNameSave();
      }
      if key == "Escape" {
        nameValue := category.name;
        isEditing := false;
      }
    }

    /** `handleDelete`: sends the deletion and hides the confirmation. */
    method HandleDelete()
      modifies this
      ensures dispatched == old(dispatched) + [DeleteCategory(category.id)]
      ensures !showDeleteConfirm && nameValue == old(nameValue) && isEditing == old(isEditing)
    {
      dispatched := dispatched + [DeleteCategory(category.id)];
      showDeleteConfirm := false;
    }
  }
}

=== FILE: create_ticket.dfy ===
/**
 * The new-ticket dialog (src/components/board/CreateTicketModal.tsx): the active priority
 * and the submit handler. Its dispatches and its `onClose` call are recorded in order.
 */
module CreateTicket {
  import opened Text
  import opened Types
  import opened Actions
  import opened PrioritySelector

  /** `activePriority`: the custom level in custom mode, the selected preset otherwise. */
  function ActivePriority(isCustom: bool, selected: Priority, customLabel: string, customColor: string): (p: Priority)
    ensures isCustom ==> p == CustomPriority(customLabel, customColor) && p.order == CustomOrder
    ensures !isCustom ==> p == selected
  {
    if isCustom then CustomPriority(customLabel, customColor) else selected
  }

  datatype DialogEvent = Dispatched(action: BoardAction) | Closed

  class Dialog {
    const categoryId: string
    var title: string
    var description: string
    var expiryDate: string
    var selectedPriority: Priority
    var isCustom: bool
    var customLabel: string
    var customColor: string
    var submitting: bool
    var titleError: bool
    var log: seq<DialogEvent>

    /** A fresh dialog: empty fields, the Low preset, custom colour '#6366f1'. */
    constructor (categoryId: string)
      ensures this.categoryId == categoryId && title == "" && description == "" && expiryDate == ""
      ensures selectedPriority == Low && !isCustom && customLabel == "" && customColor == DefaultCustomColor
      ensures !submitting && !titleError && log == []
    {
      this.categoryId := categoryId;
      title := "";
      description := "";
      expiryDate := "";
      selectedPriority := Presets[0];
      isCustom := false;
      customLabel := "";
      customColor := DefaultCustomColor;
      submitting := false;
      titleError := false;
      log := [];
    }

    /** Typing a title clears the title error. */
    method TitleChanged(value: string)
      modifies this
      ensures title == value && !titleError
      ensures submitting == old(submitting) && log == old(log)
    {
      title := value;
      if titleError {
        titleError := false;
      }
    }

    /**
     * `handleSubmit`: a blank title only raises the title error; otherwise the trimmed
     * title and description are sent with the expiry and column unchanged, and `added`
     * (the outcome of that dispatch) closes the dialog or re-enables it.
     */
    method HandleSubmit(added: bool)
      modifies this
      ensures AllSpace(old(title)) ==>
        titleError && log == old(log) && submitting == old(submitting)
      ensures !AllSpace(old(title)) ==>
        var p := ActivePriority(isCustom, selectedPriority, customLabel, customColor);
        var add := AddTicket(TicketFields(Trim(title), Trim(description), expiryDate, p.name, p.color, p.order), categoryId);
        && log == old(log) + [Dispatched(add)] + (if added then [Closed] else [])
        && submitting == added && titleError == old(titleError)
      ensures title == old(title) && description == old(description) && expiryDate == old(expiryDate)
      ensures isCustom == old(isCustom) && selectedPriority == old(selectedPriority)
      ensures customLabel == old(customLabel) && customColor == old(customColor)
    {
      var trimmed := Trim(title);
      if trimmed == "" {
        titleError := true;
        return;
      }
      submitting := true;
      var p := ActivePriority(isCustom, selectedPriority, customLabel, customColor);
      var add := AddTicket(TicketFields(trimmed, Trim(description), expiryDate, p.name, p.color, p.order), categoryId);
      if added {
        log := log + [Dispatched(add), Closed];
      } else {
        log := log + [Dispatched(add)];
        submitting := false;
      }
    }
  }
}

=== FILE: draft_save.dfy ===
/**
 * The draft-save hook (src/hooks/useDraftSave.ts) of one open ticket editor. The hook's
 * refs and state are fields; the drafts slice it dispatches to is the shared store
 * `drafts`. Backend calls are split in two: a method returns the request it issues and
 * takes the call's outcome as a parameter. `instant` reads a timestamp as milliseconds,
 * `None` where `new Date` gives an invalid date.
 */
module DraftSave {
  import opened Wrappers
  import opened Types
  import opened DraftsSlice
  import DraftsApi

  /** The fields the editor hands to `saveCurrentDraft`. */
  datatype DraftPayload = DraftPayload(
    title: string,
    description: string,
    expiryDate: string,
    priorityLabel: string,
    priorityColor: string,
    priorityOrder: int,
    categoryId: string)

  /** The restore rule: the ticket's timestamp is given and the draft's is strictly later. */
  predicate NewerThanTicket(draftUpdatedAt: string, ticketUpdatedAt: Option<string>, instant: string -> Option<int>) {
    && Truthy(ticketUpdatedAt)
    && instant(draftUpdatedAt).Some? && instant(ticketUpdatedAt.value).Some?
    && instant(draftUpdatedAt).value > instant(ticketUpdatedAt.value).value
  }

  /** The part of a session that the editor's handlers can change, with the drafted ids. */
  datatype DraftState = DraftState(
    initialized: bool,
    cachedDraftId: Option<string>,
    draftRestored: bool,
    restoredDraft: Option<Draft>,
    loadedCallbacks: seq<Draft>,
    draftedTicketIds: seq<string>)

  /**
   * The state `clearDraft` leaves: with a cached id whose deletion succeeded, the id, the
   * restored draft and the notice are cleared and the ticket is unmarked; otherwise nothing
   * changes.
   */
  function Cleared(st: DraftState, ticketId: Option<string>, deleted: bool): DraftState {
    if Truthy(st.cachedDraftId) && deleted then
      st.(cachedDraftId := None, restoredDraft := None, draftRestored := false,
          draftedTicketIds := if Truthy(ticketId) then Unmarked(st.draftedTicketIds, ticketId.value)
                              else st.draftedTicketIds)
    else st
  }

  class DraftSession {
    const ticketId: Option<string>
    const userId: Option<string>
    const drafts: DraftsStore
    /** `initialized`: the lookup has been issued. */
    var initialized: bool
    var cachedDraftId: Option<string>
    var draftRestored: bool
    var restoredDraft: Option<Draft>
    /** The drafts handed to `onDraftLoaded`, in order. */
    var loadedCallbacks: seq<Draft>

    constructor (ticketId: Option<string>, userId: Option<string>, drafts: DraftsStore)
      ensures this.ticketId == ticketId && this.userId == userId && this.drafts == drafts
      ensures !initialized && cachedDraftId.None? && !draftRestored && restoredDraft.None?
      ensures loadedCallbacks == []
    {
      this.ticketId := ticketId;
      this.userId := userId;
      this.drafts := drafts;
      initialized := false;
      cachedDraftId := None;
      draftRestored := false;
      restoredDraft := None;
      loadedCallbacks := [];
    }

    function Snapshot(): DraftState
      reads this, drafts
    {
      DraftState(initialized, cachedDraftId, draftRestored, restoredDraft, loadedCallbacks, drafts.draftedTicketIds)
    }

    /**
     * One run of the load effect. It issues the lookup (returned as `lookup`) only the
     * first time both a ticket and a user are present; `found` is what that lookup yields
     * (`None` for no draft or a failed call).
     */
    method LoadEffect(ticketUpdatedAt: Option<string>, found: Option<Draft>, instant: string -> Option<int>)
      returns (lookup: Option<(string, string)>)
      modifies this
      ensures lookup.Some? <==> Truthy(ticketId) && userId.Some? && !old(initialized)
      ensures lookup.Some? ==> lookup.value == (ticketId.value, userId.value)
      ensures initialized == (old(initialized) || lookup.Some?)
      ensures cachedDraftId == if lookup.Some? && found.Some? then Some(found.value.id) else old(cachedDraftId)
      ensures var restore := lookup.Some? && found.Some? && NewerThanTicket(found.value.updatedAt, ticketUpdatedAt, instant);
        && restoredDraft == (if restore then found else old(restoredDraft))
        && draftRestored == (restore || old(draftRestored))
        && loadedCallbacks == old(loadedCallbacks) + (if restore then [found.value] else [])
    {
      lookup := None;
      if !Truthy(ticketId) || userId.None? {
        return;
      }
      if initialized {
        return;
      }
      initialized := true;
      lookup := Some((ticketId.value, userId.value));
      if found.None? {
        return;
      }
      var draft := found.value;
      cachedDraftId := Some(draft.id);
      if NewerThanTicket(draft.updatedAt, ticketUpdatedAt, instant) {
        restoredDraft := Some(draft);
        draftRestored := true;
        loadedCallbacks := loadedCallbacks + [draft];
      }
    }

    /**
     * `saveCurrentDraft`: issues `request` (with the cached id) when a user and a ticket are
     * present; `saved` is the draft the call returns, `None` when it throws.
     */
    method SaveCurrentDraft(payload: DraftPayload, saved: Option<Draft>) returns (request: Option<DraftsApi.SaveRequest>)
      modifies this, drafts
      ensures request.Some? <==> userId.Some? && Truthy(ticketId)
      ensures request.Some? ==>
        request.value == DraftsApi.SaveRequest(ticketId, payload.title, payload.description, payload.expiryDate,
          payload.priorityLabel, payload.priorityColor, payload.priorityOrder, payload.categoryId,
          userId.value, old(cachedDraftId))
      ensures request.Some? && saved.Some? ==>
        cachedDraftId == Some(saved.value.id)
        && drafts.draftedTicketIds == Marked(old(drafts.draftedTicketIds), ticketId.value)
      ensures request.None? || saved.None? ==>
        cachedDraftId == old(cachedDraftId) && drafts.draftedTicketIds == old(drafts.draftedTicketIds)
      ensures initialized == old(initialized) && draftRestored == old(draftRestored)
      ensures restoredDraft == old(restoredDraft) && loadedCallbacks == old(loadedCallbacks)
    {
      request := None;
      if userId.None? || !Truthy(ticketId) {
        return;
      }
      request := Some(DraftsApi.SaveRequest(ticketId, payload.title, payload.description, payload.expiryDate,
        payload.priorityLabel, payload.priorityColor, payload.priorityOrder, payload.categoryId,
        userId.value, cachedDraftId));
      if saved.Some? {
        cachedDraftId := Some(saved.value.id);
        drafts.MarkDrafted(ticketId.value);
      }
    }

    /**
     * `clearDraft`: deletes the cached draft (the id is returned as `deleting`) when there is
     * one; `deleted` says whether that call succeeded.
     */
    method ClearDraft(deleted: bool) returns (deleting: Option<string>)
      modifies this, drafts
      ensures deleting.Some? <==> Truthy(old(cachedDraftId))
      ensures deleting.Some? ==> deleting == old(cachedDraftId)
      ensures deleting.Some? && deleted ==>
        && cachedDraftId.None? && restoredDraft.None? && !draftRestored
        && drafts.draftedTicketIds == (if Truthy(ticketId) then Unmarked(old(drafts.draftedTicketIds), ticketId.value)
                                       else old(drafts.draftedTicketIds))
      ensures deleting.None? || !deleted ==>
        && cachedDraftId == old(cachedDraftId) && restoredDraft == old(restoredDraft)
        && draftRestored == old(draftRestored) && drafts.draftedTicketIds == old(drafts.draftedTicketIds)
      ensures initialized == old(initialized) && loadedCallbacks == old(loadedCallbacks)
      ensures Snapshot() == Cleared(old(Snapshot()), ticketId, deleted)
    {
      deleting := None;
      if Truthy(cachedDraftId) {
        deleting := cachedDraftId;
        if deleted {
          cachedDraftId := None;
          restoredDraft := None;
          draftRestored := false;
          if Truthy(ticketId) {
            drafts.UnmarkDrafted(ticketId.value);
          }
        }
      }
    }

    /** `dismissRestoreNotice`: hides the notice and changes nothing else. */
    method DismissRestoreNotice()
      modifies this
      ensures !draftRestored
      ensures initialized == old(initialized) && cachedDraftId == old(cachedDraftId)
      ensures restoredDraft == old(restoredDraft) && loadedCallbacks == old(loadedCallbacks)
    {
      draftRestored := false;
    }
  }

  /** The lookup is issued at most once per hook instance, however often the effect runs. */
  method LoadOnce(s: DraftSession, ticketUpdatedAt: Option<string>, found: Option<Draft>, instant: string -> Option<int>)
    returns (first: Option<(string, string)>, second: Option<(string, string)>)
    modifies s
    ensures second.None?
    ensures |s.loadedCallbacks| <= |old(s.loadedCallbacks)| + 1
  {
    first := s.LoadEffect(ticketUpdatedAt, found, instant);
    second := s.LoadEffect(ticketUpdatedAt, found, instant);
  }
}

=== FILE: drafts_api.dfy ===
/**
 * The drafts API (src/lib/api/drafts.ts) over an abstract `drafts` table. A draft row keeps
 * the ticket's title in its own column and packs the other edited fields into its
 * `description` column as JSON; JSON itself is abstract here: `encode` and `decode` are
 * parameters, and `decode` yields `None` where `JSON.parse` throws (or yields `null`).
 */
module DraftsApi {
  import opened Wrappers
  import opened Types

  /** A row of the `drafts` table as the backend returns it; nullable columns are options. */
  datatype DraftRow = DraftRow(
    id: string,
    ticketId: Option<string>,
    title: Option<string>,
    description: Option<string>,
    userId: string,
    updatedAt: string)

  /** The object packed into the `description` column; a missing property is `None`. */
  datatype Packed = Packed(
    description: Option<string>,
    expiryDate: Option<string>,
    priorityLabel: Option<string>,
    priorityColor: Option<string>,
    priorityOrder: Option<int>,
    categoryId: Option<string>)

  const DefaultPriorityColor := "#6b7280"

  /** The argument of `saveDraft`; `id` is the cached draft id, if any. */
  datatype SaveRequest = SaveRequest(
    ticketId: Option<string>,
    title: string,
    description: string,
    expiryDate: string,
    priorityLabel: string,
    priorityColor: string,
    priorityOrder: int,
    categoryId: string,
    userId: string,
    id: Option<string>)

  /** `mapRow`: unpack a row into a draft, filling defaults for whatever is absent. */
  function MapRow(row: DraftRow, decode: string -> Option<Packed>): (d: Draft)
    ensures d.id == row.id && d.ticketId == row.ticketId && d.userId == row.userId
    ensures d.updatedAt == row.updatedAt && d.title == row.title.GetOr("")
    ensures decode(row.description.GetOr("")).None? ==>
      && d.description == row.description.GetOr("")
      && d.expiryDate == "" && d.priorityLabel == "" && d.priorityColor == DefaultPriorityColor
      && d.priorityOrder == 0 && d.categoryId == ""
    ensures decode(row.description.GetOr("")).Some? ==>
      var p := decode(row.description.GetOr("")).value;
      && d.description == p.description.GetOr("") && d.expiryDate == p.expiryDate.GetOr("")
      && d.priorityLabel == p.priorityLabel.GetOr("")
      && d.priorityColor == p.priorityColor.GetOr(DefaultPriorityColor)
      && d.priorityOrder == p.priorityOrder.GetOr(0) && d.categoryId == p.categoryId.GetOr("")
  {
    var raw := row.description.GetOr("");
    var unpacked :=
      match decode(raw)
      case None => Packed(Some(raw), None, None, None, None, None)
      case Some(p) => Packed(Some(p.description.GetOr("")), p.expiryDate, p.priorityLabel,
                             p.priorityColor, p.priorityOrder, p.categoryId);
    Draft(row.id, row.ticketId, row.title.GetOr(""), unpacked.description.GetOr(""),
          unpacked.expiryDate.GetOr(""), unpacked.priorityLabel.GetOr(""),
          unpacked.priorityColor.GetOr(DefaultPriorityColor), unpacked.priorityOrder.GetOr(0),
          unpacked.categoryId.GetOr(""), row.userId, row.updatedAt)
  }

  /** The six fields `saveDraft` packs, all present. */
  function Pack(req: SaveRequest): Packed {
    Packed(Some(req.description), Some(req.expiryDate), Some(req.priorityLabel),
           Some(req.priorityColor), Some(req.priorityOrder), Some(req.categoryId))
  }

  /** The row a write leaves under `id`: every column of the payload, stamped with `now`. */
  function Written(id: string, req: SaveRequest, now: string, encode: Packed -> string): DraftRow {
    DraftRow(id, req.ticketId, Some(req.title), Some(encode(Pack(req))), req.userId, now)
  }

  predicate HasRowId(rows: seq<DraftRow>, id: string) {
    exists i :: 0 <= i < |rows| && rows[i].id == id
  }

  /** `update(payload).eq('id', id)`: every row with that id is overwritten. */
  function UpdateById(rows: seq<DraftRow>, id: string, req: SaveRequest, now: string,
                      encode: Packed -> string): (r: seq<DraftRow>)
    ensures |r| == |rows|
    ensures forall i :: 0 <= i < |rows| ==>
      r[i] == if rows[i].id == id then Written(id, req, now, encode) else rows[i]
  {
    if |rows| == 0 then []
    else [if rows[0].id == id then Written(id, req, now, encode) else rows[0]]
         + UpdateById(rows[1..], id, req, now, encode)
  }

  /** A row that `.eq('ticket_id', t).eq('user_id', u)` selects; SQL never matches a null `t`. */
  predicate PairMatch(row: DraftRow, ticketId: Option<string>, userId: string) {
    ticketId.Some? && row.ticketId == ticketId && row.userId == userId
  }

  function CountPair(rows: seq<DraftRow>, ticketId: Option<string>, userId: string): (n: nat)
    ensures n <= |rows|
    ensures n == 0 <==> forall i :: 0 <= i < |rows| ==> !PairMatch(rows[i], ticketId, userId)
  {
    if |rows| == 0 then 0
    else (if PairMatch(rows[0], ticketId, userId) then 1 else 0) + CountPair(rows[1..], ticketId, userId)
  }

  function FirstPair(rows: seq<DraftRow>, ticketId: Option<string>, userId: string): (i: nat)
    requires CountPair(rows, ticketId, userId) > 0
    ensures i < |rows| && PairMatch(rows[i], ticketId, userId)
    ensures forall j :: 0 <= j < i ==> !PairMatch(rows[j], ticketId, userId)
  {
    if PairMatch(rows[0], ticketId, userId) then 0 else 1 + FirstPair(rows[1..], ticketId, userId)
  }

  /**
   * The `maybeSingle()` lookup of an existing draft for the pair: the id of the only
   * matching row; with none, or with several (an error the code ignores), nothing.
   */
  function ExistingId(rows: seq<DraftRow>, ticketId: Option<string>, userId: string): (r: Option<string>)
    ensures r.Some? ==> exists i :: 0 <= i < |rows| && PairMatch(rows[i], ticketId, userId) && rows[i].id == r.value
    ensures CountPair(rows, ticketId, userId) == 1 ==> r == Some(rows[FirstPair(rows, ticketId, userId)].id)
    ensures CountPair(rows, ticketId, userId) != 1 ==> r.None?
  {
    if CountPair(rows, ticketId, userId) == 1 then Some(rows[FirstPair(rows, ticketId, userId)].id) else None
  }

  /** The table after a call and the draft it returns; `None` is a thrown error. */
  datatype SaveOutcome = SaveOutcome(rows: seq<DraftRow>, result: Option<Draft>)

  /**
   * `saveDraft`: update the row `req.id` names; otherwise update the pair's existing row;
   * otherwise insert a row under `freshId`. `writeFails` is a backend error on the write;
   * an update that matches no row, and an insert whose id is taken, fail as well.
   * `lookupFails` is a backend error on the pair lookup: the code ignores it and reads
   * no existing row, so it goes on to insert. Every write stamps `updated_at` with `now`.
   */
  function SaveDraft(rows: seq<DraftRow>, req: SaveRequest, now: string, freshId: string,
                     writeFails: bool, lookupFails: bool,
                     encode: Packed -> string, decode: string -> Option<Packed>): SaveOutcome
  {
    var target :=
      if Truthy(req.id) then req.id
      else if lookupFails then None
      else match ExistingId(rows, req.ticketId, req.userId)
        case Some(e) => if e != "" then Some(e) else None
        case None => None;
    match target
    case Some(id) =>
      if writeFails || !HasRowId(rows, id) then SaveOutcome(rows, None)
      else SaveOutcome(UpdateById(rows, id, req, now, encode), Some(MapRow(Written(id, req, now, encode), decode)))
    case None =>
      if writeFails || HasRowId(rows, freshId) then SaveOutcome(rows, None)
      else SaveOutcome(rows + [Written(freshId, req, now, encode)], Some(MapRow(Written(freshId, req, now, encode), decode)))
  }

  /** Row ids are a primary key. */
  predicate UniqueIds(rows: seq<DraftRow>) {
    forall i, j :: 0 <= i < j < |rows| ==> rows[i].id != rows[j].id
  }

  /** At most one draft per (ticket, user) pair. */
  predicate OnePerPair(rows: seq<DraftRow>) {
    forall i, j :: 0 <= i < j < |rows| ==> !PairMatch(rows[j], rows[i].ticketId, rows[i].userId)
  }

  /** A call with a draft id updates exactly the rows with that id and never inserts. */
  lemma SaveWithIdUpdatesOnly(rows: seq<DraftRow>, req: SaveRequest, now: string, freshId: string,
                              writeFails: bool, lookupFails: bool,
                              encode: Packed -> string, decode: string -> Option<Packed>)
    requires Truthy(req.id)
    ensures
      var o := SaveDraft(rows, req, now, freshId, writeFails, lookupFails, encode, decode);
      && |o.rows| == |rows|
      && (o.result.Some? <==> !writeFails && HasRowId(rows, req.id.value))
      && (o.result.Some? ==> o.result.value.id == req.id.value)
      && forall i :: 0 <= i < |rows| ==>
           o.rows[i] == if o.result.Some? && rows[i].id == req.id.value
                        then Written(req.id.value, req, now, encode) else rows[i]
  {
  }

  /**
   * Without an id: the pair's existing row is updated in place when there is exactly one;
   * a new row is appended only when the lookup failed, or found no single row of the pair.
   */
  lemma SaveWithoutIdUpserts(rows: seq<DraftRow>, req: SaveRequest, now: string, freshId: string,
                             writeFails: bool, lookupFails: bool,
                             encode: Packed -> string, decode: string -> Option<Packed>)
    requires !Truthy(req.id) && UniqueIds(rows)
    ensures
      var o := SaveDraft(rows, req, now, freshId, writeFails, lookupFails, encode, decode);
      && (o.result.Some? && |o.rows| == |rows| + 1 ==>
            && o.rows == rows + [Written(freshId, req, now, encode)]
            && (lookupFails || !Truthy(ExistingId(rows, req.ticketId, req.userId))))
      && (!lookupFails && Truthy(ExistingId(rows, req.ticketId, req.userId)) && !writeFails ==>
            o.result.Some? && |o.rows| == |rows|)
      && (o.result.Some? && |o.rows| == |rows| ==>
            exists i :: 0 <= i < |rows| && PairMatch(rows[i], req.ticketId, req.userId)
                     && o.rows == rows[i := Written(rows[i].id, req, now, encode)])
      && (o.result.Some? ==> |o.rows| == |rows| || |o.rows| == |rows| + 1)
      && (o.result.None? ==> o.rows == rows)
  {
    var e := ExistingId(rows, req.ticketId, req.userId);
    if !lookupFails && e.Some? && e.value != "" {
      var i := FirstPair(rows, req.ticketId, req.userId);
      var o := SaveDraft(rows, req, now, freshId, writeFails, lookupFails, encode, decode);
      if o.result.Some? {
        forall k | 0 <= k < |rows| ensures o.rows[k] == rows[i := Written(rows[i].id, req, now, encode)][k] {
          if k != i { assert rows[k].id != rows[i].id; }
        }
      }
    }
  }

  /** A call preserves the primary key. */
  lemma SaveKeepsUniqueIds(rows: seq<DraftRow>, req: SaveRequest, now: string, freshId: string,
                           writeFails: bool, lookupFails: bool,
                           encode: Packed -> string, decode: string -> Option<Packed>)
    requires UniqueIds(rows)
    ensures UniqueIds(SaveDraft(rows, req, now, freshId, writeFails, lookupFails, encode, decode).rows)
  {
    var o := SaveDraft(rows, req, now, freshId, writeFails, lookupFails, encode, decode);
    if |o.rows| == |rows| {
      forall i, j | 0 <= i < j < |rows| ensures o.rows[i].id != o.rows[j].id {
        assert o.rows[i].id == rows[i].id && o.rows[j].id == rows[j].id;
      }
    }
  }

  /**
   * Sequentially there is at most one draft per pair: a call without an id whose lookup
   * succeeds keeps the table so, and so does a call whose id names a row of the same pair.
   */
  lemma SaveKeepsOnePerPair(rows: seq<DraftRow>, req: SaveRequest, now: string, freshId: string,
                            writeFails: bool, lookupFails: bool,
                            encode: Packed -> string, decode: string -> Option<Packed>)
    requires UniqueIds(rows) && OnePerPair(rows)
    requires forall i :: 0 <= i < |rows| ==> rows[i].id != ""
    requires !Truthy(req.id) ==> !lookupFails
    requires Truthy(req.id) ==> forall i :: 0 <= i < |rows| && rows[i].id == req.id.value ==>
               rows[i].ticketId == req.ticketId && rows[i].userId == req.userId
    ensures OnePerPair(SaveDraft(rows, req, now, freshId, writeFails, lookupFails, encode, decode).rows)
  {
    if Truthy(req.id) {
      SaveWithIdKeepsOnePerPair(rows, req, now, freshId, writeFails, lookupFails, encode, decode);
    } else {
      SaveWithoutIdKeepsOnePerPair(rows, req, now, freshId, writeFails, lookupFails, encode, decode);
    }
  }

  lemma SaveWithIdKeepsOnePerPair(rows: seq<DraftRow>, req: SaveRequest, now: string, freshId: string,
                                  writeFails: bool, lookupFails: bool,
                                  encode: Packed -> string, decode: string -> Option<Packed>)
    requires OnePerPair(rows) && Truthy(req.id)
    requires forall i :: 0 <= i < |rows| && rows[i].id == req.id.value ==>
               rows[i].ticketId == req.ticketId && rows[i].userId == req.userId
    ensures OnePerPair(SaveDraft(rows, req, now, freshId, writeFails, lookupFails, encode, decode).rows)
  {
    var o := SaveDraft(rows, req, now, freshId, writeFails, lookupFails, encode, decode);
    if !writeFails && HasRowId(rows, req.id.value) {
      assert o.rows == UpdateById(rows, req.id.value, req, now, encode);
      SamePairsKeepOnePerPair(rows, o.rows);
    }
  }

  lemma SaveWithoutIdKeepsOnePerPair(rows: seq<DraftRow>, req: SaveRequest, now: string, freshId: string,
                                     writeFails: bool, lookupFails: bool,
                                     encode: Packed -> string, decode: string -> Option<Packed>)
    requires UniqueIds(rows) && OnePerPair(rows) && !Truthy(req.id) && !lookupFails
    requires forall i :: 0 <= i < |rows| ==> rows[i].id != ""
    ensures OnePerPair(SaveDraft(rows, req, now, freshId, writeFails, lookupFails, encode, decode).rows)
  {
    var o := SaveDraft(rows, req, now, freshId, writeFails, lookupFails, encode, decode);
    var e := ExistingId(rows, req.ticketId, req.userId);
    if writeFails {
      assert o.rows == rows;
    } else if e.Some? {
      var k := FirstPair(rows, req.ticketId, req.userId);
      assert e.value == rows[k].id != "";
      if HasRowId(rows, e.value) {
        var u := UpdateById(rows, e.value, req, now, encode);
        assert o.rows == u;
        forall i | 0 <= i < |rows| ensures u[i].ticketId == rows[i].ticketId && u[i].userId == rows[i].userId {
          if i != k { assert rows[i].id != rows[k].id; }
        }
        SamePairsKeepOnePerPair(rows, u);
      }
    } else if !HasRowId(rows, freshId) {
      OnePerPairCountsOne(rows, req.ticketId, req.userId);
      assert CountPair(rows, req.ticketId, req.userId) == 0;
      assert o.rows == rows + [Written(freshId, req, now, encode)];
      AppendUnmatchedKeepsOnePerPair(rows, Written(freshId, req, now, encode));
    }
  }

  /**
   * The lookup's ignored error breaks the invariant: when the pair already has a draft and
   * the lookup fails, a save without an id that gets to write inserts a second one.
   */
  lemma {:induction false} LookupFailureDuplicates(rows: seq<DraftRow>, req: SaveRequest, now: string,
                                                   freshId: string, encode: Packed -> string,
                                                   decode: string -> Option<Packed>, k: nat)
    requires !Truthy(req.id) && !HasRowId(rows, freshId)
    requires k < |rows| && PairMatch(rows[k], req.ticketId, req.userId)
    ensures
      var o := SaveDraft(rows, req, now, freshId, false, true, encode, decode);
      && o.result.Some? && o.rows == rows + [Written(freshId, req, now, encode)]
      && CountPair(o.rows, req.ticketId, req.userId) >= 2
      && !OnePerPair(o.rows)
  {
    var o := SaveDraft(rows, req, now, freshId, false, true, encode, decode);
    assert o.rows == rows + [Written(freshId, req, now, encode)];
    assert o.rows[k] == rows[k] && PairMatch(o.rows[|rows|], o.rows[k].ticketId, o.rows[k].userId);
    CountPairAppend(rows, Written(freshId, req, now, encode), req.ticketId, req.userId);
    assert CountPair(rows, req.ticketId, req.userId) != 0;
  }

  /** Counting the pair's rows over an appended row. */
  lemma {:induction false} CountPairAppend(rows: seq<DraftRow>, row: DraftRow, ticketId: Option<string>, userId: string)
    ensures CountPair(rows + [row], ticketId, userId)
            == CountPair(rows, ticketId, userId) + if PairMatch(row, ticketId, userId) then 1 else 0
  {
    if |rows| > 0 {
      assert (rows + [row])[1..] == rows[1..] + [row];
      CountPairAppend(rows[1..], row, ticketId, userId);
    }
  }

  /** Rewriting rows without changing any row's pair keeps one draft per pair. */
  lemma SamePairsKeepOnePerPair(rows: seq<DraftRow>, rows': seq<DraftRow>)
    requires OnePerPair(rows) && |rows'| == |rows|
    requires forall i :: 0 <= i < |rows| ==> rows'[i].ticketId == rows[i].ticketId && rows'[i].userId == rows[i].userId
    ensures OnePerPair(rows')
  {
    forall i, j | 0 <= i < j < |rows'| ensures !PairMatch(rows'[j], rows'[i].ticketId, rows'[i].userId) {
      assert !PairMatch(rows[j], rows[i].ticketId, rows[i].userId);
    }
  }

  /** Appending a row whose pair no existing row has keeps one draft per pair. */
  lemma AppendUnmatchedKeepsOnePerPair(rows: seq<DraftRow>, row: DraftRow)
    requires OnePerPair(rows)
    requires forall i :: 0 <= i < |rows| ==> !PairMatch(rows[i], row.ticketId, row.userId)
    ensures OnePerPair(rows + [row])
  {
    var r := rows + [row];
    forall i, j | 0 <= i < j < |r| ensures !PairMatch(r[j], r[i].ticketId, r[i].userId) {
      if j == |rows| {
        assert !PairMatch(rows[i], row.ticketId, row.userId);
      } else {
        assert r[i] == rows[i] && r[j] == rows[j];
      }
    }
  }

  /** In a table with one draft per pair, a pair matches at most one row. */
  lemma {:induction false} OnePerPairCountsOne(rows: seq<DraftRow>, ticketId: Option<string>, userId: string)
    requires OnePerPair(rows)
    ensures CountPair(rows, ticketId, userId) <= 1
  {
    if |rows| > 0 {
      assert OnePerPair(rows[1..]) by {
        forall i, j | 0 <= i < j < |rows[1..]|
          ensures !PairMatch(rows[1..][j], rows[1..][i].ticketId, rows[1..][i].userId)
        {
          assert rows[1..][i] == rows[i + 1] && rows[1..][j] == rows[j + 1];
        }
      }
      OnePerPairCountsOne(rows[1..], ticketId, userId);
      if PairMatch(rows[0], ticketId, userId) {
        forall j | 0 <= j < |rows[1..]| ensures !PairMatch(rows[1..][j], ticketId, userId) {
          assert rows[1..][j] == rows[j + 1];
        }
      }
    }
  }

  /** Every successful save returns, and leaves in the table, a row stamped with `now`. */
  lemma SaveStampsUpdatedAt(rows: seq<DraftRow>, req: SaveRequest, now: string, freshId: string,
                            writeFails: bool, lookupFails: bool,
                            encode: Packed -> string, decode: string -> Option<Packed>)
    requires UniqueIds(rows)
    ensures
      var o := SaveDraft(rows, req, now, freshId, writeFails, lookupFails, encode, decode);
      o.result.Some? ==>
        && o.result.value.updatedAt == now
        && exists i :: 0 <= i < |o.rows| && o.rows[i] == Written(o.result.value.id, req, now, encode)
  {
    var o := SaveDraft(rows, req, now, freshId, writeFails, lookupFails, encode, decode);
    if o.result.Some? && |o.rows| == |rows| {
      var id := o.result.value.id;
      assert HasRowId(rows, id);
      var i :| 0 <= i < |rows| && rows[i].id == id;
      assert o.rows[i] == Written(id, req, now, encode);
    } else if o.result.Some? {
      assert o.rows[|rows|] == Written(freshId, req, now, encode);
    }
  }

  /**
   * Save then map: given an encoder that `decode` inverts, the returned draft carries the
   * request's title and packed fields unchanged.
   */
  lemma SaveRoundTrip(rows: seq<DraftRow>, req: SaveRequest, now: string, freshId: string,
                      writeFails: bool, lookupFails: bool,
                      encode: Packed -> string, decode: string -> Option<Packed>)
    requires forall p :: decode(encode(p)) == Some(p)
    ensures
      var o := SaveDraft(rows, req, now, freshId, writeFails, lookupFails, encode, decode);
      o.result.Some? ==>
        var d := o.result.value;
        && d.ticketId == req.ticketId && d.userId == req.userId && d.title == req.title
        && d.description == req.description && d.expiryDate == req.expiryDate
        && d.priorityLabel == req.priorityLabel && d.priorityColor == req.priorityColor
        && d.priorityOrder == req.priorityOrder && d.categoryId == req.categoryId
  {
    assert decode(encode(Pack(req))) == Some(Pack(req));
  }

  /** `getTicketIdsWithDrafts`: the user's drafts' ticket ids, dropping null and empty ones. */
  function TicketIdsWithDrafts(rows: seq<DraftRow>, userId: string): (r: seq<string>)
    ensures forall x :: x in r ==> x != ""
    ensures forall x :: x in r <==> exists i :: 0 <= i < |rows| && rows[i].userId == userId
                                             && rows[i].ticketId == Some(x) && x != ""
  {
    if |rows| == 0 then []
    else
      var rest := TicketIdsWithDrafts(rows[1..], userId);
      assert forall x :: (exists i :: 0 <= i < |rows[1..]| && rows[1..][i].userId == userId
                                    && rows[1..][i].ticketId == Some(x) && x != "")
                      <==> (exists i :: 1 <= i < |rows| && rows[i].userId == userId
                                    && rows[i].ticketId == Some(x) && x != "") by {
        forall x ensures (exists i :: 0 <= i < |rows[1..]| && rows[1..][i].userId == userId
                                    && rows[1..][i].ticketId == Some(x) && x != "")
                      <==> (exists i :: 1 <= i < |rows| && rows[i].userId == userId
                                    && rows[i].ticketId == Some(x) && x != "") {
          if exists i :: 1 <= i < |rows| && rows[i].userId == userId && rows[i].ticketId == Some(x) && x != "" {
            var i :| 1 <= i < |rows| && rows[i].userId == userId && rows[i].ticketId == Some(x) && x != "";
            assert rows[1..][i - 1] == rows[i];
          }
        }
      }
      if rows[0].userId == userId && Truthy(rows[0].ticketId) then [rows[0].ticketId.value] + rest else rest
  }

  /** After a successful save for a real ticket, that ticket is among the user's drafted ids. */
  lemma SaveMarksTicket(rows: seq<DraftRow>, req: SaveRequest, now: string, freshId: string,
                        writeFails: bool, lookupFails: bool,
                        encode: Packed -> string, decode: string -> Option<Packed>)
    requires UniqueIds(rows) && Truthy(req.ticketId)
    ensures
      var o := SaveDraft(rows, req, now, freshId, writeFails, lookupFails, encode, decode);
      o.result.Some? ==> req.ticketId.value in TicketIdsWithDrafts(o.rows, req.userId)
  {
    SaveStampsUpdatedAt(rows, req, now, freshId, writeFails, lookupFails, encode, decode);
  }
}

=== FILE: drafts_slice.dfy ===
/**
 * The drafts slice (src/store/slices/draftsSlice.ts): the list of ticket ids that have a
 * saved draft, used to show the draft marker on cards.
 */
module DraftsSlice {

  /** `markDrafted`'s list: the id is appended only when absent. */
  function Marked(ids: seq<string>, id: string): (r: seq<string>)
    ensures id in r
    ensures id in ids ==> r == ids
    ensures id !in ids ==> r == ids + [id]
  {
    if id in ids then ids else ids + [id]
  }

  /** `unmarkDrafted`'s list: the ids different from `id`, in their order. */
  function Unmarked(ids: seq<string>, id: string): (r: seq<string>)
    ensures |r| <= |ids|
    ensures id !in r
    ensures forall x :: x in r <==> x in ids && x != id
    ensures id !in ids ==> r == ids
  {
    if |ids| == 0 then []
    else if ids[0] == id then Unmarked(ids[1..], id)
    else [ids[0]] + Unmarked(ids[1..], id)
  }

  predicate NoDuplicates(ids: seq<string>) {
    forall i, j :: 0 <= i < j < |ids| ==> ids[i] != ids[j]
  }

  /** Marking twice is marking once. */
  lemma MarkIdempotent(ids: seq<string>, id: string)
    ensures Marked(Marked(ids, id), id) == Marked(ids, id)
  {
  }

  /** Marking never introduces a duplicate. */
  lemma MarkKeepsNoDuplicates(ids: seq<string>, id: string)
    requires NoDuplicates(ids)
    ensures NoDuplicates(Marked(ids, id))
  {
  }

  /** Unmarking keeps the others in order: it is the subsequence of ids that differ from `id`. */
  lemma {:induction false} UnmarkedSplit(a: seq<string>, b: seq<string>, id: string)
    ensures Unmarked(a + b, id) == Unmarked(a, id) + Unmarked(b, id)
  {
    if |a| > 0 {
      assert (a + b)[1..] == a[1..] + b;
      UnmarkedSplit(a[1..], b, id);
    } else {
      assert a + b == b;
    }
  }

  /** Unmarking keeps a list without duplicates free of duplicates. */
  lemma {:induction false} UnmarkKeepsNoDuplicates(ids: seq<string>, id: string)
    requires NoDuplicates(ids)
    ensures NoDuplicates(Unmarked(ids, id))
  {
    if |ids| > 0 {
      assert NoDuplicates(ids[1..]) by {
        forall i, j | 0 <= i < j < |ids[1..]| ensures ids[1..][i] != ids[1..][j] {
          assert ids[1..][i] == ids[i + 1] && ids[1..][j] == ids[j + 1];
        }
      }
      UnmarkKeepsNoDuplicates(ids[1..], id);
      if ids[0] != id {
        assert ids[0] !in ids[1..];
        assert ids[0] !in Unmarked(ids[1..], id);
      }
    }
  }

  /** Marking a fresh id and then unmarking it gives back the original list. */
  lemma MarkThenUnmark(ids: seq<string>, id: string)
    requires id !in ids
    ensures Unmarked(Marked(ids, id), id) == ids
  {
    UnmarkedSplit(ids, [id], id);
  }

  class DraftsStore {
    var draftedTicketIds: seq<string>

    constructor ()
      ensures draftedTicketIds == []
    {
      draftedTicketIds := [];
    }

    method MarkDrafted(id: string)
      modifies this
      ensures draftedTicketIds == Marked(old(draftedTicketIds), id)
    {
      if id !in draftedTicketIds {
        draftedTicketIds := draftedTicketIds + [id];
      }
    }

    method UnmarkDrafted(id: string)
      modifies this
      ensures draftedTicketIds == Unmarked(old(draftedTicketIds), id)
    {
      draftedTicketIds := Unmarked(draftedTicketIds, id);
    }

    /** `fetchDraftedTicketIds.fulfilled`: the payload replaces the list wholesale. */
    method FetchFulfilled(payload: seq<string>)
      modifies this
      ensures draftedTicketIds == payload
    {
      draftedTicketIds := payload;
    }
  }
}

=== FILE: drag_and_drop.dfy ===
/**
 * The drag-and-drop hook of the board (src/hooks/useDragAndDrop.ts).
 *
 * The hook keeps one `DragState` record; every handler replaces it through a pure
 * updater `prev -> next`, which is how the functions below are written. The browser's
 * geometry is abstracted: a column's rendered ticket elements are given as their
 * vertical midpoints (relative to the column), the pointer as `y`, and "the element
 * the pointer moved to lies inside this zone" as a boolean. What the handlers read
 * back from the drag payload (`dataTransfer.getData`) is passed in as strings, the
 * empty string standing for a missing entry.
 */
module DragAndDrop {
  import opened Wrappers
  import opened Types
  import opened Actions
  import opened Ordering

  datatype DragType = TicketDrag | CategoryDrag

  datatype DragState = DragState(
    draggedTicketId: Option<string>,
    draggedCategoryId: Option<string>,
    dragType: Option<DragType>,
    dropTargetCategoryId: Option<string>,
    dropPosition: int,
    isDragging: bool,
    highlightedCategoryId: Option<string>)

  const InitialDragState: DragState := DragState(None, None, None, None, -1, false, None)

  /** What a drop handler dispatches, and the drag state it leaves behind. */
  datatype DropOutcome = DropOutcome(action: Option<BoardAction>, next: DragState)

  /** A rendered ticket element of a column: its `data-ticket-id` and vertical midpoint. */
  datatype TicketElement = TicketElement(id: string, mid: real)

  /** The idle state: nothing dragged, no target, no highlight. */
  predicate IsIdle(s: DragState) {
    && s.draggedTicketId == None && s.draggedCategoryId == None && s.dragType == None
    && s.dropTargetCategoryId == None && s.dropPosition == -1 && !s.isDragging
    && s.highlightedCategoryId == None
  }

  /** `handleTicketDragEnd` and `handleCategoryDragEnd`: back to the initial state. */
  function DragEnd(prev: DragState): (next: DragState)
    ensures IsIdle(next)
  {
    InitialDragState
  }

  /** `handleTicketDragStart`: records the ticket and the drag type; nothing else changes. */
  function TicketDragStart(prev: DragState, ticketId: string): (next: DragState)
    ensures next.draggedTicketId == Some(ticketId) && next.dragType == Some(TicketDrag) && next.isDragging
    ensures next.draggedCategoryId == prev.draggedCategoryId
    ensures next.dropTargetCategoryId == prev.dropTargetCategoryId
    ensures next.dropPosition == prev.dropPosition
    ensures next.highlightedCategoryId == prev.highlightedCategoryId
  {
    prev.(draggedTicketId := Some(ticketId), dragType := Some(TicketDrag), isDragging := true)
  }

  /** `handleCategoryDragStart`: records the column and the drag type; nothing else changes. */
  function CategoryDragStart(prev: DragState, categoryId: string): (next: DragState)
    ensures next.draggedCategoryId == Some(categoryId) && next.dragType == Some(CategoryDrag) && next.isDragging
    ensures next.draggedTicketId == prev.draggedTicketId
    ensures next.dropTargetCategoryId == prev.dropTargetCategoryId
    ensures next.dropPosition == prev.dropPosition
    ensures next.highlightedCategoryId == prev.highlightedCategoryId
  {
    prev.(draggedCategoryId := Some(categoryId), dragType := Some(CategoryDrag), isDragging := true)
  }

  /**
   * The insertion index over a column: the first element whose midpoint lies strictly
   * below the pointer, or `fallback` when there is none.
   */
  predicate IsInsertionIndex(mids: seq<real>, y: real, fallback: int, p: int) {
    if exists i :: 0 <= i < |mids| && y < mids[i] then
      0 <= p < |mids| && y < mids[p] && forall j :: 0 <= j < p ==> mids[j] <= y
    else
      p == fallback
  }

  /** The midpoint scan of `handleTicketDragOver` (its `for` loop with `break`). */
  method DragOverIndex(mids: seq<real>, y: real, ticketCount: nat) returns (position: int)
    ensures IsInsertionIndex(mids, y, ticketCount, position)
    ensures 0 <= position <= if |mids| < ticketCount then ticketCount else |mids|
  {
    position := ticketCount;
    var i := 0;
    while i < |mids|
      invariant 0 <= i <= |mids|
      invariant forall j :: 0 <= j < i ==> mids[j] <= y
    {
      if y < mids[i] {
        position := i;
        return;
      }
      i := i + 1;
    }
  }

  /** The `setDragState` updater of `handleTicketDragOver`. */
  function TicketDragOverUpdate(prev: DragState, categoryId: string, position: int): (next: DragState)
    ensures prev.dropTargetCategoryId == Some(categoryId) && prev.dropPosition == position ==> next == prev
    ensures next.dropTargetCategoryId == Some(categoryId) && next.dropPosition == position
    ensures next.draggedTicketId == prev.draggedTicketId && next.draggedCategoryId == prev.draggedCategoryId
    ensures next.dragType == prev.dragType && next.isDragging == prev.isDragging
    ensures next != prev ==> next.highlightedCategoryId == Some(categoryId)
  {
    if prev.dropTargetCategoryId == Some(categoryId) && prev.dropPosition == position then prev
    else prev.(dropTargetCategoryId := Some(categoryId), dropPosition := position,
               highlightedCategoryId := Some(categoryId))
  }

  /**
   * `handleTicketDragOver`. `overType` is the drag type the event exposes (None when the
   * payload carries none). A column drag is ignored; otherwise the target becomes this
   * column at the scanned insertion index.
   */
  method TicketDragOver(prev: DragState, overType: Option<string>, categoryId: string,
                        ticketCount: nat, mids: seq<real>, y: real) returns (next: DragState)
    ensures overType == Some("category") ==> next == prev
    ensures overType != Some("category") ==>
      && next.dropTargetCategoryId == Some(categoryId)
      && IsInsertionIndex(mids, y, ticketCount, next.dropPosition)
      && (next == prev || next.highlightedCategoryId == Some(categoryId))
      && next == TicketDragOverUpdate(prev, categoryId, next.dropPosition)
      && (prev.dropTargetCategoryId == Some(categoryId) && prev.dropPosition == next.dropPosition ==> next == prev)
      && next.draggedTicketId == prev.draggedTicketId && next.draggedCategoryId == prev.draggedCategoryId
      && next.dragType == prev.dragType && next.isDragging == prev.isDragging
  {
    if overType == Some("category") {
      return prev;
    }
    var position := DragOverIndex(mids, y, ticketCount);
    next := TicketDragOverUpdate(prev, categoryId, position);
  }

  /** `handleColumnDragOver`: a ticket drag is ignored; otherwise target and highlight move here. */
  function ColumnDragOver(prev: DragState, overType: Option<string>, categoryId: string): (next: DragState)
    ensures overType == Some("ticket") ==> next == prev
    ensures overType != Some("ticket") ==>
      && next.dropTargetCategoryId == Some(categoryId) && next.highlightedCategoryId == Some(categoryId)
      && next.dropPosition == prev.dropPosition && next.dragType == prev.dragType
      && next.draggedTicketId == prev.draggedTicketId && next.draggedCategoryId == prev.draggedCategoryId
      && next.isDragging == prev.isDragging
  {
    if overType == Some("ticket") then prev
    else prev.(dropTargetCategoryId := Some(categoryId), highlightedCategoryId := Some(categoryId))
  }

  /** `handleDragEnter`: only the highlight changes. */
  function DragEnter(prev: DragState, categoryId: string): (next: DragState)
    ensures next.highlightedCategoryId == Some(categoryId)
    ensures next.(highlightedCategoryId := prev.highlightedCategoryId) == prev
  {
    prev.(highlightedCategoryId := Some(categoryId))
  }

  /**
   * `handleDragLeave`. `movedInside` says whether the element the pointer moved to lies
   * inside the zone being left.
   */
  function DragLeave(prev: DragState, movedInside: bool, categoryId: string): (next: DragState)
    ensures movedInside || prev.highlightedCategoryId != Some(categoryId) ==> next == prev
    ensures !movedInside && prev.highlightedCategoryId == Some(categoryId) ==>
      && next.highlightedCategoryId == None && next.dropTargetCategoryId == None && next.dropPosition == -1
      && next.draggedTicketId == prev.draggedTicketId && next.draggedCategoryId == prev.draggedCategoryId
      && next.dragType == prev.dragType && next.isDragging == prev.isDragging
  {
    if movedInside then prev
    else if prev.highlightedCategoryId != Some(categoryId) then prev
    else prev.(highlightedCategoryId := None, dropTargetCategoryId := None, dropPosition := -1)
  }

  /** How many of `ids` differ from `x` (`filter((t) => t.id !== x).length`). */
  function CountOthers(ids: seq<string>, x: string): (n: nat)
    ensures n <= |ids|
    ensures n == |ids| <==> x !in ids
    ensures n == |ids| - multiset(ids)[x]
  {
    if |ids| == 0 then 0
    else
      assert ids == [ids[0]] + ids[1..];
      (if ids[0] != x then 1 else 0) + CountOthers(ids[1..], x)
  }

  /**
   * The drop index of `handleTicketDrop`: the raw index of the first element, other than
   * the dragged ticket's own, whose midpoint lies strictly below the pointer; else `fallback`.
   */
  predicate IsDropIndex(els: seq<TicketElement>, dragged: string, y: real, fallback: int, p: int) {
    if exists i :: 0 <= i < |els| && els[i].id != dragged && y < els[i].mid then
      && 0 <= p < |els| && els[p].id != dragged && y < els[p].mid
      && forall j :: 0 <= j < p && els[j].id != dragged ==> els[j].mid <= y
    else
      p == fallback
  }

  /** The midpoint scan of `handleTicketDrop` (its `for` loop with `continue` and `break`). */
  method DropIndex(els: seq<TicketElement>, dragged: string, y: real, fallback: nat) returns (position: int)
    ensures IsDropIndex(els, dragged, y, fallback, position)
  {
    position := fallback;
    var i := 0;
    while i < |els|
      invariant 0 <= i <= |els|
      invariant forall j :: 0 <= j < i && els[j].id != dragged ==> els[j].mid <= y
    {
      if els[i].id != dragged && y < els[i].mid {
        position := i;
        return;
      }
      i := i + 1;
    }
  }

  /**
   * `handleTicketDrop`. `dragType` and `ticketId` are the payload entries, `ticketsInCategory`
   * the ids of the column's tickets and `els` its rendered elements.
   */
  method TicketDrop(prev: DragState, dragType: string, ticketId: string, targetCategoryId: string,
                    ticketsInCategory: seq<string>, els: seq<TicketElement>, y: real)
    returns (out: DropOutcome)
    ensures dragType != "ticket" || ticketId == "" ==> out == DropOutcome(None, prev)
    ensures dragType == "ticket" && ticketId != "" ==>
      && IsIdle(out.next)
      && out.action.Some? && out.action.value.MoveTicket?
      && out.action.value.ticketId == ticketId
      && out.action.value.targetCategoryId == targetCategoryId
      && IsDropIndex(els, ticketId, y, CountOthers(ticketsInCategory, ticketId), out.action.value.targetPosition)
  {
    if dragType != "ticket" || ticketId == "" {
      return DropOutcome(None, prev);
    }
    var position := DropIndex(els, ticketId, y, CountOthers(ticketsInCategory, ticketId));
    out := DropOutcome(Some(MoveTicket(ticketId, targetCategoryId, position)), InitialDragState);
  }

  function PositionOf(c: Category): int {
    c.position
  }

  /** The columns ordered by position (`[...categories].sort((a, b) => a.position - b.position)`). */
  function SortByPosition(cs: seq<Category>): (r: seq<Category>)
    ensures |r| == |cs| && multiset(r) == multiset(cs)
    ensures forall i, j :: 0 <= i < j < |r| ==> r[i].position <= r[j].position
  {
    var r := SortByKey(cs, PositionOf);
    assert forall i, j :: 0 <= i < j < |r| ==> PositionOf(r[i]) <= PositionOf(r[j]);
    r
  }

  /** `findIndex((c) => c.id === id)`: the first index holding `id`, or -1. */
  function IndexOfId(cs: seq<Category>, id: string): (k: int)
    ensures -1 <= k < |cs|
    ensures k == -1 <==> forall i :: 0 <= i < |cs| ==> cs[i].id != id
    ensures k >= 0 ==> cs[k].id == id && forall i :: 0 <= i < k ==> cs[i].id != id
  {
    if |cs| == 0 then -1
    else if cs[0].id == id then 0
    else
      var k := IndexOfId(cs[1..], id);
      if k == -1 then -1 else k + 1
  }

  /** `map((c, i) => ({ ...c, position: i }))`. */
  function Reindex(cs: seq<Category>): (r: seq<Category>)
    ensures |r| == |cs|
    ensures forall i :: 0 <= i < |r| ==> r[i] == cs[i].(position := i)
  {
    seq(|cs|, i requires 0 <= i < |cs| => cs[i].(position := i))
  }

  function Ids(cs: seq<Category>): (r: seq<string>)
    ensures |r| == |cs| && forall i :: 0 <= i < |cs| ==> r[i] == cs[i].id
  {
    seq(|cs|, i requires 0 <= i < |cs| => cs[i].id)
  }

  predicate HasId(cs: seq<Category>, id: string) {
    exists i :: 0 <= i < |cs| && cs[i].id == id
  }

  /** `handleColumnDrop`. `dragType` and `draggedId` are the payload entries. */
  function ColumnDrop(prev: DragState, dragType: string, draggedId: string, targetCategoryId: string,
                      categories: seq<Category>): (out: DropOutcome)
    ensures dragType != "category" ==> out == DropOutcome(None, prev)
    ensures dragType == "category" ==> IsIdle(out.next)
    ensures out.action.Some? <==>
      && dragType == "category" && draggedId != "" && draggedId != targetCategoryId
      && HasId(categories, draggedId) && HasId(categories, targetCategoryId)
    ensures out.action.Some? ==> out.action.value.ReorderCategories?
  {
    if dragType != "category" then DropOutcome(None, prev)
    else if draggedId == "" || draggedId == targetCategoryId then DropOutcome(None, InitialDragState)
    else
      var sorted := SortByPosition(categories);
      var from := IndexOfId(sorted, draggedId);
      var to := IndexOfId(sorted, targetCategoryId);
      SortedHasId(categories, draggedId);
      SortedHasId(categories, targetCategoryId);
      if from == -1 || to == -1 then DropOutcome(None, InitialDragState)
      else DropOutcome(Some(ReorderCategories(Reindex(Move(sorted, from, to)))), InitialDragState)
  }

  lemma SortedHasId(cs: seq<Category>, id: string)
    ensures HasId(SortByPosition(cs), id) <==> HasId(cs, id)
  {
    var r := SortByPosition(cs);
    if HasId(cs, id) {
      var i :| 0 <= i < |cs| && cs[i].id == id;
      assert cs[i] in multiset(r);
    }
    if HasId(r, id) {
      var i :| 0 <= i < |r| && r[i].id == id;
      assert r[i] in multiset(cs);
    }
  }

  lemma {:induction false} IdsConcat(a: seq<Category>, b: seq<Category>)
    ensures Ids(a + b) == Ids(a) + Ids(b)
  {
  }

  lemma {:induction false} IdsPermutation(s: seq<Category>, t: seq<Category>)
    requires multiset(s) == multiset(t)
    ensures multiset(Ids(s)) == multiset(Ids(t))
    decreases |s|
  {
    if |s| == 0 {
      assert |multiset(t)| == 0;
    } else {
      var x := s[0];
      assert x in multiset(t);
      var j :| 0 <= j < |t| && t[j] == x;
      var t' := t[..j] + t[j + 1..];
      assert t == t[..j] + [x] + t[j + 1..];
      assert s == [x] + s[1..];
      assert multiset(t) == multiset(t[..j]) + multiset{x} + multiset(t[j + 1..]);
      assert multiset(t') == multiset(t[..j]) + multiset(t[j + 1..]);
      assert multiset(s) == multiset{x} + multiset(s[1..]);
      assert multiset(s[1..]) == multiset(s) - multiset{x};
      assert multiset(t') == multiset(t) - multiset{x};
      IdsPermutation(s[1..], t');
      IdsConcat([x], s[1..]);
      IdsConcat(t[..j], [x]);
      IdsConcat(t[..j] + [x], t[j + 1..]);
      IdsConcat(t[..j], t[j + 1..]);
    }
  }

  /** Reindexing a moved sequence: positions are indices and the ids move as the records do. */
  lemma {:induction false} ReindexMove(s: seq<Category>, from: nat, to: nat)
    requires from < |s| && to < |s|
    ensures
      var out := Reindex(Move(s, from, to));
      && |out| == |s|
      && (forall i :: 0 <= i < |out| ==> out[i].position == i)
      && out[to] == s[from].(position := to)
      && (forall i :: 0 <= i < |out| && i != to ==>
            out[i] == RemoveAt(s, from)[if i < to then i else i - 1].(position := i))
      && RemoveAt(Ids(out), to) == RemoveAt(Ids(s), from)
      && multiset(Ids(out)) == multiset(Ids(s))
  {
    var moved := Move(s, from, to);
    var out := Reindex(moved);
    MoveShape(s, from, to);
    MovePermutes(s, from, to);
    assert Ids(out) == Ids(moved);
    assert Ids(moved) == Move(Ids(s), from, to);
    MoveShape(Ids(s), from, to);
    IdsPermutation(moved, s);
  }

  /**
   * A column drop that dispatches yields a permutation of the position-sorted columns in
   * which the dragged column sits at the target's former index, the other columns keep
   * their relative order, and every position equals its index.
   */
  lemma ColumnDropReorders(prev: DragState, draggedId: string, targetCategoryId: string,
                           categories: seq<Category>)
    requires ColumnDrop(prev, "category", draggedId, targetCategoryId, categories).action.Some?
    ensures
      var out := ColumnDrop(prev, "category", draggedId, targetCategoryId, categories).action.value.categories;
      var sorted := SortByPosition(categories);
      var from := IndexOfId(sorted, draggedId);
      var to := IndexOfId(sorted, targetCategoryId);
      && 0 <= from < |sorted| && 0 <= to < |sorted|
      && |out| == |categories|
      && (forall i :: 0 <= i < |out| ==> out[i].position == i)
      && out[to].id == draggedId
      && out[to] == sorted[from].(position := to)
      && (forall i :: 0 <= i < |out| && i != to ==>
            out[i] == RemoveAt(sorted, from)[if i < to then i else i - 1].(position := i))
      && RemoveAt(Ids(out), to) == RemoveAt(Ids(sorted), from)
      && multiset(Ids(out)) == multiset(Ids(categories))
  {
    var sorted := SortByPosition(categories);
    var from := IndexOfId(sorted, draggedId);
    var to := IndexOfId(sorted, targetCategoryId);
    ReindexMove(sorted, from, to);
    IdsPermutation(sorted, categories);
  }

  /**
   * No shift compensation: the dragged column takes the target's former index, so when it
   * comes from the left the target ends up just before it, and from the right just after it.
   */
  lemma ColumnDropSide(prev: DragState, draggedId: string, targetCategoryId: string,
                       categories: seq<Category>)
    requires ColumnDrop(prev, "category", draggedId, targetCategoryId, categories).action.Some?
    ensures
      var out := ColumnDrop(prev, "category", draggedId, targetCategoryId, categories).action.value.categories;
      var sorted := SortByPosition(categories);
      var from := IndexOfId(sorted, draggedId);
      var to := IndexOfId(sorted, targetCategoryId);
      && 0 <= from < |out| && 0 <= to < |out|
      && (from < to ==> out[to - 1].id == targetCategoryId)
      && (to < from ==> to + 1 < |out| && out[to + 1].id == targetCategoryId)
  {
    var sorted := SortByPosition(categories);
    var from := IndexOfId(sorted, draggedId);
    var to := IndexOfId(sorted, targetCategoryId);
    var moved := Move(sorted, from, to);
    if from < to {
      assert moved[to - 1] == RemoveAt(sorted, from)[to - 1] == sorted[to];
    } else if to < from {
      assert moved[to + 1] == RemoveAt(sorted, from)[to] == sorted[to];
    }
  }
}

=== FILE: expiry.dfy ===
/**
 * Expiry classification of a ticket (src/lib/notifications.ts `getExpiryStatus`) and the
 * badge of a ticket card (src/components/board/TicketCard.tsx `getExpiryInfo`). Both
 * compute a whole number of days between today and the expiry date from the clock; the
 * model takes that day count as an input.
 */
module Expiry {
  import opened Text
  import opened Wrappers

  datatype Level = Safe | Warning | Danger | Overdue

  /** `caption` is the source's `label` field (a reserved word in Dafny). */
  datatype ExpiryStatus = ExpiryStatus(status: Level, daysLeft: int, caption: string)

  /** Overdue is the most urgent, safe the least. */
  function Urgency(l: Level): nat {
    match l
    case Overdue => 3
    case Danger => 2
    case Warning => 1
    case Safe => 0
  }

  /** The label both classifiers show for a day count. */
  function DaysLabel(daysLeft: int): string {
    if daysLeft < 0 then "Overdue"
    else if daysLeft == 0 then "Due today"
    else if daysLeft == 1 then "1 day left"
    else IntToString(daysLeft) + " days left"
  }

  /** `getExpiryStatus` with the day difference as input. */
  function GetExpiryStatus(daysLeft: int, daysBefore: int): (r: ExpiryStatus)
    ensures r.daysLeft == daysLeft
    ensures r.caption == DaysLabel(daysLeft)
    ensures r.status == Overdue <==> daysLeft < 0
    ensures r.status == Danger <==> daysLeft == 0 || daysLeft == 1
    ensures r.status == Warning <==> 2 <= daysLeft <= daysBefore
    ensures r.status == Safe <==> daysLeft > 1 && daysLeft > daysBefore
  {
    if daysLeft < 0 then ExpiryStatus(Overdue, daysLeft, "Overdue")
    else if daysLeft == 0 then ExpiryStatus(Danger, daysLeft, "Due today")
    else if daysLeft == 1 then ExpiryStatus(Danger, daysLeft, "1 day left")
    else if daysLeft <= daysBefore then ExpiryStatus(Warning, daysLeft, IntToString(daysLeft) + " days left")
    else ExpiryStatus(Safe, daysLeft, IntToString(daysLeft) + " days left")
  }

  /** For a fixed threshold, more days left never gives a more urgent status. */
  lemma {:induction false} UrgencyMonotone(d1: int, d2: int, daysBefore: int)
    requires d1 <= d2
    ensures Urgency(GetExpiryStatus(d2, daysBefore).status) <= Urgency(GetExpiryStatus(d1, daysBefore).status)
  {
  }

  /** The scenario of a ticket due today and one four days out, with the default threshold. */
  lemma DefaultThresholdScenario()
    ensures GetExpiryStatus(0, 3) == ExpiryStatus(Danger, 0, "Due today")
    ensures GetExpiryStatus(4, 3).status == Safe && GetExpiryStatus(4, 3).caption == "4 days left"
  {
    assert IntToString(4) == "4";
  }

  datatype ExpiryInfo = ExpiryInfo(caption: string, colorClass: string, dotColor: string)

  /** `getExpiryInfo`: the badge of a card, with a fixed three-day threshold. */
  function GetExpiryInfo(expiryDate: string, diffDays: int): (r: ExpiryInfo)
    ensures expiryDate == "" ==> r == ExpiryInfo("", "", "")
    ensures expiryDate != "" ==> r.caption == DaysLabel(diffDays)
    ensures expiryDate != "" ==>
      r.colorClass == (if diffDays < 0 then "text-red-600"
                       else if diffDays == 0 then "text-red-500"
                       else if diffDays <= 3 then "text-yellow-600"
                       else "text-green-600")
    ensures expiryDate != "" ==>
      r.dotColor == (if r.colorClass == "text-red-600" then "bg-red-500"
                     else if r.colorClass == "text-red-500" then "bg-red-400"
                     else if r.colorClass == "text-yellow-600" then "bg-yellow-400"
                     else "bg-green-500")
  {
    if expiryDate == "" then ExpiryInfo("", "", "")
    else if diffDays < 0 then ExpiryInfo("Overdue", "text-red-600", "bg-red-500")
    else if diffDays == 0 then ExpiryInfo("Due today", "text-red-500", "bg-red-400")
    else if diffDays == 1 then ExpiryInfo("1 day left", "text-yellow-600", "bg-yellow-400")
    else if diffDays <= 3 then ExpiryInfo(IntToString(diffDays) + " days left", "text-yellow-600", "bg-yellow-400")
    else ExpiryInfo(IntToString(diffDays) + " days left", "text-green-600", "bg-green-500")
  }

  /** The card shows the same label as the notifier's classification, whatever its threshold. */
  lemma {:induction false} CardLabelAgrees(expiryDate: string, days: int, daysBefore: int)
    requires expiryDate != ""
    ensures GetExpiryInfo(expiryDate, days).caption == GetExpiryStatus(days, daysBefore).caption
  {
  }

  /** The card's yellow band is the notifier's warning band when the threshold is 3. */
  lemma {:induction false} CardColourMatchesDefaultThreshold(expiryDate: string, days: int)
    requires expiryDate != "" && days >= 2
    ensures GetExpiryInfo(expiryDate, days).colorClass == "text-yellow-600" <==> GetExpiryStatus(days, 3).status == Warning
  {
  }

  /** The badge of `TicketCard`: computed only for a ticket with an expiry date. */
  function CardBadge(expiryDate: string, diffDays: int): (r: Option<ExpiryInfo>)
    ensures r.Some? <==> expiryDate != ""
    ensures r.Some? ==> r.value.caption != "" && r.value.colorClass != "" && r.value.dotColor != ""
  {
    if expiryDate != "" then Some(GetExpiryInfo(expiryDate, diffDays)) else None
  }
}

=== FILE: expiry_checker.dfy ===
/**
 * The expiry checker hook (src/hooks/useExpiryChecker.ts). It keeps, for the lifetime of
 * the hook, the set of `id:status` keys it has already notified about; each check walks
 * the tickets in order and raises a toast (and, when enabled, a browser push) for every
 * ticket that is due soon or overdue and whose key is new. The day count of an expiry
 * date at the time of the check is given by `dayCount`.
 */
module ExpiryChecker {
  import opened Text
  import opened Types
  import opened Expiry
  import opened NotificationSlice
  import opened Wrappers

  datatype Push = Push(title: string, body: string)

  /** One notification: its de-duplication key, the toast dispatched and the push sent, if any. */
  datatype Notice = Notice(key: string, message: string, kind: ToastType, push: Option<Push>)

  function StatusName(l: Level): string {
    match l
    case Safe => "safe"
    case Warning => "warning"
    case Danger => "danger"
    case Overdue => "overdue"
  }

  /** The de-duplication key `${ticket.id}:${status}`. */
  function NoticeKey(ticketId: string, l: Level): string {
    ticketId + ":" + StatusName(l)
  }

  function Quoted(title: string): string {
    "\"" + title + "\""
  }

  /** The toast text of a warning: `expires in <n> day` with an `s` unless n is 1. */
  function WarningMessage(title: string, daysLeft: int): string {
    Quoted(title) + " expires in " + IntToString(daysLeft) + " day" + (if daysLeft != 1 then "s" else "")
  }

  /** The notification raised for a ticket whose status is not safe. */
  function NoticeFor(t: Ticket, st: ExpiryStatus, pushEnabled: bool): (n: Notice)
    requires st.status != Safe
    ensures n.key == NoticeKey(t.id, st.status)
    ensures n.kind == (if st.status == Warning then WarningToast else ErrorToast)
    ensures n.push.Some? <==> pushEnabled
    ensures n.push.Some? ==> n.push.value.body == n.message
    ensures st.status == Overdue ==>
      n.message == Quoted(t.title) + " is overdue" && (n.push.Some? ==> n.push.value.title == "Overdue Ticket")
    ensures st.status == Danger ==>
      n.message == Quoted(t.title) + ": " + st.caption && (n.push.Some? ==> n.push.value.title == "Ticket Due Soon")
    ensures st.status == Warning ==>
      && n.message == Quoted(t.title) + " expires in " + IntToString(st.daysLeft)
                      + (if st.daysLeft == 1 then " day" else " days")
      && (n.push.Some? ==> n.push.value.title == "Upcoming Expiry")
  {
    var key := NoticeKey(t.id, st.status);
    match st.status
    case Overdue =>
      var msg := Quoted(t.title) + " is overdue";
      Notice(key, msg, ErrorToast, if pushEnabled then Some(Push("Overdue Ticket", msg)) else None)
    case Danger =>
      var msg := Quoted(t.title) + ": " + st.caption;
      Notice(key, msg, ErrorToast, if pushEnabled then Some(Push("Ticket Due Soon", msg)) else None)
    case Warning =>
      var msg := WarningMessage(t.title, st.daysLeft);
      Notice(key, msg, WarningToast, if pushEnabled then Some(Push("Upcoming Expiry", msg)) else None)
  }

  /** A ticket that may raise a notification: it has an expiry date and is not safe. */
  predicate Alarming(t: Ticket, dayCount: string -> int, daysBefore: int) {
    t.expiryDate != "" && GetExpiryStatus(dayCount(t.expiryDate), daysBefore).status != Safe
  }

  function AlarmKey(t: Ticket, dayCount: string -> int, daysBefore: int): string {
    NoticeKey(t.id, GetExpiryStatus(dayCount(t.expiryDate), daysBefore).status)
  }

  datatype CheckResult = CheckResult(notified: set<string>, notices: seq<Notice>)

  /** One `check()` over `tickets` from the notified set `notified`: the new set and what it raised. */
  function CheckTickets(tickets: seq<Ticket>, notified: set<string>, dayCount: string -> int,
                        daysBefore: int, pushEnabled: bool): CheckResult
  {
    if |tickets| == 0 then CheckResult(notified, [])
    else
      var t := tickets[0];
      if !Alarming(t, dayCount, daysBefore) then
        CheckTickets(tickets[1..], notified, dayCount, daysBefore, pushEnabled)
      else
        var st := GetExpiryStatus(dayCount(t.expiryDate), daysBefore);
        var key := NoticeKey(t.id, st.status);
        if key in notified then CheckTickets(tickets[1..], notified, dayCount, daysBefore, pushEnabled)
        else
          var rest := CheckTickets(tickets[1..], notified + {key}, dayCount, daysBefore, pushEnabled);
          CheckResult(rest.notified, [NoticeFor(t, st, pushEnabled)] + rest.notices)
  }

  /** The notified set after looking at the first ticket only. */
  function NextNotified(t: Ticket, notified: set<string>, dayCount: string -> int, daysBefore: int): set<string> {
    if Alarming(t, dayCount, daysBefore) then notified + {AlarmKey(t, dayCount, daysBefore)} else notified
  }

  /** One step of a check: a new alarming ticket prepends its notice, any other ticket is skipped. */
  lemma CheckStep(tickets: seq<Ticket>, notified: set<string>, dayCount: string -> int,
                  daysBefore: int, pushEnabled: bool)
    requires |tickets| > 0
    ensures
      var t := tickets[0];
      var r := CheckTickets(tickets, notified, dayCount, daysBefore, pushEnabled);
      var rest := CheckTickets(tickets[1..], NextNotified(t, notified, dayCount, daysBefore),
                               dayCount, daysBefore, pushEnabled);
      if Alarming(t, dayCount, daysBefore) && AlarmKey(t, dayCount, daysBefore) !in notified then
        r == CheckResult(rest.notified,
          [NoticeFor(t, GetExpiryStatus(dayCount(t.expiryDate), daysBefore), pushEnabled)] + rest.notices)
      else r == rest
  {
    var t := tickets[0];
    if Alarming(t, dayCount, daysBefore) && AlarmKey(t, dayCount, daysBefore) in notified {
      assert NextNotified(t, notified, dayCount, daysBefore) == notified;
    }
  }

  /**
   * At most once per key: the set only grows, every raised key was new, lands in the set,
   * and no key is raised twice.
   */
  lemma {:induction false} CheckAtMostOnce(tickets: seq<Ticket>, notified: set<string>, dayCount: string -> int,
                                           daysBefore: int, pushEnabled: bool)
    ensures
      var r := CheckTickets(tickets, notified, dayCount, daysBefore, pushEnabled);
      && notified <= r.notified
      && (forall i :: 0 <= i < |r.notices| ==> r.notices[i].key !in notified && r.notices[i].key in r.notified)
      && (forall i, j :: 0 <= i < j < |r.notices| ==> r.notices[i].key != r.notices[j].key)
  {
    if |tickets| > 0 {
      var t := tickets[0];
      if !Alarming(t, dayCount, daysBefore) {
        CheckAtMostOnce(tickets[1..], notified, dayCount, daysBefore, pushEnabled);
      } else {
        var key := AlarmKey(t, dayCount, daysBefore);
        if key in notified {
          CheckAtMostOnce(tickets[1..], notified, dayCount, daysBefore, pushEnabled);
        } else {
          CheckAtMostOnce(tickets[1..], notified + {key}, dayCount, daysBefore, pushEnabled);
        }
      }
    }
  }

  /** Every raised notification comes from an alarming ticket, with that ticket's key. */
  lemma {:induction false} CheckOnlyAlarming(tickets: seq<Ticket>, notified: set<string>, dayCount: string -> int,
                                             daysBefore: int, pushEnabled: bool)
    ensures
      var r := CheckTickets(tickets, notified, dayCount, daysBefore, pushEnabled);
      forall i :: 0 <= i < |r.notices| ==>
        exists k :: 0 <= k < |tickets| && Alarming(tickets[k], dayCount, daysBefore)
                 && r.notices[i].key == AlarmKey(tickets[k], dayCount, daysBefore)
  {
    if |tickets| > 0 {
      var t := tickets[0];
      var next := NextNotified(t, notified, dayCount, daysBefore);
      CheckStep(tickets, notified, dayCount, daysBefore, pushEnabled);
      CheckOnlyAlarming(tickets[1..], next, dayCount, daysBefore, pushEnabled);
      var r := CheckTickets(tickets, notified, dayCount, daysBefore, pushEnabled);
      var rest := CheckTickets(tickets[1..], next, dayCount, daysBefore, pushEnabled);
      var isNew := Alarming(t, dayCount, daysBefore) && AlarmKey(t, dayCount, daysBefore) !in notified;
      forall i | 0 <= i < |r.notices|
        ensures exists k :: 0 <= k < |tickets| && Alarming(tickets[k], dayCount, daysBefore)
                         && r.notices[i].key == AlarmKey(tickets[k], dayCount, daysBefore)
      {
        if isNew && i == 0 {
          assert tickets[0] == t;
        } else {
          var j := if isNew then i - 1 else i;
          assert r.notices[i] == rest.notices[j];
          var k :| 0 <= k < |tickets[1..]| && Alarming(tickets[1..][k], dayCount, daysBefore)
                   && rest.notices[j].key == AlarmKey(tickets[1..][k], dayCount, daysBefore);
          assert tickets[k + 1] == tickets[1..][k];
        }
      }
    }
  }

  /** Pushes are sent only when enabled, always together with a toast of the same text. */
  lemma {:induction false} CheckPushOnlyWhenEnabled(tickets: seq<Ticket>, notified: set<string>,
                                                    dayCount: string -> int, daysBefore: int, pushEnabled: bool)
    ensures
      var r := CheckTickets(tickets, notified, dayCount, daysBefore, pushEnabled);
      forall i :: 0 <= i < |r.notices| ==>
        (r.notices[i].push.Some? <==> pushEnabled)
        && (r.notices[i].push.Some? ==> r.notices[i].push.value.body == r.notices[i].message)
  {
    if |tickets| > 0 {
      var t := tickets[0];
      CheckStep(tickets, notified, dayCount, daysBefore, pushEnabled);
      CheckPushOnlyWhenEnabled(tickets[1..], NextNotified(t, notified, dayCount, daysBefore),
                               dayCount, daysBefore, pushEnabled);
    }
  }

  /** Every alarming ticket's key is in the set after a check, so an identical second check is silent. */
  lemma {:induction false} CheckCoversAlarming(tickets: seq<Ticket>, notified: set<string>, dayCount: string -> int,
                                               daysBefore: int, pushEnabled: bool)
    ensures
      var r := CheckTickets(tickets, notified, dayCount, daysBefore, pushEnabled);
      forall k :: 0 <= k < |tickets| && Alarming(tickets[k], dayCount, daysBefore) ==>
        AlarmKey(tickets[k], dayCount, daysBefore) in r.notified
  {
    if |tickets| > 0 {
      var t := tickets[0];
      var next := NextNotified(t, notified, dayCount, daysBefore);
      CheckStep(tickets, notified, dayCount, daysBefore, pushEnabled);
      CheckCoversAlarming(tickets[1..], next, dayCount, daysBefore, pushEnabled);
      CheckAtMostOnce(tickets[1..], next, dayCount, daysBefore, pushEnabled);
      var r := CheckTickets(tickets, notified, dayCount, daysBefore, pushEnabled);
      forall k | 0 <= k < |tickets| && Alarming(tickets[k], dayCount, daysBefore)
        ensures AlarmKey(tickets[k], dayCount, daysBefore) in r.notified
      {
        if k > 0 { assert tickets[k] == tickets[1..][k - 1]; }
      }
    }
  }

  /** A check whose every ticket is already covered by the set raises nothing and adds nothing. */
  lemma {:induction false} CheckSilentWhenCovered(tickets: seq<Ticket>, notified: set<string>,
                                                  dayCount: string -> int, daysBefore: int, pushEnabled: bool)
    requires forall k :: 0 <= k < |tickets| && Alarming(tickets[k], dayCount, daysBefore) ==>
               AlarmKey(tickets[k], dayCount, daysBefore) in notified
    ensures CheckTickets(tickets, notified, dayCount, daysBefore, pushEnabled) == CheckResult(notified, [])
  {
    if |tickets| > 0 {
      forall k | 0 <= k < |tickets[1..]| && Alarming(tickets[1..][k], dayCount, daysBefore)
        ensures AlarmKey(tickets[1..][k], dayCount, daysBefore) in notified
      {
        assert tickets[1..][k] == tickets[k + 1];
      }
      CheckSilentWhenCovered(tickets[1..], notified, dayCount, daysBefore, pushEnabled);
    }
  }

  /** A ticket in the warning band has at least two days left, so its toast always says "days". */
  lemma WarningAlwaysPlural(t: Ticket, daysLeft: int, daysBefore: int, pushEnabled: bool)
    requires GetExpiryStatus(daysLeft, daysBefore).status == Warning
    ensures NoticeFor(t, GetExpiryStatus(daysLeft, daysBefore), pushEnabled).message
            == Quoted(t.title) + " expires in " + IntToString(daysLeft) + " days"
  {
  }

  /** The loop invariant of a check: what is still to come completes the whole result. */
  ghost predicate CheckedSoFar(total: CheckResult, todo: seq<Ticket>, notified: set<string>, notices: seq<Notice>,
                               dayCount: string -> int, daysBefore: int, pushEnabled: bool)
  {
    var rest := CheckTickets(todo, notified, dayCount, daysBefore, pushEnabled);
    total == CheckResult(rest.notified, notices + rest.notices)
  }

  /** Looking at one more ticket keeps the loop invariant. */
  lemma CheckedAdvance(total: CheckResult, todo: seq<Ticket>, notified: set<string>, notices: seq<Notice>,
                       dayCount: string -> int, daysBefore: int, pushEnabled: bool)
    requires |todo| > 0
    requires CheckedSoFar(total, todo, notified, notices, dayCount, daysBefore, pushEnabled)
    ensures
      var t := todo[0];
      var isNew := Alarming(t, dayCount, daysBefore) && AlarmKey(t, dayCount, daysBefore) !in notified;
      CheckedSoFar(total, todo[1..], NextNotified(t, notified, dayCount, daysBefore),
                   if isNew then notices + [NoticeFor(t, GetExpiryStatus(dayCount(t.expiryDate), daysBefore), pushEnabled)]
                   else notices,
                   dayCount, daysBefore, pushEnabled)
  {
    var t := todo[0];
    CheckStep(todo, notified, dayCount, daysBefore, pushEnabled);
    var whole := CheckTickets(todo, notified, dayCount, daysBefore, pushEnabled);
    var rest := CheckTickets(todo[1..], NextNotified(t, notified, dayCount, daysBefore), dayCount, daysBefore, pushEnabled);
    assert total == CheckResult(whole.notified, notices + whole.notices);
    if Alarming(t, dayCount, daysBefore) && AlarmKey(t, dayCount, daysBefore) !in notified {
      var n := NoticeFor(t, GetExpiryStatus(dayCount(t.expiryDate), daysBefore), pushEnabled);
      assert whole == CheckResult(rest.notified, [n] + rest.notices);
      assert notices + whole.notices == (notices + [n]) + rest.notices;
    } else {
      assert whole == rest;
    }
  }

  class ExpiryWatcher {
    /** The keys already notified during this hook's lifetime. */
    var notifiedIds: set<string>

    constructor ()
      ensures notifiedIds == {}
    {
      notifiedIds := {};
    }

    /** One run of the effect: nothing for an empty list, otherwise one `check()`. */
    method Check(tickets: seq<Ticket>, dayCount: string -> int, daysBefore: int, pushEnabled: bool)
      returns (notices: seq<Notice>)
      modifies this
      ensures |tickets| == 0 ==> notices == [] && notifiedIds == old(notifiedIds)
      ensures CheckTickets(tickets, old(notifiedIds), dayCount, daysBefore, pushEnabled)
              == CheckResult(notifiedIds, notices)
    {
      notices := [];
      if |tickets| == 0 {
        return;
      }
      ghost var total := CheckTickets(tickets, notifiedIds, dayCount, daysBefore, pushEnabled);
      var i := 0;
      while i < |tickets|
        invariant 0 <= i <= |tickets|
        invariant total == CheckTickets(tickets, old(notifiedIds), dayCount, daysBefore, pushEnabled)
        invariant CheckedSoFar(total, tickets[i..], notifiedIds, notices, dayCount, daysBefore, pushEnabled)
      {
        var t := tickets[i];
        ghost var before, earlier := notifiedIds, notices;
        if t.expiryDate != "" {
          var st := GetExpiryStatus(dayCount(t.expiryDate), daysBefore);
          if st.status != Safe {
            var key := NoticeKey(t.id, st.status);
            if key !in notifiedIds {
              notifiedIds := notifiedIds + {key};
              notices := notices + [NoticeFor(t, st, pushEnabled)];
            }
          }
        }
        CheckedAdvance(total, tickets[i..], before, earlier, dayCount, daysBefore, pushEnabled);
        assert tickets[i..][1..] == tickets[i + 1..];
        i := i + 1;
      }
    }
  }
}

=== FILE: login_page.dfy ===
/**
 * The sign-in / sign-up page (app/login/page.tsx): field validation, the per-mode form
 * drafts kept in browser storage, mode switching and the clean-up after a successful
 * authentication. Browser storage is a key/value map; the JSON text of a stored draft is
 * produced by `encode` and read by `decode` (`None` where `JSON.parse` throws).
 */
module LoginPage {
  import opened Wrappers
  import opened Text

  datatype Mode = SignInMode | SignUpMode

  const SigninKey := "draft_signin"
  const SignupKey := "draft_signup"
  const ModeKey := "draft_mode"

  // -------------------------------------------------------------- the email pattern

  /** A character of `[^\s@]`. */
  predicate Plain(c: char) {
    !IsSpace(c) && c != '@'
  }

  predicate AllPlain(s: string) {
    forall k :: 0 <= k < |s| ==> Plain(s[k])
  }

  /** `^[^\s@]+@[^\s@]+\.[^\s@]+$`: three non-empty plain runs around an `@` and a `.`. */
  predicate EmailPattern(s: string) {
    exists i, j :: 0 < i && i + 1 < j && j + 1 < |s| && s[i] == '@' && s[j] == '.'
                && AllPlain(s[..i]) && AllPlain(s[i + 1..j]) && AllPlain(s[j + 1..])
  }

  function IndexOfChar(s: string, c: char): (i: nat)
    requires c in s
    ensures i < |s| && s[i] == c && c !in s[..i]
  {
    if s[0] == c then 0
    else
      var i := IndexOfChar(s[1..], c);
      assert s[..i + 1] == [s[0]] + s[1..][..i];
      i + 1
  }

  /**
   * The email check as a direct test: no whitespace, exactly one `@` and not first, and a
   * `.` strictly inside the part after it.
   */
  predicate EmailValid(s: string) {
    && (forall k :: 0 <= k < |s| ==> !IsSpace(s[k]))
    && '@' in s
    && var i := IndexOfChar(s, '@');
       && 0 < i && '@' !in s[i + 1..]
       && i + 2 < |s| - 1 && '.' in s[i + 2..|s| - 1]
  }

  /** Whatever the direct test accepts, the pattern matches. */
  lemma {:induction false} EmailValidMatchesPattern(s: string)
    requires EmailValid(s)
    ensures EmailPattern(s)
  {
    var i := IndexOfChar(s, '@');
    var t := s[i + 2..|s| - 1];
    var d := IndexOfChar(t, '.');
    var j := i + 2 + d;
    assert s[j] == t[d];
    var after := s[i + 1..];
    forall k | 0 <= k < |s| && k != i ensures s[k] != '@' {
      if k < i { assert s[k] == s[..i][k]; } else { assert s[k] == after[k - i - 1]; }
    }
    assert AllPlain(s[..i]);
    assert AllPlain(s[i + 1..j]);
    assert AllPlain(s[j + 1..]);
  }

  /** In a matched address every character but the `@` is plain. */
  lemma {:induction false} PlainAroundAt(s: string, i: nat, j: nat)
    requires 0 < i && i + 1 < j && j + 1 < |s| && s[i] == '@' && s[j] == '.'
    requires AllPlain(s[..i]) && AllPlain(s[i + 1..j]) && AllPlain(s[j + 1..])
    ensures forall k :: 0 <= k < |s| && k != i ==> Plain(s[k])
  {
    forall k | 0 <= k < |s| && k != i ensures Plain(s[k]) {
      if k < i { assert s[k] == s[..i][k]; }
      else if k < j { assert s[k] == s[i + 1..j][k - i - 1]; }
      else if k > j { assert s[k] == s[j + 1..][k - j - 1]; }
    }
  }

  /** In a matched address the `@` found first is the pattern's, and no other follows it. */
  lemma {:induction false} OnlyAt(s: string, i: nat)
    requires i < |s| && s[i] == '@'
    requires forall k :: 0 <= k < |s| && k != i ==> Plain(s[k])
    ensures '@' in s && IndexOfChar(s, '@') == i && '@' !in s[i + 1..]
  {
    assert IndexOfChar(s, '@') == i;
    var after := s[i + 1..];
    forall k | 0 <= k < |after| ensures after[k] != '@' {
      assert after[k] == s[i + 1 + k];
    }
  }

  /** Whatever the pattern matches, the direct test accepts. */
  lemma {:induction false} PatternPassesEmailValid(s: string)
    requires EmailPattern(s)
    ensures EmailValid(s)
  {
    var i, j :| 0 < i && i + 1 < j && j + 1 < |s| && s[i] == '@' && s[j] == '.'
              && AllPlain(s[..i]) && AllPlain(s[i + 1..j]) && AllPlain(s[j + 1..]);
    PlainAroundAt(s, i, j);
    assert forall k :: 0 <= k < |s| ==> !IsSpace(s[k]);
    OnlyAt(s, i);
    var t := s[i + 2..|s| - 1];
    assert t[j - i - 2] == s[j];
    assert '.' in t;
  }

  /** The direct test accepts exactly the strings the pattern matches. */
  lemma EmailValidIffPattern(s: string)
    ensures EmailValid(s) <==> EmailPattern(s)
  {
    if EmailValid(s) { EmailValidMatchesPattern(s); }
    if EmailPattern(s) { PatternPassesEmailValid(s); }
  }

  // ---------------------------------------------------------------- validation

  datatype Field = EmailField | PasswordField | UsernameField

  function EmailError(email: string): Option<string> {
    if email == "" then Some("Email is required")
    else if !EmailValid(email) then Some("Please enter a valid email")
    else None
  }

  function PasswordError(password: string): Option<string> {
    if password == "" then Some("Password is required")
    else if |password| < 6 then Some("Password must be at least 6 characters")
    else None
  }

  /** The username is checked in sign-up mode only. */
  function UsernameError(mode: Mode, username: string): Option<string> {
    if !mode.SignUpMode? then None
    else if username == "" then Some("Username is required")
    else if |username| < 3 then Some("Username must be at least 3 characters")
    else None
  }

  /** `errors` holds `f` exactly when `e` is an error, with that message. */
  predicate Reports(errors: map<Field, string>, f: Field, e: Option<string>) {
    (f in errors <==> e.Some?) && (e.Some? ==> errors[f] == e.value)
  }

  /** `validateFields`: the error map, built rule by rule, and whether it is empty. */
  method ValidateFields(mode: Mode, email: string, password: string, username: string)
    returns (errors: map<Field, string>, valid: bool)
    ensures Reports(errors, EmailField, EmailError(email))
    ensures Reports(errors, PasswordField, PasswordError(password))
    ensures Reports(errors, UsernameField, UsernameError(mode, username))
    ensures valid <==> errors == map[]
  {
    errors := map[];
    if email == "" {
      errors := errors[EmailField := "Email is required"];
    } else if !EmailValid(email) {
      errors := errors[EmailField := "Please enter a valid email"];
    }
    if password == "" {
      errors := errors[PasswordField := "Password is required"];
    } else if |password| < 6 {
      errors := errors[PasswordField := "Password must be at least 6 characters"];
    }
    if mode.SignUpMode? {
      if username == "" {
        errors := errors[UsernameField := "Username is required"];
      } else if |username| < 3 {
        errors := errors[UsernameField := "Username must be at least 3 characters"];
      }
    }
    valid := |errors.Keys| == 0;
    if !valid {
      assert errors != map[] by { assert errors.Keys != {}; }
    }
  }

  /** The form validates exactly when every rule passes. */
  lemma ValidExactlyWhenNoRuleFails(errors: map<Field, string>, mode: Mode, email: string, password: string, username: string)
    requires Reports(errors, EmailField, EmailError(email))
    requires Reports(errors, PasswordField, PasswordError(password))
    requires Reports(errors, UsernameField, UsernameError(mode, username))
    ensures errors == map[] <==>
      && email != "" && EmailPattern(email)
      && |password| >= 6
      && (mode.SignUpMode? ==> |username| >= 3)
  {
    EmailValidIffPattern(email);
    if errors != map[] {
      var f :| f in errors;
      assert f == EmailField || f == PasswordField || f == UsernameField;
    }
  }

  // -------------------------------------------------------------------- drafts

  /** The key a mode's draft is kept under. */
  function DraftKey(m: Mode): string {
    if m.SignInMode? then SigninKey else SignupKey
  }

  /** A stored form draft: the JSON object's properties, each possibly missing. */
  datatype FormDraft = FormDraft(email: Option<string>, username: Option<string>, password: Option<string>)

  const EmptyDraft := FormDraft(None, None, None)

  /** The stored draft of a mode: signin keeps only the email, signup the email and username. */
  function DraftRecord(m: Mode, email: string, username: string): (r: FormDraft)
    ensures r.password.None?
    ensures r.email == Some(email)
    ensures r.username.Some? <==> m.SignUpMode?
    ensures r.username.Some? ==> r.username.value == username
  {
    if m.SignInMode? then FormDraft(Some(email), None, None) else FormDraft(Some(email), Some(username), None)
  }

  /** `readDraft`: the decoded draft, or an empty one when absent, empty or not JSON. */
  function ReadDraft(storage: map<string, string>, key: string, decode: string -> Option<FormDraft>): FormDraft {
    if key in storage && storage[key] != "" then decode(storage[key]).GetOr(EmptyDraft) else EmptyDraft
  }

  /** The mode the page opens in: sign-up only when exactly 'signup' was stored. */
  function InitialMode(storage: map<string, string>): (m: Mode)
    ensures m.SignUpMode? <==> ModeKey in storage && storage[ModeKey] == "signup"
  {
    if ModeKey in storage && storage[ModeKey] == "signup" then SignUpMode else SignInMode
  }

  datatype AuthRequest =
    | SignInRequest(email: string, password: string)
    | SignUpRequest(email: string, password: string, username: string)

  class Page {
    var mode: Mode
    var email: string
    var password: string
    var username: string
    var fieldErrors: map<Field, string>
    var showPassword: bool
    var storage: map<string, string>
    var requests: seq<AuthRequest>

    constructor (storage: map<string, string>)
      ensures mode.SignInMode? && email == "" && password == "" && username == ""
      ensures fieldErrors == map[] && !showPassword && this.storage == storage && requests == []
    {
      mode := SignInMode;
      email := "";
      password := "";
      username := "";
      fieldErrors := map[];
      showPassword := false;
      this.storage := storage;
      requests := [];
    }

    /** The mount effect: restore the stored mode and that mode's non-empty draft fields. */
    method Restore(decode: string -> Option<FormDraft>)
      modifies this
      ensures mode == InitialMode(old(storage))
      ensures var d := ReadDraft(old(storage), DraftKey(mode), decode);
        && email == (if Truthy(d.email) then d.email.value else old(email))
        && username == (if Truthy(d.username) then d.username.value else old(username))
      ensures password == old(password) && storage == old(storage) && requests == old(requests)
    {
      var active := if ModeKey in storage && storage[ModeKey] == "signup" then SignUpMode else SignInMode;
      mode := active;
      var draft := ReadDraft(storage, if active == SignInMode then SigninKey else SignupKey, decode);
      if Truthy(draft.email) {
        email := draft.email.value;
      }
      if Truthy(draft.username) {
        username := draft.username.value;
      }
    }

    /** The draft effect: the current mode's fields are written; the password never is. */
    method PersistDraft(encode: FormDraft -> string)
      modifies this
      ensures storage == old(storage)[DraftKey(mode) := encode(DraftRecord(mode, email, username))]
      ensures mode == old(mode) && email == old(email) && username == old(username) && password == old(password)
      ensures requests == old(requests)
    {
      if mode.SignInMode? {
        storage := storage[SigninKey := encode(FormDraft(Some(email), None, None))];
      } else {
        storage := storage[SignupKey := encode(FormDraft(Some(email), Some(username), None))];
      }
    }

    /**
     * The first commit after construction: the restore effect reads storage and sets the
     * state, then the draft effect runs with the state of the first render (still the
     * constructed one), and runs once more with the restored state.
     */
    method Mount(decode: string -> Option<FormDraft>, encode: FormDraft -> string)
      modifies this
      ensures mode == InitialMode(old(storage))
      ensures var d := ReadDraft(old(storage), DraftKey(mode), decode);
        && email == (if Truthy(d.email) then d.email.value else old(email))
        && username == (if Truthy(d.username) then d.username.value else old(username))
      ensures storage == old(storage)[DraftKey(old(mode)) := encode(DraftRecord(old(mode), old(email), old(username)))]
                                     [DraftKey(mode) := encode(DraftRecord(mode, email, username))]
      ensures password == old(password) && requests == old(requests)
    {
      var firstMode, firstEmail, firstUsername := mode, email, username;
      Restore(decode);
      storage := storage[DraftKey(firstMode) := encode(DraftRecord(firstMode, firstEmail, firstUsername))];
      PersistDraft(encode);
    }

    /**
     * `handleSubmit`: an invalid form sends nothing; a valid one sends the mode's request,
     * and `fulfilled` (its outcome) removes all three stored drafts.
     */
    method HandleSubmit(fulfilled: bool)
      modifies this
      ensures Reports(fieldErrors, EmailField, EmailError(email))
      ensures Reports(fieldErrors, PasswordField, PasswordError(password))
      ensures Reports(fieldErrors, UsernameField, UsernameError(mode, username))
      ensures fieldErrors != map[] ==> requests == old(requests) && storage == old(storage)
      ensures fieldErrors == map[] ==>
        && requests == old(requests) + [if mode.SignInMode? then SignInRequest(email, password)
                                         else SignUpRequest(email, password, username)]
        && storage == (if fulfilled then old(storage) - {SigninKey, SignupKey, ModeKey} else old(storage))
      ensures mode == old(mode) && email == old(email) && password == old(password) && username == old(username)
    {
      fieldErrors := map[];
      var errors, valid := ValidateFields(mode, email, password, username);
      fieldErrors := errors;
      if !valid {
        return;
      }
      if mode.SignInMode? {
        requests := requests + [SignInRequest(email, password)];
      } else {
        requests := requests + [SignUpRequest(email, password, username)];
      }
      if fulfilled {
        storage := storage - {SigninKey, SignupKey, ModeKey};
      }
    }

    /**
     * `switchMode`: a switch to the current mode does nothing; otherwise the mode is stored,
     * the target mode's draft is loaded (missing fields read ''), and the password, its
     * visibility and the errors are reset.
     */
    method SwitchMode(next: Mode, decode: string -> Option<FormDraft>)
      modifies this
      ensures next == old(mode) ==>
        && mode == old(mode) && email == old(email) && password == old(password)
        && username == old(username) && fieldErrors == old(fieldErrors) && storage == old(storage)
        && showPassword == old(showPassword)
      ensures next != old(mode) ==>
        var d := ReadDraft(old(storage)[ModeKey := if next == SignInMode then "signin" else "signup"], DraftKey(next), decode);
        && mode == next && password == "" && !showPassword && fieldErrors == map[]
        && storage == old(storage)[ModeKey := if next == SignInMode then "signin" else "signup"]
        && email == d.email.GetOr("") && username == d.username.GetOr("")
      ensures requests == old(requests)
    {
      if next == mode {
        return;
      }
      storage := storage[ModeKey := if next == SignInMode then "signin" else "signup"];
      var draft := ReadDraft(storage, DraftKey(next), decode);
      email := draft.email.GetOr("");
      username := draft.username.GetOr("");
      password := "";
      showPassword := false;
      fieldErrors := map[];
      mode := next;
    }
  }

  /**
   * Opening the page in sign-up mode overwrites the stored sign-in draft with an empty
   * email: the first run of the draft effect still sees the initial sign-in state. A later
   * switch to sign-in then loads that empty email, whatever was stored before.
   */
  method SignUpMountErasesSignInDraft(storage: map<string, string>, decode: string -> Option<FormDraft>,
                                      encode: FormDraft -> string)
    returns (page: Page)
    requires ModeKey in storage && storage[ModeKey] == "signup"
    requires forall d :: decode(encode(d)) == Some(d)
    ensures page.mode.SignInMode? && page.email == "" && page.password == ""
    ensures SigninKey in page.storage && page.storage[SigninKey] == encode(FormDraft(Some(""), None, None))
    ensures SigninKey in storage && Truthy(decode(storage[SigninKey]).GetOr(EmptyDraft).email) ==>
              page.email != decode(storage[SigninKey]).GetOr(EmptyDraft).email.value
  {
    page := new Page(storage);
    page.Mount(decode, encode);
    assert page.mode.SignUpMode?;
    assert page.storage[SigninKey] == encode(FormDraft(Some(""), None, None));
    page.SwitchMode(SignInMode, decode);
    assert decode(encode(FormDraft(Some(""), None, None))) == Some(FormDraft(Some(""), None, None));
  }
}

=== FILE: notification_settings.dfy ===
/**
 * The notification settings panel (src/components/notifications/NotificationSettings.tsx).
 * It edits the shared notification store; `parseInt` of the input is given as `parsed`
 * (`None` for NaN) and the browser's permission answer as `permission`.
 */
module NotificationSettings {
  import opened Wrappers
  import opened Text
  import opened NotificationSlice

  /** A request to persist the threshold (`updateNotificationSettings`). */
  datatype PersistRequest = PersistRequest(daysBefore: int, userId: string)

  class Panel {
    const store: NotificationStore
    var inputValue: string
    var persistRequests: seq<PersistRequest>

    constructor (store: NotificationStore)
      ensures this.store == store && inputValue == IntToString(store.daysBefore) && persistRequests == []
    {
      this.store := store;
      inputValue := IntToString(store.daysBefore);
      persistRequests := [];
    }

    /**
     * `handleDaysBlur`: a missing or sub-1 number reverts the input; a new valid number
     * becomes the threshold at once and is persisted when a user id is known. No upper
     * bound is enforced.
     */
    method HandleDaysBlur(parsed: Option<int>, userId: Option<string>)
      modifies this, store
      ensures parsed.None? || parsed.value < 1 ==>
        && inputValue == IntToString(old(store.daysBefore))
        && store.daysBefore == old(store.daysBefore) && persistRequests == old(persistRequests)
      ensures parsed.Some? && parsed.value >= 1 && parsed.value == old(store.daysBefore) ==>
        && inputValue == old(inputValue)
        && store.daysBefore == old(store.daysBefore) && persistRequests == old(persistRequests)
      ensures parsed.Some? && parsed.value >= 1 && parsed.value != old(store.daysBefore) ==>
        && inputValue == old(inputValue) && store.daysBefore == parsed.value
        && persistRequests == old(persistRequests)
             + (if Truthy(userId) then [PersistRequest(parsed.value, userId.value)] else [])
      ensures store.toasts == old(store.toasts) && store.pushEnabled == old(store.pushEnabled)
    {
      if parsed.None? || parsed.value < 1 {
        inputValue := IntToString(store.daysBefore);
        return;
      }
      if parsed.value != store.daysBefore {
        store.SetDaysBefore(parsed.value);
        if Truthy(userId) {
          persistRequests := persistRequests + [PersistRequest(parsed.value, userId.value)];
        }
      }
    }

    /**
     * `handlePushToggle`: disabling is unconditional; enabling asks for permission
     * (`asked`) and takes effect only when the answer is 'granted'.
     */
    method HandlePushToggle(permission: string) returns (asked: bool)
      modifies store
      ensures asked <==> !old(store.pushEnabled)
      ensures old(store.pushEnabled) ==> !store.pushEnabled
      ensures !old(store.pushEnabled) ==> store.pushEnabled == (permission == "granted")
      ensures store.toasts == old(store.toasts) && store.daysBefore == old(store.daysBefore)
    {
      asked := false;
      if !store.pushEnabled {
        asked := true;
        if permission == "granted" {
          store.SetPushEnabled(true);
        }
      } else {
        store.SetPushEnabled(false);
      }
    }
  }

  /** Any threshold of at least one day is accepted, however large. */
  method NoUpperBound(days: int) returns (panel: Panel)
    requires days >= 1
    ensures panel.store.daysBefore == days
  {
    var store := new NotificationStore();
    panel := new Panel(store);
    if days != 3 {
      panel.HandleDaysBlur(Some(days), None);
    }
  }
}

=== FILE: notification_slice.dfy ===
/**
 * The notifications store (src/store/slices/notificationSlice.ts): the list of toasts on
 * screen and the expiry-notification settings. The store's reducers update the state in
 * place, so it is a class whose methods are the reducers. A toast's id is generated from
 * the clock and a random number; the model takes it as a parameter.
 */
module NotificationSlice {

  datatype ToastType = InfoToast | WarningToast | ErrorToast | SuccessToast

  /** `kind` is the source's `type` field (a reserved word in Dafny). */
  datatype Toast = Toast(id: string, message: string, kind: ToastType)

  /** `toasts.filter((t) => t.id !== id)`. */
  function WithoutToast(toasts: seq<Toast>, id: string): (r: seq<Toast>)
    ensures |r| <= |toasts|
    ensures forall i :: 0 <= i < |r| ==> r[i].id != id && r[i] in toasts
    ensures forall i :: 0 <= i < |toasts| && toasts[i].id != id ==> toasts[i] in r
    ensures (forall i :: 0 <= i < |toasts| ==> toasts[i].id != id) ==> r == toasts
  {
    if |toasts| == 0 then []
    else if toasts[0].id == id then WithoutToast(toasts[1..], id)
    else [toasts[0]] + WithoutToast(toasts[1..], id)
  }

  /** Filtering distributes over concatenation, so the kept toasts stay in their order. */
  lemma {:induction false} WithoutToastConcat(a: seq<Toast>, b: seq<Toast>, id: string)
    ensures WithoutToast(a + b, id) == WithoutToast(a, id) + WithoutToast(b, id)
  {
    if |a| > 0 {
      assert (a + b)[1..] == a[1..] + b;
      WithoutToastConcat(a[1..], b, id);
    } else {
      assert a + b == b;
    }
  }

  /** Adding a toast and removing it by its fresh id restores the list. */
  lemma {:induction false} AddThenRemove(toasts: seq<Toast>, t: Toast)
    requires forall i :: 0 <= i < |toasts| ==> toasts[i].id != t.id
    ensures WithoutToast(toasts + [t], t.id) == toasts
  {
    WithoutToastConcat(toasts, [t], t.id);
    assert WithoutToast([t], t.id) == WithoutToast([], t.id);
  }

  class NotificationStore {
    var toasts: seq<Toast>
    var daysBefore: int
    var pushEnabled: bool

    /** The initial state: no toasts, a three-day threshold, push disabled. */
    constructor ()
      ensures toasts == [] && daysBefore == 3 && !pushEnabled
    {
      toasts := [];
      daysBefore := 3;
      pushEnabled := false;
    }

    /** `addToast`: appends exactly one toast; earlier toasts and the settings are unchanged. */
    method AddToast(message: string, kind: ToastType, id: string)
      modifies this
      ensures toasts == old(toasts) + [Toast(id, message, kind)]
      ensures daysBefore == old(daysBefore) && pushEnabled == old(pushEnabled)
    {
      toasts := toasts + [Toast(id, message, kind)];
    }

    /** `removeToast`: drops every toast with this id, keeps the others in order. */
    method RemoveToast(id: string)
      modifies this
      ensures toasts == WithoutToast(old(toasts), id)
      ensures daysBefore == old(daysBefore) && pushEnabled == old(pushEnabled)
    {
      toasts := WithoutToast(toasts, id);
    }

    /** `setPushEnabled`: changes only the push flag. */
    method SetPushEnabled(enabled: bool)
      modifies this
      ensures pushEnabled == enabled
      ensures toasts == old(toasts) && daysBefore == old(daysBefore)
    {
      pushEnabled := enabled;
    }

    /** `setDaysBefore`: changes only the threshold. */
    method SetDaysBefore(days: int)
      modifies this
      ensures daysBefore == days
      ensures toasts == old(toasts) && pushEnabled == old(pushEnabled)
    {
      daysBefore := days;
    }

    /** `updateNotificationSettings.fulfilled`: the persisted threshold becomes the current one. */
    method SettingsPersisted(persistedDays: int)
      modifies this
      ensures daysBefore == persistedDays
      ensures toasts == old(toasts) && pushEnabled == old(pushEnabled)
    {
      daysBefore := persistedDays;
    }
  }
}

=== FILE: ordering.dfy ===
/**
 * Sequence re-ordering used by the board: a stable sort by an integer key (JavaScript's
 * `Array.prototype.sort` with a `a.position - b.position` comparator) and the
 * "splice out, splice in" move of one element.
 */
module Ordering {

  predicate SortedBy<T>(s: seq<T>, key: T -> int) {
    forall i, j :: 0 <= i < j < |s| ==> key(s[i]) <= key(s[j])
  }

  /** Inserts `x` into `s` just before the trailing run of elements whose key is larger than its own. */
  function InsertByKey<T>(s: seq<T>, x: T, key: T -> int): (r: seq<T>)
    ensures |r| == |s| + 1
    ensures multiset(r) == multiset(s) + multiset{x}
  {
    if |s| == 0 then [x]
    else if key(x) < key(s[|s| - 1]) then
      assert s == s[..|s| - 1] + [s[|s| - 1]];
      InsertByKey(s[..|s| - 1], x, key) + [s[|s| - 1]]
    else
      s + [x]
  }

  /** Inserting into a sorted sequence keeps it sorted. */
  lemma {:induction false} InsertByKeySorted<T>(s: seq<T>, x: T, key: T -> int)
    requires SortedBy(s, key)
    ensures SortedBy(InsertByKey(s, x, key), key)
  {
    if |s| > 0 && key(x) < key(s[|s| - 1]) {
      var init, last := s[..|s| - 1], s[|s| - 1];
      InsertByKeySorted(init, x, key);
      var r' := InsertByKey(init, x, key);
      forall i | 0 <= i < |r'| ensures key(r'[i]) <= key(last) {
        assert r'[i] in multiset(r');
        if r'[i] != x {
          assert r'[i] in multiset(init);
          var j :| 0 <= j < |init| && init[j] == r'[i];
          assert s[j] == init[j];
        }
      }
    }
  }

  /** A stable insertion sort of `s` by `key`. */
  function SortByKey<T>(s: seq<T>, key: T -> int): (r: seq<T>)
    ensures |r| == |s|
    ensures SortedBy(r, key)
    ensures multiset(r) == multiset(s)
  {
    if |s| == 0 then []
    else
      assert s == s[..|s| - 1] + [s[|s| - 1]];
      var sorted := SortByKey(s[..|s| - 1], key);
      InsertByKeySorted(sorted, s[|s| - 1], key);
      InsertByKey(sorted, s[|s| - 1], key)
  }

  /** `splice(i, 1)`: the sequence without its element at `i`. */
  function RemoveAt<T>(s: seq<T>, i: nat): (r: seq<T>)
    requires i < |s|
    ensures |r| == |s| - 1
    ensures forall k :: 0 <= k < i ==> r[k] == s[k]
    ensures forall k :: i <= k < |r| ==> r[k] == s[k + 1]
  {
    s[..i] + s[i + 1..]
  }

  /** `splice(i, 0, x)`: the sequence with `x` inserted before the element at `i`. */
  function InsertAt<T>(s: seq<T>, i: nat, x: T): (r: seq<T>)
    requires i <= |s|
    ensures |r| == |s| + 1
    ensures r[i] == x
    ensures forall k :: 0 <= k < i ==> r[k] == s[k]
    ensures forall k :: i < k < |r| ==> r[k] == s[k - 1]
  {
    s[..i] + [x] + s[i..]
  }

  /** Moves the element at `from` so that it ends at index `to`, with no shift compensation. */
  function Move<T>(s: seq<T>, from: nat, to: nat): seq<T>
    requires from < |s| && to < |s|
  {
    InsertAt(RemoveAt(s, from), to, s[from])
  }

  lemma {:induction false} MoveShape<T>(s: seq<T>, from: nat, to: nat)
    requires from < |s| && to < |s|
    ensures |Move(s, from, to)| == |s|
    ensures Move(s, from, to)[to] == s[from]
    ensures RemoveAt(Move(s, from, to), to) == RemoveAt(s, from)
  {
    var m := Move(s, from, to);
    var r := RemoveAt(s, from);
    assert RemoveAt(m, to) == r by {
      forall k | 0 <= k < |r| ensures RemoveAt(m, to)[k] == r[k] {
        if k < to { assert RemoveAt(m, to)[k] == m[k]; } else { assert RemoveAt(m, to)[k] == m[k + 1]; }
      }
    }
  }

  lemma {:induction false} MovePermutes<T>(s: seq<T>, from: nat, to: nat)
    requires from < |s| && to < |s|
    ensures multiset(Move(s, from, to)) == multiset(s)
  {
    var r := RemoveAt(s, from);
    assert s == s[..from] + [s[from]] + s[from + 1..];
    assert r == s[..from] + s[from + 1..];
    assert Move(s, from, to) == r[..to] + [s[from]] + r[to..];
    assert r == r[..to] + r[to..];
    calc {
      multiset(Move(s, from, to));
      multiset(r[..to]) + multiset{s[from]} + multiset(r[to..]);
      multiset(r) + multiset{s[from]};
      multiset(s[..from]) + multiset(s[from + 1..]) + multiset{s[from]};
      multiset(s);
    }
  }

  /** Moving an element to `to` and back to `from` restores the original order. */
  lemma {:induction false} MoveRoundTrip<T>(s: seq<T>, from: nat, to: nat)
    requires from < |s| && to < |s|
    ensures Move(Move(s, from, to), to, from) == s
  {
    var m := Move(s, from, to);
    MoveShape(s, from, to);
    var back := Move(m, to, from);
    assert RemoveAt(m, to) == RemoveAt(s, from);
    forall k | 0 <= k < |s| ensures back[k] == s[k] {
      if k < from { assert back[k] == RemoveAt(s, from)[k]; }
      else if k > from { assert back[k] == RemoveAt(s, from)[k - 1]; }
    }
  }
}

=== FILE: priority_selector.dfy ===
/**
 * The priority picker (src/components/board/PrioritySelector.tsx): four presets and a
 * custom level. The same preset list is declared again in
 * src/components/board/CreateTicketModal.tsx; it is defined once here.
 */
module PrioritySelector {
  import opened Wrappers
  import opened Types

  const Low := Priority("Low", "#22c55e", 0)
  const Presets: seq<Priority> := [
    Low,
    Priority("Medium", "#eab308", 1),
    Priority("High", "#f97316", 2),
    Priority("Urgent", "#ef4444", 3)
  ]

  const CustomOrder := 99
  const DefaultCustomColor := "#6366f1"

  /** A preset stands for a value when both its label and its colour are the value's. */
  predicate SameLook(p: Priority, value: Priority) {
    p.name == value.name && p.color == value.color
  }

  /** `find` over a list of presets: the first one that looks like `value`. */
  function FindPreset(ps: seq<Priority>, value: Priority): (r: Option<Priority>)
    ensures r.Some? ==> r.value in ps && SameLook(r.value, value)
    ensures r.None? <==> forall i :: 0 <= i < |ps| ==> !SameLook(ps[i], value)
  {
    if |ps| == 0 then None
    else if SameLook(ps[0], value) then Some(ps[0])
    else FindPreset(ps[1..], value)
  }

  /** `find` returns the first preset that looks like the value. */
  lemma {:induction false} FindPresetIsFirst(ps: seq<Priority>, value: Priority)
    requires FindPreset(ps, value).Some?
    ensures exists i :: 0 <= i < |ps| && ps[i] == FindPreset(ps, value).value
                     && forall j :: 0 <= j < i ==> !SameLook(ps[j], value)
  {
    if !SameLook(ps[0], value) {
      FindPresetIsFirst(ps[1..], value);
      var r := FindPreset(ps, value).value;
      var i :| 0 <= i < |ps[1..]| && ps[1..][i] == r && forall j :: 0 <= j < i ==> !SameLook(ps[1..][j], value);
      assert ps[i + 1] == r;
      forall j | 0 <= j < i + 1 ensures !SameLook(ps[j], value) {
        if j > 0 { assert ps[j] == ps[1..][j - 1]; }
      }
    } else {
      assert ps[0] == FindPreset(ps, value).value;
    }
  }

  function MatchedPreset(value: Priority): Option<Priority> {
    FindPreset(Presets, value)
  }

  /** The custom level: the label (or 'Custom' when empty), the colour, order 99. */
  function CustomPriority(customLabel: string, customColor: string): (p: Priority)
    ensures p.name != "" && p.color == customColor && p.order == CustomOrder
    ensures customLabel != "" ==> p.name == customLabel
    ensures customLabel == "" ==> p.name == "Custom"
  {
    Priority(if customLabel != "" then customLabel else "Custom", customColor, CustomOrder)
  }

  /** The picker's state. */
  datatype Selector = Selector(isCustom: bool, customLabel: string, customColor: string)

  /** The picker's initial state: custom exactly when no preset matches, seeded from the value only then. */
  function InitialSelector(value: Priority): (s: Selector)
    ensures s.isCustom <==> forall i :: 0 <= i < |Presets| ==> !SameLook(Presets[i], value)
    ensures s.isCustom ==> s.customLabel == value.name && s.customColor == value.color
    ensures !s.isCustom ==> s.customLabel == "" && s.customColor == DefaultCustomColor
  {
    match MatchedPreset(value)
    case Some(_) => Selector(false, "", DefaultCustomColor)
    case None => Selector(true, value.name, value.color)
  }

  /** Every preset value opens the picker on its preset. */
  lemma PresetOpensAsPreset(i: nat)
    requires i < |Presets|
    ensures !InitialSelector(Presets[i]).isCustom
  {
  }

  /** `selectPreset`: leaves custom mode and emits the preset unchanged. */
  function SelectPreset(s: Selector, p: Priority): (r: (Selector, Priority))
    ensures !r.0.isCustom && r.1 == p
    ensures r.0.customLabel == s.customLabel && r.0.customColor == s.customColor
  {
    (s.(isCustom := false), p)
  }

  /** `applyCustom`: the custom level built from the picker's fields. */
  function ApplyCustom(s: Selector): (p: Priority)
    ensures p == CustomPriority(s.customLabel, s.customColor)
  {
    CustomPriority(s.customLabel, s.customColor)
  }

  /** A custom level with a non-preset label and colour reopens the picker in custom mode with those fields. */
  lemma CustomRoundTrip(s: Selector)
    requires forall i :: 0 <= i < |Presets| ==> !SameLook(Presets[i], ApplyCustom(s))
    ensures InitialSelector(ApplyCustom(s)).isCustom
    ensures s.customLabel != "" ==> InitialSelector(ApplyCustom(s)) == Selector(true, s.customLabel, s.customColor)
  {
  }

  /** The highlighted preset label: the value's label, only outside custom mode. */
  function ActivePresetLabel(s: Selector, value: Priority): (r: Option<string>)
    ensures r.Some? <==> !s.isCustom
    ensures r.Some? ==> r.value == value.name
  {
    if !s.isCustom then Some(value.name) else None
  }
}

=== FILE: register_route.dfy ===
/**
 * The registration endpoint (app/api/register/route.ts, `POST`). The request body and
 * every backend call are given as outcomes; the calls the handler makes are returned in
 * order as `calls`, with the response.
 */
module RegisterRoute {
  import opened Wrappers
  import opened Types

  /** The parsed JSON body (a missing property is `None`), or the error `request.json()` threw. */
  datatype Body =
    | BodyThrew(message: string)
    | Body(email: Option<string>, password: Option<string>, username: Option<string>)

  /** `admin.createUser`: an error, or the created user's id and creation time. */
  datatype CreateCall = CreateError(message: string) | Created(userId: string, createdAt: string)

  /** `signInWithPassword`: an error, or an answer with a session token or none. */
  datatype SignInCall = SignInError | SignInAnswer(accessToken: Option<string>)

  datatype BackendCall =
    | CreateUser(email: string, password: string, username: string)
    | UpsertProfile(id: string, email: string, username: string, avatarUrl: Option<string>, notificationDaysBefore: int)
    | DeleteUser(id: string)
    | SignInWithPassword(email: string, password: string)

  datatype ResponseBody = ErrorBody(error: string) | SessionBody(user: User, token: string)

  datatype Response = Response(status: int, body: ResponseBody)

  /** The request-validation answer, in the order the handler checks; `None` when valid. */
  function Validation(email: Option<string>, password: Option<string>, username: Option<string>): (r: Option<Response>)
    ensures r.Some? ==> r.value.status == 400
    ensures r.None? <==> Truthy(email) && Truthy(password) && Truthy(username)
                         && |username.value| >= 3 && |password.value| >= 6
    ensures !Truthy(email) || !Truthy(password) || !Truthy(username) ==>
      r == Some(Response(400, ErrorBody("Email, password and username are required.")))
    ensures Truthy(email) && Truthy(password) && Truthy(username) && |username.value| < 3 ==>
      r == Some(Response(400, ErrorBody("Username must be at least 3 characters.")))
    ensures Truthy(email) && Truthy(password) && Truthy(username) && |username.value| >= 3 && |password.value| < 6 ==>
      r == Some(Response(400, ErrorBody("Password must be at least 6 characters.")))
  {
    if !Truthy(email) || !Truthy(password) || !Truthy(username) then
      Some(Response(400, ErrorBody("Email, password and username are required.")))
    else if |username.value| < 3 then Some(Response(400, ErrorBody("Username must be at least 3 characters.")))
    else if |password.value| < 6 then Some(Response(400, ErrorBody("Password must be at least 6 characters.")))
    else None
  }

  /** `POST`: `profileError` is the profile upsert's error, if any. */
  method Post(body: Body, create: CreateCall, profileError: Option<string>, signIn: SignInCall)
    returns (response: Response, calls: seq<BackendCall>)
    ensures body.BodyThrew? ==>
      response == Response(500, ErrorBody(if body.message != "" then body.message else "Registration failed."))
      && calls == []
    ensures body.Body? && Validation(body.email, body.password, body.username).Some? ==>
      response == Validation(body.email, body.password, body.username).value && calls == []
    ensures body.Body? && Validation(body.email, body.password, body.username).None? ==>
      var email, password, username := body.email.value, body.password.value, body.username.value;
      && |calls| >= 1 && calls[0] == CreateUser(email, password, username)
      && (create.CreateError? ==> response == Response(400, ErrorBody(create.message)) && |calls| == 1)
      && (create.Created? ==>
            && |calls| == 3
            && calls[1] == UpsertProfile(create.userId, email, username, None, 1)
            && (profileError.Some? ==>
                  calls[2] == DeleteUser(create.userId) && response == Response(500, ErrorBody(profileError.value)))
            && (profileError.None? ==> calls[2] == SignInWithPassword(email, password))
            && (profileError.None? && (signIn.SignInError? || signIn.accessToken.None?) ==>
                  response == Response(200, ErrorBody("Account created. Please sign in.")))
            && (profileError.None? && signIn.SignInAnswer? && signIn.accessToken.Some? ==>
                  response == Response(201, SessionBody(User(create.userId, email, username, None, 1, create.createdAt),
                                                        signIn.accessToken.value))))
    ensures forall i :: 0 <= i < |calls| && calls[i].DeleteUser? ==> response.status == 500 && i == |calls| - 1
  {
    calls := [];
    if body.BodyThrew? {
      response := Response(500, ErrorBody(if body.message != "" then body.message else "Registration failed."));
      return;
    }
    var rejected := Validation(body.email, body.password, body.username);
    if rejected.Some? {
      response := rejected.value;
      return;
    }
    var email, password, username := body.email.value, body.password.value, body.username.value;
    calls := calls + [CreateUser(email, password, username)];
    if create.CreateError? {
      response := Response(400, ErrorBody(create.message));
      return;
    }
    calls := calls + [UpsertProfile(create.userId, email, username, None, 1)];
    if profileError.Some? {
      calls := calls + [DeleteUser(create.userId)];
      response := Response(500, ErrorBody(profileError.value));
      return;
    }
    calls := calls + [SignInWithPassword(email, password)];
    if signIn.SignInError? || signIn.accessToken.None? {
      response := Response(200, ErrorBody("Account created. Please sign in."));
      return;
    }
    var user := User(create.userId, email, username, None, 1, create.createdAt);
    response := Response(201, SessionBody(user, signIn.accessToken.value));
  }
}

=== FILE: text.dfy ===
/**
 * String helpers that the browser provides to the application: the whitespace class
 * shared by the `\s` regular-expression escape and `String.prototype.trim`, trimming,
 * decimal rendering of integers (template literals) and `slice(0, n)`.
 */
module Text {

  /** The ECMAScript WhiteSpace and LineTerminator code points. */
  const Whitespace: set<char> := {
    ' ', '\t', '\n', '\r', '\U{B}', '\U{C}', '\U{A0}', '\U{1680}',
    '\U{2000}', '\U{2001}', '\U{2002}', '\U{2003}', '\U{2004}', '\U{2005}',
    '\U{2006}', '\U{2007}', '\U{2008}', '\U{2009}', '\U{200A}',
    '\U{2028}', '\U{2029}', '\U{202F}', '\U{205F}', '\U{3000}', '\U{FEFF}'
  }

  predicate IsSpace(c: char) {
    c in Whitespace
  }

  predicate AllSpace(s: string) {
    forall i :: 0 <= i < |s| ==> IsSpace(s[i])
  }

  /** `s` is `r` with nothing but whitespace before and after it. */
  ghost predicate Padded(s: string, r: string) {
    exists p, q :: s == p + r + q && AllSpace(p) && AllSpace(q)
  }

  /**
   * `s.trim()`: whitespace is stripped from the front while there is some, then from the
   * back, so that what is left neither starts nor ends with whitespace, and only
   * whitespace around it was removed.
   */
  function Trim(s: string): (r: string)
    ensures |r| <= |s|
    ensures r == "" <==> AllSpace(s)
    ensures r != "" ==> !IsSpace(r[0]) && !IsSpace(r[|r| - 1])
    ensures Padded(s, r)
  {
    if |s| > 0 && IsSpace(s[0]) then
      TrimFront(s);
      var r := Trim(s[1..]);
      PaddedFront(s, r);
      r
    else if |s| > 0 && IsSpace(s[|s| - 1]) then
      TrimBack(s);
      var r := Trim(s[..|s| - 1]);
      PaddedBack(s, r);
      r
    else
      assert s == "" + s + "" && AllSpace("");
      s
  }

  /** Putting a space back in front keeps the padding whitespace-only. */
  lemma {:induction false} PaddedFront(s: string, r: string)
    requires |s| > 0 && IsSpace(s[0]) && Padded(s[1..], r)
    ensures Padded(s, r)
  {
    var p, q :| s[1..] == p + r + q && AllSpace(p) && AllSpace(q);
    var p' := [s[0]] + p;
    assert s == p' + r + q;
    assert AllSpace(p') by {
      forall i | 0 <= i < |p'| ensures IsSpace(p'[i]) {
        if i > 0 { assert p'[i] == p[i - 1]; }
      }
    }
  }

  /** Putting a space back at the end keeps the padding whitespace-only. */
  lemma {:induction false} PaddedBack(s: string, r: string)
    requires |s| > 0 && IsSpace(s[|s| - 1]) && Padded(s[..|s| - 1], r)
    ensures Padded(s, r)
  {
    var p, q :| s[..|s| - 1] == p + r + q && AllSpace(p) && AllSpace(q);
    var q' := q + [s[|s| - 1]];
    assert s == p + r + q';
    assert AllSpace(q') by {
      forall i | 0 <= i < |q'| ensures IsSpace(q'[i]) {
        if i < |q| { assert q'[i] == q[i]; }
      }
    }
  }

  /** Dropping a leading space keeps the all-space test. */
  lemma {:induction false} TrimFront(s: string)
    requires |s| > 0 && IsSpace(s[0])
    ensures AllSpace(s) <==> AllSpace(s[1..])
  {
    if AllSpace(s[1..]) {
      forall i | 0 < i < |s| ensures IsSpace(s[i]) {
        assert s[i] == s[1..][i - 1];
      }
    }
  }

  /** Dropping a trailing space keeps the all-space test. */
  lemma {:induction false} TrimBack(s: string)
    requires |s| > 0 && IsSpace(s[|s| - 1])
    ensures AllSpace(s) <==> AllSpace(s[..|s| - 1])
  {
    if AllSpace(s[..|s| - 1]) {
      forall i | 0 <= i < |s| - 1 ensures IsSpace(s[i]) {
        assert s[i] == s[..|s| - 1][i];
      }
    }
  }

  /** The trimmed string is an infix of the original: a prefix of one of its suffixes. */
  lemma {:induction false} TrimIsInfix(s: string)
    ensures exists a :: 0 <= a <= |s| && Trim(s) <= s[a..]
  {
    var r := Trim(s);
    var p, q :| s == p + r + q && AllSpace(p) && AllSpace(q);
    PrefixAfter(p, r, q);
  }

  lemma PrefixAfter(p: string, r: string, q: string)
    ensures r <= (p + r + q)[|p|..]
  {
    assert (p + r + q)[|p|..] == r + q;
  }

  lemma {:induction false} TrimIdempotent(s: string)
    ensures Trim(Trim(s)) == Trim(s)
  {
    var r := Trim(s);
    if r != "" {
      assert Trim(r) == r;
    }
  }

  function DigitChar(d: nat): (c: char)
    requires d < 10
    ensures '0' <= c <= '9'
  {
    "0123456789"[d]
  }

  predicate AllDigits(s: string) {
    forall i :: 0 <= i < |s| ==> '0' <= s[i] <= '9'
  }

  /** The number a string of decimal digits denotes, most significant digit first. */
  function DecimalValue(s: string): nat
    requires AllDigits(s)
  {
    if |s| == 0 then 0 else 10 * DecimalValue(s[..|s| - 1]) + (s[|s| - 1] as int - '0' as int)
  }

  /** The decimal rendering of a natural number, as `${n}` produces it. */
  function NatToString(n: nat): (r: string)
    ensures |r| >= 1
    ensures AllDigits(r) && DecimalValue(r) == n
    ensures r[0] == '0' <==> n == 0
  {
    if n < 10 then [DigitChar(n)]
    else
      var r := NatToString(n / 10) + [DigitChar(n % 10)];
      assert r[..|r| - 1] == NatToString(n / 10);
      r
  }

  /** The decimal rendering of an integer, with a leading minus sign when negative. */
  function IntToString(n: int): (r: string)
    ensures |r| >= 1
    ensures r[0] == '-' <==> n < 0
    ensures n >= 0 ==> AllDigits(r) && DecimalValue(r) == n && (r[0] == '0' ==> r == "0")
    ensures n < 0 ==> AllDigits(r[1..]) && DecimalValue(r[1..]) == -n && r[1] != '0'
  {
    if n < 0 then
      assert ("-" + NatToString(-n))[1..] == NatToString(-n);
      "-" + NatToString(-n)
    else NatToString(n)
  }

  /** `s.slice(0, n)` for a non-negative `n`. */
  function SliceTo(s: string, n: nat): (r: string)
    ensures |r| == if |s| <= n then |s| else n
    ensures r <= s
  {
    if |s| <= n then s else s[..n]
  }
}

=== FILE: ticket_detail_modal.dfy ===
/**
 * The ticket editor (src/components/board/TicketDetailModal.tsx): its pure helpers
 * (`timeAgo`, `formatActionLabel`, `isDirty`) and the editor's state with its handlers.
 * Store dispatches, the draft hook's calls and `onClose` are recorded, in order, in `log`;
 * the outcome of each awaited call is a parameter of the handler that awaits it.
 */
module TicketDetailModal {
  import opened Wrappers
  import opened Text
  import opened Types
  import opened Actions
  import opened DraftsSlice
  import opened DraftSave
  import DraftsApi
  import CategoryColumn

  // ---------------------------------------------------------------- timeAgo

  /** The nested floors of `timeAgo` are floors of the millisecond count by the bucket size. */
  lemma NestedFloors(d: int)
    ensures (d / 1000) / 60 == d / 60000
    ensures ((d / 1000) / 60) / 60 == d / 3600000
    ensures (((d / 1000) / 60) / 60) / 24 == d / 86400000
  {
  }

  function Plural(n: int): string {
    if n != 1 then "s" else ""
  }

  /**
   * `timeAgo` for an elapsed time of `diffMs` milliseconds (`None` when the date is
   * invalid); `localeDate` stands for `toLocaleDateString()`.
   */
  function TimeAgo(diffMs: Option<int>, localeDate: string): (r: string)
    ensures diffMs.None? ==> r == localeDate
    ensures diffMs.Some? && diffMs.value < 60000 ==> r == "just now"
    ensures diffMs.Some? && 60000 <= diffMs.value < 3600000 ==>
      var n := diffMs.value / 60000;
      1 <= n < 60 && r == IntToString(n) + " minute" + Plural(n) + " ago"
    ensures diffMs.Some? && 3600000 <= diffMs.value < 86400000 ==>
      var n := diffMs.value / 3600000;
      1 <= n < 24 && r == IntToString(n) + " hour" + Plural(n) + " ago"
    ensures diffMs.Some? && 86400000 <= diffMs.value < 2592000000 ==>
      var n := diffMs.value / 86400000;
      1 <= n < 30 && r == IntToString(n) + " day" + Plural(n) + " ago"
    ensures diffMs.Some? && 2592000000 <= diffMs.value ==> r == localeDate
  {
    match diffMs
    case None => localeDate
    case Some(d) =>
      var secs := d / 1000;
      var mins := secs / 60;
      var hours := mins / 60;
      var days := hours / 24;
      NestedFloors(d);
      if secs < 60 then "just now"
      else if mins < 60 then IntToString(mins) + " minute" + Plural(mins) + " ago"
      else if hours < 24 then IntToString(hours) + " hour" + Plural(hours) + " ago"
      else if days < 30 then IntToString(days) + " day" + Plural(days) + " ago"
      else localeDate
  }

  // ------------------------------------------------------- formatActionLabel

  /** `\w` of a JavaScript regular expression. */
  predicate IsWordChar(c: char) {
    'a' <= c <= 'z' || 'A' <= c <= 'Z' || '0' <= c <= '9' || c == '_'
  }

  /** `toUpperCase` of a single word character. */
  function Upper(c: char): (u: char)
    ensures IsWordChar(c) <==> IsWordChar(u)
    ensures 'a' <= c <= 'z' ==> 'A' <= u <= 'Z' && u as int == c as int - 32
    ensures !('a' <= c <= 'z') ==> u == c
  {
    if 'a' <= c <= 'z' then (c as int - 'a' as int + 'A' as int) as char else c
  }

  /** A `\b\w` match: a word character at the start or after a non-word character. */
  predicate WordStart(s: string, i: int)
    requires 0 <= i < |s|
  {
    IsWordChar(s[i]) && (i == 0 || !IsWordChar(s[i - 1]))
  }

  /**
   * `formatActionLabel`: every `_` becomes a space, then each word's first character is
   * upper-cased. Only those two changes are made, and no word of the result starts with
   * a lower-case letter.
   */
  function FormatActionLabel(action: string): (r: string)
    ensures |r| == |action|
    ensures '_' !in r
    ensures forall i :: 0 <= i < |action| && action[i] == '_' ==> r[i] == ' '
    ensures forall i :: 0 <= i < |r| && action[i] != '_' ==>
      r[i] == if WordStart(r, i) then Upper(action[i]) else action[i]
    ensures forall i :: 0 <= i < |r| && WordStart(r, i) ==> !('a' <= r[i] <= 'z')
  {
    var spaced := seq(|action|, i requires 0 <= i < |action| => if action[i] == '_' then ' ' else action[i]);
    var r := seq(|spaced|, i requires 0 <= i < |spaced| => if WordStart(spaced, i) then Upper(spaced[i]) else spaced[i]);
    assert forall i :: 0 <= i < |r| ==> IsWordChar(r[i]) == IsWordChar(spaced[i]);
    assert forall i :: 0 <= i < |r| ==> WordStart(r, i) == WordStart(spaced, i);
    r
  }

  /** Formatting a formatted label changes nothing. */
  lemma FormatActionLabelIdempotent(action: string)
    ensures FormatActionLabel(FormatActionLabel(action)) == FormatActionLabel(action)
  {
    var r := FormatActionLabel(action);
    var spaced := seq(|action|, i requires 0 <= i < |action| => if action[i] == '_' then ' ' else action[i]);
    var rr := FormatActionLabel(r);
    assert forall i :: 0 <= i < |r| ==> IsWordChar(r[i]) == IsWordChar(spaced[i]);
    forall i | 0 <= i < |r| ensures rr[i] == r[i] {
      if i > 0 {
        assert IsWordChar(r[i - 1]) == IsWordChar(spaced[i - 1]);
      }
    }
  }

  /** The history's action names read as titles: `ticket_moved` shows as `Ticket Moved`. */
  lemma FormatTicketMoved()
    ensures FormatActionLabel("ticket_moved") == "Ticket Moved"
  {
    var r := FormatActionLabel("ticket_moved");
    assert r[0] == 'T' && r[6] == ' ' && r[7] == 'M';
    assert r[1] == 'i' && r[8] == 'o';
  }

  // ------------------------------------------------------------------ editor

  /** The seven edited fields of the form. */
  datatype EditorFields = EditorFields(
    title: string,
    description: string,
    expiryDate: string,
    priorityLabel: string,
    priorityColor: string,
    priorityOrder: int,
    categoryId: string)

  /** The form's initial values; the expiry is cut to the `datetime-local` length of 16. */
  function InitialFields(t: Ticket): (f: EditorFields)
    ensures f.expiryDate <= t.expiryDate && |f.expiryDate| <= 16
  {
    EditorFields(t.title, t.description, SliceTo(t.expiryDate, 16), t.priorityLabel,
                 t.priorityColor, t.priorityOrder, t.categoryId)
  }

  /** `isDirty`: some field differs from the ticket's (the expiry from its 16-character prefix). */
  predicate IsDirty(f: EditorFields, t: Ticket) {
    || f.title != t.title || f.description != t.description
    || f.expiryDate != SliceTo(t.expiryDate, 16)
    || f.priorityLabel != t.priorityLabel || f.priorityColor != t.priorityColor
    || f.priorityOrder != t.priorityOrder || f.categoryId != t.categoryId
  }

  /** The form is clean exactly when it holds the ticket's initial values. */
  lemma CleanIffInitial(f: EditorFields, t: Ticket)
    ensures !IsDirty(f, t) <==> f == InitialFields(t)
  {
  }

  /** The title a save sends: the trimmed title, or the ticket's when that is blank. */
  function SavedTitle(title: string, t: Ticket): (r: string)
    ensures Trim(title) != "" ==> r == Trim(title)
    ensures AllSpace(title) ==> r == t.title
  {
    if Trim(title) != "" then Trim(title) else t.title
  }

  /**
   * `targetPosition`: the number of tickets currently in the destination column, that is
   * the length of the column's filtered list.
   */
  function CountInCategory(tickets: seq<Ticket>, categoryId: string): (n: nat)
    ensures n <= |tickets|
    ensures n == |CategoryColumn.InCategory(tickets, categoryId)|
    ensures n == 0 <==> forall i :: 0 <= i < |tickets| ==> tickets[i].categoryId != categoryId
  {
    if |tickets| == 0 then 0
    else (if tickets[0].categoryId == categoryId then 1 else 0) + CountInCategory(tickets[1..], categoryId)
  }

  datatype EditorEvent =
    | Dispatched(action: BoardAction)
    | DraftSaved(payload: DraftPayload)
    | DraftCleared
    | Closed

  class TicketEditor {
    const ticket: Ticket
    const session: DraftSession
    var fields: EditorFields
    var saving: bool
    var draftApplied: bool
    /** `draftAppliedRef`: a draft has been applied to this editor. */
    var draftAppliedOnce: bool
    var log: seq<EditorEvent>

    /** Mounting: the form holds the ticket's values and the history fetch is dispatched. */
    constructor (ticket: Ticket, session: DraftSession)
      requires session.ticketId == Some(ticket.id)
      ensures this.ticket == ticket && this.session == session
      ensures fields == InitialFields(ticket) && !IsDirty(fields, ticket)
      ensures !saving && !draftApplied && !draftAppliedOnce
      ensures log == [Dispatched(FetchCardHistory(ticket.id))]
    {
      this.ticket := ticket;
      this.session := session;
      fields := InitialFields(ticket);
      saving := false;
      draftApplied := false;
      draftAppliedOnce := false;
      log := [Dispatched(FetchCardHistory(ticket.id))];
    }

    /**
     * `onDraftLoaded`: the first draft offered is applied; an empty title or expiry falls
     * back to the ticket's, the priority label and colour and the column are taken only
     * when non-empty. Later drafts are ignored.
     */
    method OnDraftLoaded(d: Draft)
      modifies this
      ensures old(draftAppliedOnce) ==> fields == old(fields) && draftApplied == old(draftApplied)
      ensures !old(draftAppliedOnce) ==>
        && fields.title == (if d.title != "" then d.title else ticket.title)
        && fields.description == d.description
        && fields.expiryDate == (if d.expiryDate != "" then d.expiryDate else SliceTo(ticket.expiryDate, 16))
        && fields.priorityLabel == (if d.priorityLabel != "" then d.priorityLabel else old(fields.priorityLabel))
        && fields.priorityColor == (if d.priorityColor != "" then d.priorityColor else old(fields.priorityColor))
        && fields.priorityOrder == d.priorityOrder
        && fields.categoryId == (if d.categoryId != "" then d.categoryId else old(fields.categoryId))
        && draftApplied
      ensures draftAppliedOnce
      ensures saving == old(saving) && log == old(log)
    {
      if draftAppliedOnce {
        return;
      }
      draftAppliedOnce := true;
      var f := fields;
      f := f.(title := if d.title != "" then d.title else ticket.title);
      f := f.(description := d.description);
      f := f.(expiryDate := if d.expiryDate != "" then d.expiryDate else SliceTo(ticket.expiryDate, 16));
      if d.priorityLabel != "" { f := f.(priorityLabel := d.priorityLabel); }
      if d.priorityColor != "" { f := f.(priorityColor := d.priorityColor); }
      f := f.(priorityOrder := d.priorityOrder);
      if d.categoryId != "" { f := f.(categoryId := d.categoryId); }
      fields := f;
      draftApplied := true;
    }

    /**
     * `handleSave`: update the ticket, move it when its column changed, then clear the
     * draft and close. `updateOk`/`moveOk` are the outcomes of the awaited dispatches and
     * `deleted` that of the draft deletion.
     */
    method HandleSave(allTickets: seq<Ticket>, updateOk: bool, moveOk: bool, deleted: bool)
      modifies this, session, session.drafts
      ensures var update := Dispatched(UpdateTicket(ticket.id, TicketFields(SavedTitle(old(fields.title), ticket),
                old(fields.description), old(fields.expiryDate), old(fields.priorityLabel),
                old(fields.priorityColor), old(fields.priorityOrder))));
        var moves := old(fields.categoryId) != ticket.categoryId;
        var move := Dispatched(MoveTicket(ticket.id, old(fields.categoryId), CountInCategory(allTickets, old(fields.categoryId))));
        var succeeded := updateOk && (!moves || moveOk);
        && log == old(log) + [update]
                            + (if updateOk && moves then [move] else [])
                            + (if succeeded then [DraftCleared, Closed] else [])
        && saving == succeeded
        && session.Snapshot() == if succeeded then Cleared(old(session.Snapshot()), session.ticketId, deleted)
                                 else old(session.Snapshot())
      ensures fields == old(fields) && draftAppliedOnce == old(draftAppliedOnce) && draftApplied == old(draftApplied)
    {
      var f := fields;
      saving := true;
      var events := [Dispatched(UpdateTicket(ticket.id, TicketFields(SavedTitle(f.title, ticket), f.description,
                                                                    f.expiryDate, f.priorityLabel, f.priorityColor,
                                                                    f.priorityOrder)))];
      var succeeded := updateOk;
      if updateOk && f.categoryId != ticket.categoryId {
        events := events + [Dispatched(MoveTicket(ticket.id, f.categoryId, CountInCategory(allTickets, f.categoryId)))];
        succeeded := moveOk;
      }
      if succeeded {
        var _ := session.ClearDraft(deleted);
        events := events + [DraftCleared, Closed];
      }
      log := log + events;
      saving := succeeded;
    }

    /**
     * `handleClose`: a dirty form is saved as a draft (with the saved title) before
     * closing; `saved` is the outcome of that save and `request` the call it issues.
     */
    method HandleClose(saved: Option<Draft>) returns (request: Option<DraftsApi.SaveRequest>)
      modifies this, session, session.drafts
      ensures var payload := DraftPayload(SavedTitle(old(fields.title), ticket), old(fields.description),
                old(fields.expiryDate), old(fields.priorityLabel), old(fields.priorityColor),
                old(fields.priorityOrder), old(fields.categoryId));
        && log == old(log) + (if IsDirty(old(fields), ticket) then [DraftSaved(payload), Closed] else [Closed])
        && (request.Some? <==> IsDirty(old(fields), ticket) && session.userId.Some? && Truthy(session.ticketId))
        && (request.Some? ==>
              request.value == DraftsApi.SaveRequest(session.ticketId, payload.title, payload.description,
                payload.expiryDate, payload.priorityLabel, payload.priorityColor, payload.priorityOrder,
                payload.categoryId, session.userId.value, old(session.cachedDraftId)))
      ensures request.Some? && saved.Some? ==>
        session.cachedDraftId == Some(saved.value.id)
        && session.drafts.draftedTicketIds == Marked(old(session.drafts.draftedTicketIds), session.ticketId.value)
      ensures request.None? || saved.None? ==>
        session.cachedDraftId == old(session.cachedDraftId)
        && session.drafts.draftedTicketIds == old(session.drafts.draftedTicketIds)
      ensures session.restoredDraft == old(session.restoredDraft) && session.draftRestored == old(session.draftRestored)
      ensures session.initialized == old(session.initialized) && session.loadedCallbacks == old(session.loadedCallbacks)
      ensures fields == old(fields) && saving == old(saving)
    {
      request := None;
      if IsDirty(fields, ticket) {
        var payload := DraftPayload(SavedTitle(fields.title, ticket), fields.description, fields.expiryDate,
                                    fields.priorityLabel, fields.priorityColor, fields.priorityOrder,
                                    fields.categoryId);
        request := session.SaveCurrentDraft(payload, saved);
        log := log + [DraftSaved(payload)];
      }
      log := log + [Closed];
    }

    /**
     * `handleDelete`: the ticket leaves the local state and the modal closes before the
     * draft is cleared (its failure is swallowed) and the deletion is dispatched.
     * `deleted` is the outcome of the draft deletion.
     */
    method HandleDelete(deleted: bool)
      modifies this, session, session.drafts
      ensures log == old(log) + [Dispatched(RemoveTicketFromState(ticket.id)), Closed, DraftCleared,
                                 Dispatched(DeleteTicket(ticket.id))]
      ensures session.Snapshot() == Cleared(old(session.Snapshot()), session.ticketId, deleted)
      ensures fields == old(fields) && saving == old(saving)
    {
      log := log + [Dispatched(RemoveTicketFromState(ticket.id))];
      log := log + [Closed];
      var _ := session.ClearDraft(deleted);
      log := log + [DraftCleared];
      log := log + [Dispatched(DeleteTicket(ticket.id))];
    }
  }
}

=== FILE: tickets_api.dfy ===
/**
 * The tickets API (src/lib/api/tickets.ts). A backend row, and a payload sent to the
 * backend, are maps from column name to value; a column that is absent reads like a null.
 * The `tickets` table itself is an abstract store from ticket id to row.
 */
module TicketsApi {
  import opened Wrappers
  import opened Types

  datatype Value = Str(s: string) | Num(n: int) | Null

  /** The columns of the `tickets` table (`expiry_date`, `priority_label`, ... in the backend). */
  datatype Column =
    | Id | Title | Description | ExpiryDate | PriorityLabel | PriorityColor | PriorityOrder
    | CategoryId | UserId | Position | CreatedAt | UpdatedAt

  type Row = map<Column, Value>

  const DefaultPriorityColor := "#6b7280"

  /** A string column, or `default` when it is absent or null (`?? default`). */
  function StrOr(row: Row, column: Column, default: string): (r: string)
    ensures column in row && row[column].Str? ==> r == row[column].s
    ensures column !in row || row[column].Null? ==> r == default
  {
    if column in row && row[column].Str? then row[column].s else default
  }

  function NumOr(row: Row, column: Column, default: int): (r: int)
    ensures column in row && row[column].Num? ==> r == row[column].n
    ensures column !in row || row[column].Null? ==> r == default
  {
    if column in row && row[column].Num? then row[column].n else default
  }

  /**
   * `mapRow`: description, expiry and label default to '', colour to '#6b7280', order to 0.
   * The other columns carry no default in the source; an absent one reads as '' or 0 here.
   */
  function MapRow(row: Row): (t: Ticket)
    ensures t.description == StrOr(row, Description, "") && t.expiryDate == StrOr(row, ExpiryDate, "")
    ensures t.priorityLabel == StrOr(row, PriorityLabel, "")
    ensures t.priorityColor == StrOr(row, PriorityColor, DefaultPriorityColor)
    ensures t.priorityOrder == NumOr(row, PriorityOrder, 0)
  {
    Ticket(StrOr(row, Id, ""), StrOr(row, Title, ""), StrOr(row, Description, ""),
           StrOr(row, ExpiryDate, ""), StrOr(row, PriorityLabel, ""),
           StrOr(row, PriorityColor, DefaultPriorityColor), NumOr(row, PriorityOrder, 0),
           StrOr(row, CategoryId, ""), StrOr(row, UserId, ""), NumOr(row, Position, 0),
           StrOr(row, CreatedAt, ""), StrOr(row, UpdatedAt, ""))
  }

  /** A row whose optional columns are all missing reads with every default. */
  lemma MapRowDefaults(row: Row)
    requires forall c :: c in row ==> c !in {Description, ExpiryDate, PriorityLabel, PriorityColor, PriorityOrder}
    ensures var t := MapRow(row);
      t.description == "" && t.expiryDate == "" && t.priorityLabel == ""
      && t.priorityColor == DefaultPriorityColor && t.priorityOrder == 0
  {
  }

  /** An empty expiry is stored as null (`expiryDate || null`). */
  function ExpiryValue(expiryDate: string): (v: Value)
    ensures v.Null? <==> expiryDate == ""
  {
    if expiryDate == "" then Null else Str(expiryDate)
  }

  datatype NewTicket = NewTicket(
    title: string,
    description: string,
    expiryDate: string,
    priorityLabel: string,
    priorityColor: string,
    priorityOrder: int,
    categoryId: string,
    userId: string,
    position: int)

  /** The row `createTicket` inserts. */
  function CreatePayload(data: NewTicket): (p: Row)
    ensures p.Keys == {Title, Description, ExpiryDate, PriorityLabel, PriorityColor,
                       PriorityOrder, CategoryId, UserId, Position}
    ensures p[Position] == Num(data.position) && p[CategoryId] == Str(data.categoryId)
    ensures p[ExpiryDate].Null? <==> data.expiryDate == ""
  {
    map[Title := Str(data.title), Description := Str(data.description),
        ExpiryDate := ExpiryValue(data.expiryDate), PriorityLabel := Str(data.priorityLabel),
        PriorityColor := Str(data.priorityColor), PriorityOrder := Num(data.priorityOrder),
        CategoryId := Str(data.categoryId), UserId := Str(data.userId), Position := Num(data.position)]
  }

  /**
   * Create then read: the row the backend returns (the payload plus the columns it fills in)
   * maps back to a ticket with the given fields; an empty expiry comes back as ''.
   */
  lemma CreateThenRead(data: NewTicket, generated: Row)
    requires forall c :: c in generated ==> c in {Id, CreatedAt, UpdatedAt}
    ensures var t := MapRow(CreatePayload(data) + generated);
      && t.title == data.title && t.description == data.description && t.expiryDate == data.expiryDate
      && t.priorityLabel == data.priorityLabel && t.priorityColor == data.priorityColor
      && t.priorityOrder == data.priorityOrder && t.categoryId == data.categoryId
      && t.userId == data.userId && t.position == data.position
  {
    var row := CreatePayload(data) + generated;
    assert ExpiryDate !in generated && Title !in generated && Position !in generated;
    assert Description !in generated && PriorityLabel !in generated && PriorityColor !in generated;
    assert PriorityOrder !in generated && CategoryId !in generated && UserId !in generated;
    assert row[ExpiryDate] == ExpiryValue(data.expiryDate);
  }

  /** The `Partial` argument of `updateTicket`: a field is supplied when it is `Some`. */
  datatype TicketPatch = TicketPatch(
    title: Option<string>,
    description: Option<string>,
    expiryDate: Option<string>,
    priorityLabel: Option<string>,
    priorityColor: Option<string>,
    priorityOrder: Option<int>,
    categoryId: Option<string>,
    position: Option<int>)

  function MapStr(o: Option<string>): Option<Value> {
    if o.Some? then Some(Str(o.value)) else None
  }

  function MapNum(o: Option<int>): Option<Value> {
    if o.Some? then Some(Num(o.value)) else None
  }

  /** The value a patch writes into `column`, when it writes that column at all. */
  function PatchValue(data: TicketPatch, column: Column): Option<Value> {
    match column
    case Title => MapStr(data.title)
    case Description => MapStr(data.description)
    case ExpiryDate => if data.expiryDate.Some? then Some(ExpiryValue(data.expiryDate.value)) else None
    case PriorityLabel => MapStr(data.priorityLabel)
    case PriorityColor => MapStr(data.priorityColor)
    case PriorityOrder => MapNum(data.priorityOrder)
    case CategoryId => MapStr(data.categoryId)
    case Position => MapNum(data.position)
    case _ => None
  }

  /** `payload` holds `column` exactly when `v` is present, with that value. */
  predicate Carries(payload: Row, column: Column, v: Option<Value>) {
    (column in payload <==> v.Some?) && (v.Some? ==> payload[column] == v.value)
  }

  const PatchColumns: set<Column> := {Title, Description, ExpiryDate, PriorityLabel,
                                      PriorityColor, PriorityOrder, CategoryId, Position}

  /** `updated_at` is stamped with `now`, and every other column is there exactly when supplied. */
  predicate IsUpdatePayload(payload: Row, data: TicketPatch, now: string) {
    && UpdatedAt in payload && payload[UpdatedAt] == Str(now)
    && payload.Keys <= PatchColumns + {UpdatedAt}
    && forall c :: c != UpdatedAt ==> Carries(payload, c, PatchValue(data, c))
  }

  /**
   * Update then read: the updated row maps to the old ticket with each supplied field
   * replaced (an empty expiry reads back as ''), a new `updatedAt`, and nothing else changed.
   */
  lemma UpdateThenRead(row: Row, data: TicketPatch, now: string, payload: Row)
    requires IsUpdatePayload(payload, data, now)
    ensures var before := MapRow(row);
      MapRow(row + payload) == before.(
        title := data.title.GetOr(before.title),
        description := data.description.GetOr(before.description),
        expiryDate := data.expiryDate.GetOr(before.expiryDate),
        priorityLabel := data.priorityLabel.GetOr(before.priorityLabel),
        priorityColor := data.priorityColor.GetOr(before.priorityColor),
        priorityOrder := data.priorityOrder.GetOr(before.priorityOrder),
        categoryId := data.categoryId.GetOr(before.categoryId),
        position := data.position.GetOr(before.position),
        updatedAt := now)
  {
    assert Carries(payload, Title, PatchValue(data, Title));
    assert Carries(payload, Description, PatchValue(data, Description));
    assert Carries(payload, ExpiryDate, PatchValue(data, ExpiryDate));
    assert Carries(payload, PriorityLabel, PatchValue(data, PriorityLabel));
    assert Carries(payload, PriorityColor, PatchValue(data, PriorityColor));
    assert Carries(payload, PriorityOrder, PatchValue(data, PriorityOrder));
    assert Carries(payload, CategoryId, PatchValue(data, CategoryId));
    assert Carries(payload, Position, PatchValue(data, Position));
    assert Carries(payload, Id, None) && Carries(payload, UserId, None) && Carries(payload, CreatedAt, None);
    ReadAfterPatch(row, data, now, payload);
  }

  /** The field-by-field reading of a patched row, from what the payload carries column by column. */
  lemma ReadAfterPatch(row: Row, data: TicketPatch, now: string, payload: Row)
    requires UpdatedAt in payload && payload[UpdatedAt] == Str(now)
    requires Carries(payload, Title, MapStr(data.title)) && Carries(payload, Description, MapStr(data.description))
    requires Carries(payload, ExpiryDate, if data.expiryDate.Some? then Some(ExpiryValue(data.expiryDate.value)) else None)
    requires Carries(payload, PriorityLabel, MapStr(data.priorityLabel))
    requires Carries(payload, PriorityColor, MapStr(data.priorityColor))
    requires Carries(payload, PriorityOrder, MapNum(data.priorityOrder))
    requires Carries(payload, CategoryId, MapStr(data.categoryId)) && Carries(payload, Position, MapNum(data.position))
    requires Carries(payload, Id, None) && Carries(payload, UserId, None) && Carries(payload, CreatedAt, None)
    ensures var before := MapRow(row);
      MapRow(row + payload) == before.(
        title := data.title.GetOr(before.title),
        description := data.description.GetOr(before.description),
        expiryDate := data.expiryDate.GetOr(before.expiryDate),
        priorityLabel := data.priorityLabel.GetOr(before.priorityLabel),
        priorityColor := data.priorityColor.GetOr(before.priorityColor),
        priorityOrder := data.priorityOrder.GetOr(before.priorityOrder),
        categoryId := data.categoryId.GetOr(before.categoryId),
        position := data.position.GetOr(before.position),
        updatedAt := now)
  {
    StrAfter(row, payload, Title, data.title, "");
    StrAfter(row, payload, Description, data.description, "");
    StrAfter(row, payload, PriorityLabel, data.priorityLabel, "");
    StrAfter(row, payload, PriorityColor, data.priorityColor, DefaultPriorityColor);
    StrAfter(row, payload, CategoryId, data.categoryId, "");
    NumAfter(row, payload, PriorityOrder, data.priorityOrder, 0);
    NumAfter(row, payload, Position, data.position, 0);
    ExpiryAfter(row, payload, data.expiryDate);
    StrAfter(row, payload, Id, None, "");
    StrAfter(row, payload, UserId, None, "");
    StrAfter(row, payload, CreatedAt, None, "");
  }

  lemma ExpiryAfter(row: Row, payload: Row, v: Option<string>)
    requires Carries(payload, ExpiryDate, if v.Some? then Some(ExpiryValue(v.value)) else None)
    ensures StrOr(row + payload, ExpiryDate, "") == v.GetOr(StrOr(row, ExpiryDate, ""))
  {
  }

  lemma StrAfter(row: Row, payload: Row, c: Column, v: Option<string>, default: string)
    requires Carries(payload, c, MapStr(v))
    ensures StrOr(row + payload, c, default) == v.GetOr(StrOr(row, c, default))
  {
  }

  lemma NumAfter(row: Row, payload: Row, c: Column, v: Option<int>, default: int)
    requires Carries(payload, c, MapNum(v))
    ensures NumOr(row + payload, c, default) == v.GetOr(NumOr(row, c, default))
  {
  }

  /** The first four steps of `updateTicket`'s payload, on top of `updated_at`. */
  method PutTextColumns(data: TicketPatch, now: string) returns (payload: Row)
    ensures payload.Keys <= {UpdatedAt, Title, Description, ExpiryDate, PriorityLabel}
    ensures UpdatedAt in payload && payload[UpdatedAt] == Str(now)
    ensures forall c :: c in {Title, Description, ExpiryDate, PriorityLabel} ==> Carries(payload, c, PatchValue(data, c))
  {
    payload := map[UpdatedAt := Str(now)];
    if data.title.Some? { payload := payload[Title := Str(data.title.value)]; }
    if data.description.Some? { payload := payload[Description := Str(data.description.value)]; }
    if data.expiryDate.Some? { payload := payload[ExpiryDate := ExpiryValue(data.expiryDate.value)]; }
    if data.priorityLabel.Some? { payload := payload[PriorityLabel := Str(data.priorityLabel.value)]; }
  }

  /** The last four steps of `updateTicket`'s payload; the columns already set are kept. */
  method PutOtherColumns(data: TicketPatch, start: Row) returns (payload: Row)
    ensures payload.Keys <= start.Keys + {PriorityColor, PriorityOrder, CategoryId, Position}
    ensures forall c :: c in start && c !in {PriorityColor, PriorityOrder, CategoryId, Position} ==>
              c in payload && payload[c] == start[c]
    ensures forall c :: c in {PriorityColor, PriorityOrder, CategoryId, Position} && c !in start ==>
              Carries(payload, c, PatchValue(data, c))
  {
    payload := start;
    if data.priorityColor.Some? { payload := payload[PriorityColor := Str(data.priorityColor.value)]; }
    if data.priorityOrder.Some? { payload := payload[PriorityOrder := Num(data.priorityOrder.value)]; }
    if data.categoryId.Some? { payload := payload[CategoryId := Str(data.categoryId.value)]; }
    if data.position.Some? { payload := payload[Position := Num(data.position.value)]; }
  }

  /**
   * `updateTicket`'s payload, built column by column: `updated_at` always, every other
   * column exactly when its field is supplied.
   */
  method UpdatePayload(data: TicketPatch, now: string) returns (payload: Row)
    ensures IsUpdatePayload(payload, data, now)
  {
    payload := PutTextColumns(data, now);
    payload := PutOtherColumns(data, payload);
    forall c | c != UpdatedAt ensures Carries(payload, c, PatchValue(data, c)) {
      if c in {Id, UserId, CreatedAt} {
        assert PatchValue(data, c) == None;
      }
    }
  }

  /** The position a batch finally gives `id`: the last entry for it, if any. */
  function LastPosition(updates: seq<(string, int)>, id: string): (r: Option<int>)
    ensures r.None? <==> forall i :: 0 <= i < |updates| ==> updates[i].0 != id
    ensures r.Some? ==> exists i :: 0 <= i < |updates| && updates[i] == (id, r.value)
  {
    if |updates| == 0 then None
    else if updates[|updates| - 1].0 == id then Some(updates[|updates| - 1].1)
    else LastPosition(updates[..|updates| - 1], id)
  }

  /** A row after a batch: only its `position` column, and only when the batch lists it. */
  function Repositioned(row: Row, updates: seq<(string, int)>, id: string): Row {
    match LastPosition(updates, id)
    case None => row
    case Some(p) => row[Position := Num(p)]
  }

  /** One more entry in a batch: the row gets that entry's position when it names the row. */
  lemma RepositionedStep(row: Row, updates: seq<(string, int)>, u: (string, int), id: string)
    ensures Repositioned(row, updates + [u], id)
            == if u.0 == id then Repositioned(row, updates, id)[Position := Num(u.1)]
               else Repositioned(row, updates, id)
  {
    assert (updates + [u])[..|updates|] == updates;
  }

  /**
   * The entries of a batch whose update reaches the table: those whose index is not in
   * `failed`, in their order. The code never reads an update's error, so a failed entry
   * is simply lost.
   */
  function Applied(updates: seq<(string, int)>, failed: set<nat>): (r: seq<(string, int)>)
    ensures |r| <= |updates|
    ensures (forall i :: 0 <= i < |updates| ==> i !in failed) ==> r == updates
    ensures forall i :: 0 <= i < |updates| && i !in failed ==> updates[i] in r
    ensures forall e :: e in r ==> exists i :: 0 <= i < |updates| && i !in failed && updates[i] == e
  {
    if |updates| == 0 then []
    else
      var init := updates[..|updates| - 1];
      var rest := Applied(init, failed);
      assert forall i :: 0 <= i < |init| ==> init[i] == updates[i];
      rest + if |updates| - 1 in failed then [] else [updates[|updates| - 1]]
  }

  /** A row all of whose entries failed keeps its position, as if it were not listed. */
  lemma AllFailedKeepsRow(row: Row, updates: seq<(string, int)>, failed: set<nat>, id: string)
    requires forall i :: 0 <= i < |updates| && updates[i].0 == id ==> i in failed
    ensures Repositioned(row, Applied(updates, failed), id) == row
  {
    var r := Applied(updates, failed);
    forall k | 0 <= k < |r| ensures r[k].0 != id {
      assert r[k] in r;
    }
  }

  /** Setting the position column changes the mapped ticket's position and nothing else. */
  lemma RepositionTouchesOnlyPosition(row: Row, p: int)
    ensures MapRow(row[Position := Num(p)]) == MapRow(row).(position := p)
  {
  }

  /** The table after one entry of a batch: the listed row's position is set, unless the update failed. */
  function BatchNext(rows: map<string, Row>, u: (string, int), failed: bool): (r: map<string, Row>)
    ensures r.Keys == rows.Keys
    ensures forall id :: id in r ==> r[id] == if !failed && id == u.0 then rows[id][Position := Num(u.1)] else rows[id]
  {
    if !failed && u.0 in rows then rows[u.0 := rows[u.0][Position := Num(u.1)]] else rows
  }

  /** One entry of a batch, applied to the table unless it failed, keeps the loop invariant. */
  lemma BatchStep(rows0: map<string, Row>, rows: map<string, Row>, updates: seq<(string, int)>,
                  failed: set<nat>, i: nat)
    requires i < |updates| && rows.Keys == rows0.Keys
    requires forall id :: id in rows ==> rows[id] == Repositioned(rows0[id], Applied(updates[..i], failed), id)
    ensures
      var next := BatchNext(rows, updates[i], i in failed);
      forall id :: id in next ==> next[id] == Repositioned(rows0[id], Applied(updates[..i + 1], failed), id)
  {
    assert updates[..i + 1][..i] == updates[..i];
    var before := Applied(updates[..i], failed);
    if i in failed {
      assert Applied(updates[..i + 1], failed) == before;
    } else {
      assert Applied(updates[..i + 1], failed) == before + [updates[i]];
      forall other | other in rows0 {
        RepositionedStep(rows0[other], before, updates[i], other);
      }
    }
  }

  /** The `tickets` table: rows by ticket id. */
  class TicketTable {
    var rows: map<string, Row>

    constructor (rows: map<string, Row>)
      ensures this.rows == rows
    {
      this.rows := rows;
    }

    /**
     * `batchUpdateTicketPositions`: each listed id gets its position; an id with no row is
     * ignored. The updates are applied one after another (a later entry for an id wins).
     * `failed` holds the indices of the entries whose update the backend rejected; their
     * errors are never read, so they are skipped and the call still resolves.
     */
    method BatchUpdatePositions(updates: seq<(string, int)>, failed: set<nat>)
      modifies this
      ensures rows.Keys == old(rows).Keys
      ensures forall id :: id in rows ==> rows[id] == Repositioned(old(rows)[id], Applied(updates, failed), id)
    {
      var i := 0;
      while i < |updates|
        invariant 0 <= i <= |updates|
        invariant rows.Keys == old(rows).Keys
        invariant forall id :: id in rows ==> rows[id] == Repositioned(old(rows)[id], Applied(updates[..i], failed), id)
      {
        BatchStep(old(rows), rows, updates, failed, i);
        rows := BatchNext(rows, updates[i], i in failed);
        i := i + 1;
      }
      assert updates[..i] == updates;
    }
  }
}

=== FILE: types.dfy ===
/** The application's records (src/types/index.ts). Timestamps and ids are opaque strings. */
module Types {
  import opened Wrappers

  datatype User = User(
    id: string,
    email: string,
    username: string,
    avatarUrl: Option<string>,
    notificationDaysBefore: int,
    createdAt: string)

  /** A column of the board; `position` is its rank among the owner's columns. */
  datatype Category = Category(
    id: string,
    name: string,
    color: string,
    position: int,
    userId: string,
    createdAt: string)

  /** A task card; `position` is its rank inside the column `categoryId`. */
  datatype Ticket = Ticket(
    id: string,
    title: string,
    description: string,
    expiryDate: string,
    priorityLabel: string,
    priorityColor: string,
    priorityOrder: int,
    categoryId: string,
    userId: string,
    position: int,
    createdAt: string,
    updatedAt: string)

  /** A staged, unsaved edit of one ticket (the shape the drafts API returns). */
  datatype Draft = Draft(
    id: string,
    ticketId: Option<string>,
    title: string,
    description: string,
    expiryDate: string,
    priorityLabel: string,
    priorityColor: string,
    priorityOrder: int,
    categoryId: string,
    userId: string,
    updatedAt: string)

  /** A priority level; `name` is the source's `label` (a reserved word in Dafny). */
  datatype Priority = Priority(name: string, color: string, order: int)
}

=== FILE: wrappers.dfy ===
/** Optional values: the model's reading of JavaScript's `null` / `undefined`. */
module Wrappers {

  datatype Option<+T> = None | Some(value: T) {

    /** The value, or `default` when there is none (JavaScript's `??`). */
    function GetOr(default: T): T {
      match this
      case Some(v) => v
      case None => default
    }
  }

  /** A string field that may be absent reads as truthy only when present and non-empty. */
  predicate Truthy(s: Option<string>) {
    s.Some? && s.value != ""
  }
}
